=== FILE: README.md ===
# Document routing and chunking core of `rag`

A Dafny model of the document-side logic of the `rag` service. The service ingests PDF files, classifies them, chunks them for a vector store, and answers questions over what it retrieves. The model covers five parts:

- **Text cleanup**: the `TextParseProcessor` steps (punctuation unification, repair of hyphenated line breaks, whitespace normalisation, merging of broken lines, and their order in `preprocess_text`), and the `PdfService` helpers that split a page's spans into sections and join a lone list number with the next line.
- **Route sampling**: `DocumentInfo.get_route_doc` picks the paragraphs sent to the document-type classifier, and `get_first_route_llm` builds the prompt around them.
- **Classification decisions**:
  - `LLMRoutingService` parses the model's reply and grades its confidence, with the category fallbacks, category validation and content truncation.
  - The rule-based form scorer and its three-way decision.
  - The part-of-speech rules that flag a broken sentence.
  - The type-to-strategy dispatch and stage chain of `ParseDocumentService`.
  - The lazily filled prompt registry and its `basic_prompt` payload.
- **Chunk shaping**: `ChunkService` labels splitter output with `chunk_index` and `role`. `ArticleChunkingService` splits statute text into articles (조) and clauses (항), packs long clauses by paragraph under a token budget, and merges short clauses.
- **Retrieval shaping**: `VectorFilter` construction and serialisation, rank fusion in `EnsembleRetrieverService`, and `QuestionService.normalize_docs`.

Functions that loop over state are methods with loop invariants. Each is proved equal to a specification function, and the properties are proved as lemmas about that function. `DocumentInfo` and the prompt registry are classes whose methods update fields. Everything else is datatypes, functions and lemmas.

Shared helpers live in `Strings` (strip, split, join, and the visible characters of a text), `Docs` (a document with its metadata) and `Wrappers` (`Option`, `Result`).

## Model

| member | source | states |
|---|---|---|
| TextParseProcessor.NormalizePunctuation | app/service/chunk/parser/text_parseprocessor.py:45-60 | no quote variant, dash variant, U+00A0 or U+200B is left in the result |
| TextParseProcessor.NormalizePunctuationLength | app/service/chunk/parser/text_parseprocessor.py:57-58 | only U+200B is deleted: the length drops by exactly its number of occurrences |
| TextParseProcessor.NormalizePunctuationPointwise | app/service/chunk/parser/text_parseprocessor.py:51-57 | without U+200B, each character maps on its own: double quotes to `"`, single quotes to `'`, the dashes to `-`, U+00A0 to a space, and everything else to itself |
| TextParseProcessor.NormalizePunctuationIdentity | app/service/chunk/parser/text_parseprocessor.py:51-58 | text without any listed variant is returned unchanged |
| TextParseProcessor.NormalizePunctuationIdempotent | app/service/chunk/parser/text_parseprocessor.py:51-58 | applying the step twice equals applying it once |
| TextParseProcessor.FixFromKeepsText | app/service/chunk/parser/text_parseprocessor.py:64-71 | the hyphen repair deletes only hyphens and line feeds; every other character stays, in order |
| TextParseProcessor.FixFromDeletesPairs | app/service/chunk/parser/text_parseprocessor.py:71 | the output is the input with exactly the two characters at `q` and `q + 1` removed for each match position `q` of the left-to-right scan, each a `-\n` between two word characters; so equally many hyphens and line feeds are gone |
| TextParseProcessor.FixHyphenatedLinebreaks | app/service/chunk/parser/text_parseprocessor.py:64-71 | `re.sub(r"(\w+)-\n(\w+)", r"\1\2", text)`: the text with the hyphen and line feed of each scanned match removed, each match sitting between two word characters, and nothing but hyphens and line feeds removed |
| TextParseProcessor.FixHyphenatedIdentity | app/service/chunk/parser/text_parseprocessor.py:64-71 | text with no `-\n` between two word characters is unchanged |
| TextParseProcessor.FixHyphenatedJoinsWord | app/service/chunk/parser/text_parseprocessor.py:64-71 | `"금-\n융"` becomes `"금융"` |
| TextParseProcessor.FixHyphenatedNotIdempotent | app/service/chunk/parser/text_parseprocessor.py:71 | matches do not overlap and are rewritten left to right in one pass: `"a-\nb-\nc"` gives `"ab-\nc"`, and a second pass gives `"abc"`, so the step is not idempotent |
| TextParseProcessor.CollapseRuns | app/service/chunk/parser/text_parseprocessor.py:29 | every whitespace run becomes a single space and no two whitespace characters are adjacent. The words (`str.split()`) are the same, so no run between two words is deleted, and a leading run stays as one space |
| TextParseProcessor.CleanLine | app/service/chunk/parser/text_parseprocessor.py:29 | a collapsed, stripped line: no leading or trailing whitespace, single spaces only, and the same words (`str.split()`) as the input line |
| TextParseProcessor.SqueezeBlankLinesProperties | app/service/chunk/parser/text_parseprocessor.py:31-40 | the `prev_blank` loop keeps input lines in order and loses no text. It leaves no two empty lines adjacent, and drops exactly the repeated empty lines |
| TextParseProcessor.SqueezeSeparatesBlanks | app/service/chunk/parser/text_parseprocessor.py:32-40 | no two empty lines are adjacent in the squeezed list |
| TextParseProcessor.DropRepeatedBlankLines | app/service/chunk/parser/text_parseprocessor.py:31-40 | the loop computes the squeeze specification |
| TextParseProcessor.WhitespaceNormalizedShape | app/service/chunk/parser/text_parseprocessor.py:27-41 | the result has no tab and only single spaces between visible characters. It has at most one empty line in a row, no whitespace at either end, and the same words (`str.split()`) as the input |
| TextParseProcessor.WhitespaceNormalizedKeepsWords | app/service/chunk/parser/text_parseprocessor.py:21-41 | `normalize_whitespace` keeps the words of the text: only whitespace between words changes, and none disappears |
| TextParseProcessor.WhitespaceNormalizedKeepsVisible | app/service/chunk/parser/text_parseprocessor.py:21-41 | `normalize_whitespace` keeps every visible character, in order |
| TextParseProcessor.NormalizeWhitespace | app/service/chunk/parser/text_parseprocessor.py:21-41 | tab replacement, per-line cleanup, the blank-line loop, then join and strip, equal to the specification whose shape is proved above |
| TextParseProcessor.MergeSplitsAtBlankLine | app/service/chunk/parser/text_parseprocessor.py:87-92 | an empty input line flushes the buffer and yields one empty output line; merging never crosses it |
| TextParseProcessor.MergeCountsLines | app/service/chunk/parser/text_parseprocessor.py:80-105 | every empty input line gives exactly one empty output line, and there are never more output lines than input lines (plus a pending buffer) |
| TextParseProcessor.MergeBreaksAfterSentences | app/service/chunk/parser/text_parseprocessor.py:84-102 | two non-empty output lines are adjacent only when the first ends a sentence (`. ! ? …` or 다/요/죠) |
| TextParseProcessor.EndsSentenceVisible | app/service/chunk/parser/text_parseprocessor.py:84 | on a buffer ending in a visible character, the sentence pattern is decided by that last character alone |
| TextParseProcessor.MergedLinesTrimmed | app/service/chunk/parser/text_parseprocessor.py:89-105 | every emitted line is stripped |
| TextParseProcessor.MergedTextKeepsVisible | app/service/chunk/parser/text_parseprocessor.py:75-107 | merging only adds or removes whitespace: the visible characters stay, in order |
| TextParseProcessor.MergeLines | app/service/chunk/parser/text_parseprocessor.py:86-105 | the buffer loop computes the merge specification |
| TextParseProcessor.MergeBrokenLines | app/service/chunk/parser/text_parseprocessor.py:75-107 | right-strip each line, run the buffer loop, then join, equal to the merged text |
| TextParseProcessor.PreprocessText | app/service/chunk/parser/text_parseprocessor.py:110-129 | the steps run in the order unicode, punctuation, hyphen repair, whitespace, line merge |
| TextParseProcessor.PreprocessKeepsVisible | app/service/chunk/parser/text_parseprocessor.py:123-127 | after hyphen repair, the last two steps keep every visible character |
| PdfService.ImageBlockIgnored | app/service/pdf_service.py:23-25 | a block without `"lines"` contributes no span wherever it stands |
| PdfService.FeedAllState | app/service/pdf_service.py:44-45 | after reading spans, the buffer is open exactly when a span was read, and `last_font` is the last span's size |
| PdfService.SectionGroupsNonEmpty | app/service/pdf_service.py:34-48 | a section is only ever made from a non-empty buffer, and the final buffer is flushed |
| PdfService.SectionGroupsKeepTexts | app/service/pdf_service.py:23-48 | every span's stripped text lands in exactly one section, in page order |
| PdfService.SectionGroupsStarts | app/service/pdf_service.py:33-42 | a section starts exactly at the first span, at a span whose size exceeds a truthy previous size by more than 1.2, or at a span matching the list-number pattern |
| PdfService.SplitSections | app/service/pdf_service.py:15-50 | the nested block, line and span loops compute the section specification |
| PdfService.ReadBlock | app/service/pdf_service.py:27-45 | the loop over a block's lines feeds their spans in order |
| PdfService.ReadLine | app/service/pdf_service.py:28-45 | the loop over a line's spans feeds them in order |
| PdfService.ReadSpan | app/service/pdf_service.py:29-45 | one span flushes on a font jump or list number, then is appended |
| PdfService.NumberedLinesFewer | app/service/pdf_service.py:93-98 | never more output lines than input lines |
| PdfService.NumberedLinesNonEmpty | app/service/pdf_service.py:94-98 | no emitted line is empty |
| PdfService.ConsumedLineNotEmitted | app/service/pdf_service.py:96-97 | the successor overwritten with `""` is never emitted again |
| PdfService.NumberedLinesKeepVisible | app/service/pdf_service.py:93-99 | joining a number with its successor only changes whitespace |
| PdfService.NumberedStep | app/service/pdf_service.py:94-98 | a stripped line of digits and a dot that is not the last line joins with the next line, left-stripped, after one space; otherwise a non-empty line is kept |
| PdfService.JoinNumberedLines | app/service/pdf_service.py:93-98 | the loop that overwrites `lines[i+1]` in place computes the numbered-lines specification |
| PdfService.NormalizeNumberedLines | app/service/pdf_service.py:90-99 | split, the loop, then join with `\n` |
| DocumentEntity.SampleIndicesOrdered | app/domain/document/entity/documentinfo.py:37-49 | the sampled positions are at most four, strictly increasing and inside the list; all of them below four paragraphs |
| DocumentEntity.RouteSamplePicks | app/domain/document/entity/documentinfo.py:34-49 | the slices pick exactly the paragraphs at those positions: the first three plus the last below eight, the first three plus `total // 2` from eight on |
| DocumentEntity.RouteText | app/domain/document/entity/documentinfo.py:37-39 | below four paragraphs, all of them joined by an empty line; no paragraph gives `""` |
| DocumentEntity.RouteTextKeepsSampleText | app/domain/document/entity/documentinfo.py:39-49 | the separators add no visible character: the sample text is exactly the sampled paragraphs' text |
| DocumentEntity.FirstRoutePrompt | app/domain/document/entity/documentinfo.py:51-61 | the prompt body, then `"\n\n"`, then the sample, as three adjacent slices |
| DocumentEntity.DataclassInit | app/domain/document/entity/documentinfo.py:13-18 | the generated constructor succeeds exactly when the keyword arguments are the four fields, and raises `TypeError` otherwise: for an unknown keyword whenever there is one, else for a missing field |
| DocumentEntity.FromDocInfoAsWritten | app/domain/document/entity/documentinfo.py:20-22 | `from_doc_info` leaves out `child_documents`, so it always raises |
| DocumentEntity.DocumentInfo.constructor | app/domain/document/entity/documentinfo.py:13-18 | stores the four given fields |
| DocumentEntity.DocumentInfo.FromDocInfo | app/domain/document/entity/documentinfo.py:20-22 | corrected: stores the three given fields and no child documents |
| DocumentEntity.DocumentInfo.GetRouteDoc | app/domain/document/entity/documentinfo.py:24-49 | the sample text of the object's paragraphs carries exactly the sampled paragraphs' text |
| DocumentEntity.DocumentInfo.GetFirstRouteLlm | app/domain/document/entity/documentinfo.py:51-61 | the prompt body, then exactly `"\n\n"` (an empty line), then `get_route_doc()` |
| DocumentEntity.DocumentInfo.SetChildDocument | app/domain/document/entity/documentinfo.py:80-81 | replaces the child documents; content, metadata and paragraphs are unchanged |
| LlmRouting.FromValueInvertsValue | app/service/llm_routing_service.py:15-22 | `DocumentCategory(v)` inverts `.value` and accepts only enum values |
| LlmRouting.TruncateKeepsPrefix | app/service/llm_routing_service.py:139-140 | longer content is cut to exactly its first `max_content_length` characters; shorter content is kept |
| LlmRouting.ScanLinesLastWins | app/service/llm_routing_service.py:212-227 | the line loop ends with the category of the last category line with a colon, and the reason of the last reason line that is not a category line |
| LlmRouting.ScanReply | app/service/llm_routing_service.py:212-227 | the line loop computes the scan specification |
| LlmRouting.FindCategory | app/service/llm_routing_service.py:230-235 | the loop with `break` finds the first enum value, in declaration order, contained in the text |
| LlmRouting.ParsedReplyProperties | app/service/llm_routing_service.py:208-257 | the reason is never empty. A category from the lines is returned as is; otherwise the result is a valid enum value, and the first one named in the reply if any is |
| LlmRouting.ParseLlmResponse | app/service/llm_routing_service.py:198-257 | the line loop, the search loop, the keyword cascade and the default reason, equal to the parse specification |
| LlmRouting.Validate | app/service/llm_routing_service.py:169-177 | an enum value is kept with its reason; anything else becomes `general` with the raw reply in the reason |
| LlmRouting.CalculateConfidence | app/service/llm_routing_service.py:269-280 | not `low` exactly when the lower-cased reply contains a category value, and `high` only for a reply over 50 characters |
| LlmRouting.ConfidenceMatchesCategorySearch | app/service/llm_routing_service.py:269-280 | confidence is not `low` exactly when the category search finds a value |
| LlmRouting.ConfidenceGrades | app/service/llm_routing_service.py:269-280 | `high` iff a category is named and the reply is over 50 characters with 이유 or `reason`; `medium` iff only a category; `low` iff none |
| LlmRouting.RouteDecision | app/service/llm_routing_service.py:165-186 | the stripped reply is parsed: a valid category is kept with the parser's reason, an invalid one becomes `general` with the raw reply in the reason; the reason is never empty, and the confidence is not `low` exactly when the reply names a category |
| LlmRouting.RouteDecisionReason | app/service/llm_routing_service.py:165-186 | the reason returned is never empty, and with no category line it is the parser's reason |
| FormDetector.TableSeparatorHasBar | app/service/chunk/rule/form_detector.py:19 | the separator pattern cannot match without a bar character, so the extra bar test before the search changes nothing |
| FormDetector.SentenceSplitCount | app/service/chunk/rule/form_detector.py:35 | splitting on `[.!?]\s*` gives one more piece than there are stops |
| FormDetector.SentenceSplitHasNoStops | app/service/chunk/rule/form_detector.py:35 | no piece of the split holds a stop |
| FormDetector.FormScoreBounds | app/service/chunk/rule/form_detector.py:13-39 | the score is in [0, 10]; it is 10 iff every rule fires and 0 iff none does |
| FormDetector.RuleBasedFormScore | app/service/chunk/rule/form_detector.py:10-39 | the successive `+=` steps sum to the rule score: 2 for each of rules 1 to 4, 1 for rules 5 and 6, each once |
| FormDetector.RuleBasedDocumentType | app/service/chunk/rule/form_detector.py:40-50 | corrected: with the score from `rule_based_form_score`, FORM iff the score is at least 5, NORMAL iff at most 1, AMBIGUOUS iff 2 to 4, and the reason is `Rule score=`, the score and the remark of that type |
| FormDetector.RuleBasedDocumentTypeAsWrittenFails | app/service/chunk/rule/form_detector.py:40-41 | as written, every call raises `NameError`: `rule_based_form_score` is called unqualified and is no module-level name |
| FormDetector.DecideTypeThresholds | app/service/chunk/rule/form_detector.py:43-50 | FORM iff score ≥ 5, NORMAL iff score ≤ 1, AMBIGUOUS iff 2 to 4 |
| FormDetector.ReasonEmbedsScore | app/service/chunk/rule/form_detector.py:44-50 | the reason starts with `Rule score=` followed by the score's digits, which read back as the score |
| NlpService.EmptyIsBroken | app/service/chunk/nlp/nlp_service.py:38-39 | an empty tag list has no verb and is broken |
| NlpService.ShortNounsOnlyIsNoVerb | app/service/chunk/nlp/nlp_service.py:63-64 | rule 5 never decides: an all-noun list already fails rule 1 |
| NlpService.DanglingParticleAnywhere | app/service/chunk/nlp/nlp_service.py:57-60 | rule 4 fires iff some JKS/JKO tag has no verb tag at or after it |
| NlpService.NounStreakTriple | app/service/chunk/nlp/nlp_service.py:42-48 | the streak counter reaches 3 exactly at the end of three consecutive noun tags |
| NlpService.NounStreakReaches3 | app/service/chunk/nlp/nlp_service.py:42-48 | the streak loop returns true iff three noun tags occur in a row |
| NlpService.FindNounsBeforeParticle | app/service/chunk/nlp/nlp_service.py:52-54 | the index loop returns true iff some noun, noun, particle triple occurs |
| NlpService.LastParticleIndex | app/service/chunk/nlp/nlp_service.py:58 | the `max` over positions is the last JKS/JKO position |
| NlpService.CountSpecials | app/service/chunk/nlp/nlp_service.py:67 | counts the characters that are neither alphanumeric nor in `" .,-()"` |
| NlpService.IsBroken | app/service/chunk/nlp/nlp_service.py:32-71 | true iff one of the six rules fires, false otherwise |
| ParseDocumentService.ClassifyContract | app/application/service/parse_document_service.py:128-140 | classification succeeds iff the reply decodes to an object with exactly the three field names, and carries its values unchanged; a decode failure is an error, with no fallback type |
| ParseDocumentService.RouterCases | app/application/service/parse_document_service.py:142-170 | `"policy"` goes to LlamaParse, `"manual"` to the full chunk, every other value to `chunk(doc, 800, 150)` |
| ParseDocumentService.ChunkSettings | app/domain/document/chunk/service/chunk_service.py:9-10 | LlamaParse does not chunk; the full chunk is 1500/200 |
| ParseDocumentService.UpperCaseTypeIsDefault | app/application/service/parse_document_service.py:143-170 | `"POLICY"` and `"MANUAL"` take the default branch |
| ParseDocumentService.UpsertArgs | app/infrastructure/langchain/upsert.py:10 | corrected: the collection is the document type and the documents come second |
| ParseDocumentService.UpsertArgumentsSwapped | app/application/service/parse_document_service.py:177-181 | as written, the two arguments are each other's expected values, so the call differs from the intended one |
| ParseDocumentService.ExecuteContract | app/application/service/parse_document_service.py:107-190 | corrected: with the parse stage calling the parser it means to call, the chain fails iff classification fails, with its error. Otherwise the result has exactly the six keys: the inputs unchanged, each stage's value computed from the earlier ones, and `upsert_document` holding `None`; the store is called once, with the document type and the routed result's documents |
| ParseDocumentService.ExecuteAsWrittenFails | app/application/service/parse_document_service.py:119-126 | as written, `execute` raises `AttributeError` on every input, because `PdfService` has no `normal_parse`, so no later stage runs |
| ParseDocumentService.ParsePdfOnInput | app/application/service/parse_document_service.py:119-126 | corrected: the parse stage, with the parser it means to call, adds `doc` to the input dictionary and keeps the inputs |
| ParseDocumentService.RouterOnClassified | app/application/service/parse_document_service.py:142-172 | the router stage adds `result`, computed by the chosen strategy |
| ParseDocumentService.UpsertOnRouted | app/application/service/parse_document_service.py:174-183 | corrected: the upsert stage calls the store as `upsert(document_type, documents)` and adds `upsert_document` holding `None`, since `Upsert.upsert` returns nothing |
| ChunkService.LabelAllProperties | app/domain/document/chunk/service/chunk_service.py:19-26 | same number and order of chunks and the same text. `chunk_index` is the position, `role` is `"child"`, and every other metadata entry is kept |
| ChunkService.ChunkIndicesDistinct | app/domain/document/chunk/service/chunk_service.py:21-22 | no two chunks share a `chunk_index` |
| ChunkService.LabelChunks | app/domain/document/chunk/service/chunk_service.py:20-26 | the labelling loop computes the labelled list |
| ChunkService.Chunk | app/domain/document/chunk/service/chunk_service.py:12-28 | corrected: with the splitter fed the document's paragraphs, the same object is returned; its child documents are the labelled splitter output and its other fields are unchanged |
| ChunkService.FullChunk | app/domain/document/chunk/service/chunk_service.py:9-10 | corrected: the corrected `chunk` with size 1500 and overlap 200 |
| ChunkService.ChunkAsWrittenFails | app/domain/document/entity/documentinfo.py:64-71 | as written, `chunk` and `full_chunk` raise `AttributeError` on every call: `get_upsert_document` reads `self.document`, and the dataclass field is `documents` |
| ArticleChunking.ArticleSplit | app/service/chunk/article_chunking_service.py:13-14 | one more piece than headings, and every heading opens with 제 and closes with 조 |
| ArticleChunking.ArticleSplitLeftmost | app/service/chunk/article_chunking_service.py:13-14 | every heading in the text is split off: the headings are the leftmost non-overlapping greedy matches of `제\s*\d+\s*조`, the scan resuming right after each one, and no piece holds the start of a match |
| ArticleChunking.ArticleSplitUnique | app/service/chunk/article_chunking_service.py:13-14 | the split is the only pieces-and-headings pair that fits that scan |
| ArticleChunking.LeftmostScanUnique | app/service/chunk/article_chunking_service.py:13-14 | for any matcher, at most one pieces-and-headings pair fits the leftmost scan |
| ArticleChunking.ArticleSplitRebuilds | app/service/chunk/article_chunking_service.py:13-14 | the pieces and headings, interleaved, rebuild the text |
| ArticleChunking.SplitByArticles | app/service/chunk/article_chunking_service.py:12-20 | one (heading, stripped following piece) pair per heading, in order; the text before the first heading is dropped |
| ArticleChunking.CaptureSplit | app/service/chunk/article_chunking_service.py:27 | `re.split` with one capture group, grouped into the text before the first match and (group, following text) pairs: it is the leftmost non-overlapping scan, each group the capture at its match |
| ArticleChunking.ClauseSplitLeftmost | app/service/chunk/article_chunking_service.py:27 | every clause match `(\d+)\s*항` in the body is split off, leftmost first and non-overlapping, each number the digits opening its match |
| ArticleChunking.ClauseSplitUnique | app/service/chunk/article_chunking_service.py:27 | the split is the only (preamble, pairs) value that fits that scan |
| ArticleChunking.ClauseNumbersAreDigits | app/service/chunk/article_chunking_service.py:27 | every captured clause number is a non-empty run of digits |
| ArticleChunking.LeftmostCapturesUnique | app/service/chunk/article_chunking_service.py:27 | for any matcher and group, at most one (preamble, pairs) value fits the scan |
| ArticleChunking.ReadPairs | app/service/chunk/article_chunking_service.py:31-36 | the loop stepping by two from index 1 reads the stripped (number, body) pairs |
| ArticleChunking.ReadClauses | app/service/chunk/article_chunking_service.py:27-36 | one stripped pair per clause match; the preamble is discarded |
| ArticleChunking.PackFoldCovers | app/service/chunk/article_chunking_service.py:53-59 | the packing loop keeps every paragraph read, in order, across the flushed groups and the buffer |
| ArticleChunking.PackGroupsCover | app/service/chunk/article_chunking_service.py:52-61 | every paragraph lands in exactly one group, in order. The first group is empty iff the first paragraph alone is over the budget, and no later group is empty |
| ArticleChunking.PackFoldGreedy | app/service/chunk/article_chunking_service.py:55-57 | a group is closed only because adding the next paragraph would exceed the budget |
| ArticleChunking.PackFoldWithinBudget | app/service/chunk/article_chunking_service.py:55-59 | a group of two or more paragraphs fits the budget |
| ArticleChunking.PackGroupsPacked | app/service/chunk/article_chunking_service.py:52-61 | the final groups are packed greedily within the budget |
| ArticleChunking.PackParagraphs | app/service/chunk/article_chunking_service.py:52-61 | the buffer loop yields one `normal` chunk per packed group |
| ArticleChunking.ChunkClause | app/service/chunk/article_chunking_service.py:45-61 | a clause below the minimum gives one `short` chunk; a longer one gives its packed groups |
| ArticleChunking.ChunkClauses | app/service/chunk/article_chunking_service.py:44-61 | the loop over the clauses concatenates their chunks in order |
| ArticleChunking.SplitArticleIntoClauses | app/service/chunk/article_chunking_service.py:25-63 | computes the clause-chunk specification |
| ArticleChunking.ArticleClauseChunksShape | app/service/chunk/article_chunking_service.py:39-63 | the result is never empty. It is the single `(title, None, body)` triple iff the body has no clause, and otherwise only clause chunks |
| ArticleChunking.MergeShortClausesAsWritten | app/service/chunk/article_chunking_service.py:65-78 | the loop as written: a three-element tuple fails to unpack, and an empty list leaves `title` unbound |
| ArticleChunking.ClauseFreeArticleCrashes | app/service/chunk/article_chunking_service.py:39-69 | the as-written merge fails exactly on articles without clauses |
| ArticleChunking.MergeShortClauses | app/service/chunk/article_chunking_service.py:65-78 | corrected: the loop computes the corrected merge |
| ArticleChunking.MergeContract | app/service/chunk/article_chunking_service.py:65-78 | agrees with the source wherever the source does not fail. One `full` chunk comes first, then exactly the `normal` chunks in order; `short` chunks are dropped |
| ArticleChunking.BuildChunksForArticle | app/service/chunk/article_chunking_service.py:93-103 | corrected: the merged chunks, then exactly one `summary` chunk summarising the full chunk's text |
| PromptRegistry.Defaults | app/domain/llm/prompt/prompt_registry.py:17-22 | exactly the four prompt types are mapped; document classification maps to the FORM/NORMAL prompt, never to the five-type one |
| PromptRegistry.Lookup | app/domain/llm/prompt/prompt_registry.py:29 | the stored template for a mapped type, `None` otherwise |
| PromptRegistry.DefaultsInjective | app/domain/llm/prompt/prompt_registry.py:17-22 | each prompt type has its own template |
| PromptRegistry.Registry.Import | app/domain/llm/prompt/prompt_registry.py:190 | importing the module leaves the registry filled |
| PromptRegistry.Registry.Init | app/domain/llm/prompt/prompt_registry.py:15-22 | `init` assigns the four prompts whatever was stored, so a second call rebuilds the same map |
| PromptRegistry.Registry.Get | app/domain/llm/prompt/prompt_registry.py:25-29 | an empty registry is initialised first, a filled one is unchanged, and the result is the lookup |
| PromptRegistry.GetAfterInit | app/domain/llm/prompt/prompt_registry.py:17-29 | after `init`, every prompt type is answered, and document classification gets the FORM/NORMAL prompt |
| PromptRegistry.BasicPrompt | app/domain/llm/prompt/prompt_registry.py:141-186 | succeeds iff `question` and `tool_outputs` are both present, and a missing `question` raises `KeyError` on it |
| PromptRegistry.BasicPromptCarriesInput | app/domain/llm/prompt/prompt_registry.py:149-179 | the task block has exactly four keys. `user_query` and `tool_outputs` are the inputs unchanged, next to the fixed instruction and output format |
| VectorFilter.Match | app/infrastructure/vector_store/vector_filter.py:17-22 | type `"match"`, the given key and value, and no bounds |
| VectorFilter.Range | app/infrastructure/vector_store/vector_filter.py:25-41 | type `"range"`, value `None`, and the bounds as passed |
| VectorFilter.RangeBody | app/infrastructure/vector_store/vector_filter.py:51-60 | the body holds exactly the bounds that are not `None`, each with its value |
| VectorFilter.ToVectorFilter | app/infrastructure/vector_store/vector_filter.py:43-65 | a dictionary with the key unchanged iff the type is `"match"` or `"range"`; `None` otherwise |
| VectorFilter.MatchRoundTrip | app/infrastructure/vector_store/vector_filter.py:44-48 | a match filter serialises to `{"key": k, "match_text": {"text": v}}`, and reading that back gives the filter |
| VectorFilter.RangeRoundTrip | app/infrastructure/vector_store/vector_filter.py:50-65 | a range filter serialises to its present bounds (an empty body with none), and reading that back gives the filter |
| QuestionService.Normalize | app/application/service/question_service.py:39-46 | `content` is the page content; `source` holds exactly `file_name`, `page` and `chunk_index`, a missing one as `None` |
| QuestionService.NormalizeDocs | app/application/service/question_service.py:37-48 | one entry per document, in order |
| QuestionService.OnlySourceKeysMatter | app/application/service/question_service.py:41-46 | dropping every other metadata key changes no entry |
| QuestionService.NormalizeDocsAppend | app/application/service/question_service.py:38-48 | normalising a concatenation normalises each part |
| EnsembleRetriever.Key | app/application/service/ensemble_retriever_service.py:17 | `chunk_id` when present, else the page content |
| EnsembleRetriever.ApplyEntry | app/application/service/ensemble_retriever_service.py:17-26 | one document registers its key if new, with the document and 0.0, and adds its gain to that key only |
| EnsembleRetriever.AccumulateWellFormed | app/application/service/ensemble_retriever_service.py:11-26 | the key order and the dictionary hold the same keys, each once |
| EnsembleRetriever.EntryCount | app/application/service/ensemble_retriever_service.py:19-23 | as many entries as distinct keys |
| EnsembleRetriever.Score | app/application/service/ensemble_retriever_service.py:17-26 | the inner loop body computes one fusion step |
| EnsembleRetriever.ScoreRetriever | app/application/service/ensemble_retriever_service.py:16-26 | the loop over one retriever's list adds its ranked gains `weight / (rank + 1)` in order |
| EnsembleRetriever.GetRelevantDocuments | app/application/service/ensemble_retriever_service.py:10-35 | corrected: with each retriever's list given, the nested loops and the sort compute the ranked specification |
| EnsembleRetriever.RelevantDocumentsAsWrittenFails | app/application/service/ensemble_retriever_service.py:13-14 | as written, the method raises `NameError` on `query` exactly when some retriever is paired with a weight; with no pair it returns the empty ranking |
| EnsembleRetriever.SortDescCorrect | app/application/service/ensemble_retriever_service.py:28-35 | the sort orders by non-increasing score, is a permutation, and keeps the original order among equal scores |
| EnsembleRetriever.OccurrenceKeysExact | app/application/service/ensemble_retriever_service.py:17 | a key is among the occurrence keys iff some occurrence has it |
| EnsembleRetriever.KeysOccur | app/application/service/ensemble_retriever_service.py:19-23 | the dictionary's keys are exactly the keys that occur |
| EnsembleRetriever.FirstSeen | app/application/service/ensemble_retriever_service.py:19-23 | keys are stored in order of first appearance, each with the document of its first occurrence |
| EnsembleRetriever.ScoreIsSum | app/application/service/ensemble_retriever_service.py:16-26 | a key's score is the sum of `weight / (rank + 1)` over all its occurrences |
| EnsembleRetriever.ZipTruncates | app/application/service/ensemble_retriever_service.py:13 | only the first `min(len(retrievers), len(weights))` pairs take part |
| EnsembleRetriever.RankedSpec | app/application/service/ensemble_retriever_service.py:13-35 | the output is sorted by non-increasing score, a permutation of the entries, stable among equal scores, one document per distinct key, and unaffected by the unpaired tail |

## Left out

- I/O and external services are not modelled; their results are inputs or function parameters:
  - the PDF library (`parse_pdf`, `parse_full_text`, `get_text("dict")`);
  - LlamaParse, the OpenAI calls in `route_document` and `create_summary`, the Kiwi tokenizer, and the token counter `tokenize_len`;
  - LangChain's recursive character splitter, the embedding model, the vector store, and tracing.
- `route_document` and `route_document_from_bytes` are async and do file I/O. Only their decision logic is modelled: truncation, the reply parse, validation and the confidence grade (`LlmRouting.RouteDecision`).
- `_get_routing_prompt`, the prompt builders and `NLPService.test` only build text or time a call. The prompt wording is not reproduced; each template is an atom.
- `preprocess_text` ignores its header, footer, boilerplate and sentence-split parameters, so the model does not take them.
- NFKC normalisation (`normalize_unicode`) is a parameter of `PreprocessText`. Python's Unicode `\w` and `str.isalnum` are parameters too.
- `\s` and `strip` use the character set of `str.isspace`. `\d` is the ASCII digits, and `lower` folds only the ASCII letters.
- `splitlines()` is modelled as a split on `\n` only. Other line boundaries such as `\r`, `\v` and U+2028 are not breaks here.
- Floats are `real`s: the ensemble scores and the font sizes carry no IEEE rounding.
- `json.dumps` and `json.loads` are not modelled. The payload of `basic_prompt` is the JSON value before serialisation, the classifier's decoder is a parameter, and the JSON output parser's format instructions are an input.
- The registry's `_PROMPTS` is state of the class in the source; one `Registry` object stands for it.
- app/util/prompt/prompt_registry.py is a duplicate of the domain registry, and this one model covers both.
- The functions of `text_parseprocessor.py`, `form_detector.py` and `article_chunking_service.py` are written without `self`. Each is modelled as a standalone function.
- RuleBasedDocumentType: states the decision with the score of `rule_based_form_score`. As written, app/service/chunk/rule/form_detector.py:41 calls that name unqualified, no module-level function has it, and every call raises `NameError`; that is `RuleBasedDocumentTypeAsWrittenFails`.
- `article_chunking_service.py` leaves `tokenizer`, `MIN_CLAUSE_TOKENS`, `MAX_CHUNK_TOKENS` and `client` undefined. They are parameters here.
- GetRelevantDocuments: takes each retriever's result list as a parameter. As written, app/application/service/ensemble_retriever_service.py:14 calls each retriever with `query`, a name the method does not define, so the method raises `NameError` whenever at least one retriever is paired with a weight; that is `RelevantDocumentsAsWrittenFails`.
- ChunkService.Chunk: states the corrected method. As written, `chunk` (and so `full_chunk`, and the `manual` and default branches of `router_fn`) raises `AttributeError` on every call: `get_upsert_document` iterates `self.document` (app/domain/document/entity/documentinfo.py:70), and the dataclass field is `documents`. That is `ChunkAsWrittenFails`. The model applies the splitter to the document's paragraphs with their metadata (the source also passes `matadata=`, which `Document` does not take).
- ChunkService.Chunk: `Doc.from_document_pdf` (chunk_service.py:25) does not exist either, since app/domain/document/entity/doc.py defines only `from_document`. The model keeps each labelled chunk's text and metadata.
- Commented-out code is not modelled: the old `execute` pipeline and `extract_json`, and the old `parse_pdf` and `normalize_numbered_lines`.
- ArticleSplit: its own contract gives only the shape of the split. That every heading is split off, leftmost first, and that no other split fits are the separate lemmas `ArticleSplitLeftmost` and `ArticleSplitUnique`, so that unfolding the split stays cheap.
- ExecuteContract: states the chain with the corrected argument order of the upsert call (`UpsertStage` and `Execute` use `UpsertArgs`); the call as written at app/application/service/parse_document_service.py:177-181 is `UpsertArgumentsSwapped`. It also states the chain with `parsePdf` in place of `PdfService().normal_parse` (line 122), a method app/service/pdf_service.py does not define; as written the chain raises `AttributeError` on every input, which is `ExecuteAsWrittenFails`.
- ParsePdfOnInput: states the parse stage with `parsePdf`, a parameter standing for the missing `PdfService.normal_parse`, whose result the classify stage uses as a `DocumentInfo` (`get_route_doc`). No method of app/service/pdf_service.py fits: `parse_pdf` returns a list of section dictionaries and `parse_full_text` a string. The stage as written is `ParsePdfStageAsWritten`.
- RouterOnClassified: the LlamaParse branch's `run` stands for `LlamaParseService().parse_bytes`, imported from app/domain/document/services/llm_parse_service.py, which is not part of this model. The `LlamaParseService` of app/service/llm_parse_service.py defines only `parse_bytes_async` (line 143). If that is the class meant, the policy branch raises `AttributeError`, and the model does not capture it. The `manual` and default branches run `full_chunk` and `chunk`, which as written raise `AttributeError` (`ChunkAsWrittenFails`); there `run` stands for the corrected `ChunkService.Chunk`.
- The vector store is not modelled beyond the call it receives: `Upsert.upsert` adds the documents to the collection and returns `None`, and the model records the arguments of that call in the `Outcome`.
- UpsertOnRouted: states the upsert stage with the corrected argument order; the order as written is `UpsertArgumentsSwapped`.
- BuildChunksForArticle: uses the corrected merge (`MergeShortClauses`), so it also covers clause-free articles; the merge as written fails on those, as `ClauseFreeArticleCrashes` shows.
- app/service/chunk/article_chunking_service.py does not parse as Python: `__init__` has no body, and the indentation at lines 7-10, 21-22 and 25-63 is broken, so importing the module raises `IndentationError`. The `ArticleChunking` members and the third Findings row model the evident reading, with each function at module level and its statements in its body.
- Where the documentation of the service and the code disagree, the model follows the code. The hyphen repair is not idempotent (`FixHyphenatedNotIdempotent`), and classification has no fallback to an unknown type.

## Findings

| source | as written | input that shows it | evidently intended | confidence | as-written member | corrected member |
|---|---|---|---|---|---|---|
| app/domain/document/entity/documentinfo.py:21-22 | `from_doc_info` calls the dataclass constructor without `child_documents`, a required field | any call, e.g. `from_doc_info("", {}, [])` raises `TypeError` | build the document with an empty child list | not executed | DocumentEntity.FromDocInfoAsWritten | DocumentEntity.DocumentInfo.FromDocInfo |
| app/application/service/parse_document_service.py:177-181 | the documents are passed as `collection` and the document type as `docs` to `Upsert.upsert(collection, docs)` | any routed result: the vector store is looked up by a document list | `upsert(document_type, documents)` | not executed | ParseDocumentService.UpsertArgumentsSwapped | ParseDocumentService.UpsertArgs |
| app/application/service/parse_document_service.py:122 | the parse stage calls `PdfService().normal_parse(...)`, and `PdfService` (app/service/pdf_service.py:9-107) defines no such method | any input, e.g. empty bytes and `"a.pdf"`: `execute` raises `AttributeError` before classification | call a parser that returns the `DocumentInfo` the classify stage reads | not executed | ParseDocumentService.ExecuteAsWrittenFails | ParseDocumentService.ParsePdfOnInput |
| app/domain/document/entity/documentinfo.py:70 | `get_upsert_document` iterates `self.document`, but the dataclass field is `documents` | any `chunk` or `full_chunk` call raises `AttributeError` before the splitter runs | iterate `self.documents` | not executed | ChunkService.ChunkAsWrittenFails | ChunkService.Chunk |
| app/application/service/ensemble_retriever_service.py:14 | each retriever is called with `query`, which `_get_relevant_documents(self, collection, index)` does not define | one retriever with one weight: `NameError` | take `query` as the parameter and pass it on | not executed | EnsembleRetriever.RelevantDocumentsAsWrittenFails | EnsembleRetriever.GetRelevantDocuments |
| app/service/chunk/rule/form_detector.py:41 | `rule_based_form_score(text)` is called unqualified inside the class | any text, e.g. `""`: `NameError` | call the class's `rule_based_form_score` | not executed | FormDetector.RuleBasedDocumentTypeAsWrittenFails | FormDetector.RuleBasedDocumentType |
| app/service/chunk/article_chunking_service.py:40-69 | `merge_short_clauses` unpacks four names from each chunk, but a clause-free article yields the three-element `(title, None, body)` | an article body with no `N항`, e.g. `"본문"`, raises `ValueError` | merge the whole article as the `full` chunk | not executed | ArticleChunking.ClauseFreeArticleCrashes | ArticleChunking.MergeContract |

=== FILE: ArticleChunking.dfy ===
/** `ArticleChunkingService` (app/service/chunk/article_chunking_service.py):
    splits Korean statute text into articles (조), each article into
    clauses (항), packs long clauses paragraph by paragraph under a token
    budget, and merges an article's clauses into one full chunk. The
    functions are written without `self` in the source and are modelled as
    standalone operations; the tokenizer, the two token limits the source
    leaves undefined and the summarising model are parameters. */
module ArticleChunking {
  import opened Wrappers
  import opened Strings

  // ---------------------------------------------------------------------
  // The two patterns
  // ---------------------------------------------------------------------

  /** Where a match of `\s*\d+\s*X` or `\d+\s*X` stands: before the
      digits with spaces allowed, at the first digit, inside the digits, or
      in the spaces before the closing syllable. */
  datatype NumberState = LeadingSpace | FirstDigit | InDigits | TrailingSpace

  /** Matched length plus one, or 0 for no match. */
  function Extend1(n: nat): nat {
    if n == 0 then 0 else n + 1
  }

  /** Length of the match of the rest of a numbered pattern closed by
      `close`, from `state`, at the start of `t`; 0 when it fails. Spaces,
      digits and the closing syllable are disjoint classes, so the greedy
      runs are the only way to match and no backtracking is needed. */
  function NumberedMatch(t: string, state: NumberState, close: char): (n: nat)
    requires !IsSpace(close) && !IsDigit(close)
    ensures n <= |t|
    ensures n > 0 ==> t[n - 1] == close
    decreases |t|
  {
    if t == [] then 0
    else
      var c := t[0];
      match state
      case LeadingSpace =>
        if IsSpace(c) then Extend1(NumberedMatch(t[1..], LeadingSpace, close))
        else if IsDigit(c) then Extend1(NumberedMatch(t[1..], InDigits, close))
        else 0
      case FirstDigit =>
        if IsDigit(c) then Extend1(NumberedMatch(t[1..], InDigits, close)) else 0
      case InDigits =>
        if IsDigit(c) then Extend1(NumberedMatch(t[1..], InDigits, close))
        else if IsSpace(c) then Extend1(NumberedMatch(t[1..], TrailingSpace, close))
        else if c == close then 1
        else 0
      case TrailingSpace =>
        if IsSpace(c) then Extend1(NumberedMatch(t[1..], TrailingSpace, close))
        else if c == close then 1
        else 0
  }

  /** Length of a match of `제\s*\d+\s*조` at the start of `t`, or 0. */
  function ArticleMatch(t: string): (n: nat)
    ensures n <= |t|
    ensures n > 0 ==> n >= 2 && t[0] == '제' && t[n - 1] == '조'
  {
    if t == [] || t[0] != '제' then 0 else Extend1(NumberedMatch(t[1..], LeadingSpace, '조'))
  }

  /** The first position at or after `from` where `m` matches, or `|t|`. */
  function NextMatch(m: string -> nat, t: string, from: nat): (i: nat)
    requires from <= |t|
    ensures from <= i <= |t|
    ensures forall j :: from <= j < i ==> m(t[j..]) == 0
    decreases |t| - from
  {
    if from == |t| || m(t[from..]) > 0 then from
    else NextMatch(m, t, from + 1)
  }

  /** `NextMatch` stops short of the end only at a match. */
  lemma {:induction false} NextMatchFound(m: string -> nat, t: string, from: nat)
    requires from <= |t|
    ensures NextMatch(m, t, from) < |t| ==> m(t[NextMatch(m, t, from)..]) > 0
    decreases |t| - from
  {
    if from < |t| && m(t[from..]) == 0 {
      NextMatchFound(m, t, from + 1);
    }
  }

  /** `ARTICLE_PATTERN.split(text)` and `ARTICLE_PATTERN.findall(text)`
      together: the pieces between the headings, and the headings. */
  function ArticleSplit(t: string): (r: (seq<string>, seq<string>))
    ensures |r.0| == |r.1| + 1
    ensures forall k :: 0 <= k < |r.1| ==> IsHeading(r.1[k])
    decreases |t|
  {
    var i := NextMatch(ArticleMatch, t, 0);
    if i == |t| then ([t], [])
    else
      NextMatchFound(ArticleMatch, t, 0);
      var n := ArticleMatch(t[i..]);
      var rest := ArticleSplit(t[i + n..]);
      HeadingsCons(t[i..i + n], rest.1);
      ([t[..i]] + rest.0, [t[i..i + n]] + rest.1)
  }

  /** A heading such as `제 3 조`: it opens with 제 and closes with 조. */
  predicate IsHeading(s: string) {
    |s| >= 2 && s[0] == '제' && s[|s| - 1] == '조'
  }

  lemma HeadingsCons(h: string, rest: seq<string>)
    requires IsHeading(h)
    requires forall k :: 0 <= k < |rest| ==> IsHeading(rest[k])
    ensures forall k :: 0 <= k < |[h] + rest| ==> IsHeading(([h] + rest)[k])
  {
    var hs := [h] + rest;
    forall k | 0 <= k < |hs| ensures IsHeading(hs[k]) {
      if k > 0 { assert hs[k] == rest[k - 1]; }
    }
  }

  /** The scan `re.split` and `re.findall` make with the matcher `m`, the
      length of the match at the start of a string (0 for none): the first
      piece runs up to the first position where `m` matches, the first
      title is the whole match there, and the scan resumes right after it;
      with no match left, the last piece is the rest of the text. So every
      match outside a title is excluded, and the titles are the leftmost
      non-overlapping matches. */
  ghost predicate LeftmostScan(m: string -> nat, t: string, parts: seq<string>, titles: seq<string>)
    decreases |titles|
  {
    && |parts| == |titles| + 1
    && var p := |parts[0]|;
      && p <= |t| && parts[0] == t[..p]
      && (forall j :: 0 <= j < p ==> m(t[j..]) == 0)
      && if titles == [] then p == |t|
         else
           var n := |titles[0]|;
           && n > 0 && p + n <= |t| && m(t[p..]) == n && titles[0] == t[p..p + n]
           && LeftmostScan(m, t[p + n..], parts[1..], titles[1..])
  }

  /** A match at the first matching position, in front of the scan of the
      rest. */
  lemma LeftmostScanCons(m: string -> nat, t: string, i: nat, n: nat, parts: seq<string>, titles: seq<string>)
    requires i + n <= |t| && n > 0 && m(t[i..]) == n
    requires forall j :: 0 <= j < i ==> m(t[j..]) == 0
    requires LeftmostScan(m, t[i + n..], parts, titles)
    ensures LeftmostScan(m, t, [t[..i]] + parts, [t[i..i + n]] + titles)
  {
    assert ([t[..i]] + parts)[1..] == parts;
    assert ([t[i..i + n]] + titles)[1..] == titles;
  }

  /** Two scans agree on where the first match stands, and on whether
      there is one. */
  lemma FirstMatchAgrees(m: string -> nat, t: string, p: nat, found: bool, q: nat, found': bool)
    requires p <= |t| && q <= |t|
    requires forall j :: 0 <= j < p ==> m(t[j..]) == 0
    requires forall j :: 0 <= j < q ==> m(t[j..]) == 0
    requires found ==> p < |t| && m(t[p..]) > 0
    requires !found ==> p == |t|
    requires found' ==> q < |t| && m(t[q..]) > 0
    requires !found' ==> q == |t|
    ensures p == q && found == found'
  {
  }

  /** Only one split fits the scan. */
  lemma {:induction false} LeftmostScanUnique(m: string -> nat, t: string,
                                              parts: seq<string>, titles: seq<string>,
                                              parts': seq<string>, titles': seq<string>)
    requires LeftmostScan(m, t, parts, titles) && LeftmostScan(m, t, parts', titles')
    ensures parts == parts' && titles == titles'
    decreases |titles|
  {
    var p, p' := |parts[0]|, |parts'[0]|;
    FirstMatchAgrees(m, t, p, titles != [], p', titles' != []);
    if titles != [] {
      var n := |titles[0]|;
      assert titles[0] == titles'[0];
      LeftmostScanUnique(m, t[p + n..], parts[1..], titles[1..], parts'[1..], titles'[1..]);
      assert parts == [parts[0]] + parts[1..] && parts' == [parts'[0]] + parts'[1..];
      assert titles == [titles[0]] + titles[1..] && titles' == [titles'[0]] + titles'[1..];
    }
  }

  /** Every heading in the text is split off: `ArticleSplit` is the
      left-to-right scan for `제\s*\d+\s*조`, each title the whole greedy
      match where it stands and no piece holding the start of a match. */
  lemma {:induction false} ArticleSplitLeftmost(t: string)
    ensures LeftmostScan(ArticleMatch, t, ArticleSplit(t).0, ArticleSplit(t).1)
    decreases |t|
  {
    var i := NextMatch(ArticleMatch, t, 0);
    if i < |t| {
      NextMatchFound(ArticleMatch, t, 0);
      var n := ArticleMatch(t[i..]);
      var rest := ArticleSplit(t[i + n..]);
      ArticleSplitLeftmost(t[i + n..]);
      SplitAtFirstArticle(t, i, n);
      LeftmostScanCons(ArticleMatch, t, i, n, rest.0, rest.1);
    } else {
      assert t[..|t|] == t;
    }
  }

  /** `ArticleSplit` at its first heading. */
  lemma SplitAtFirstArticle(t: string, i: nat, n: nat)
    requires i < |t| && i == NextMatch(ArticleMatch, t, 0) && n == ArticleMatch(t[i..])
    ensures ArticleSplit(t) == ([t[..i]] + ArticleSplit(t[i + n..]).0, [t[i..i + n]] + ArticleSplit(t[i + n..]).1)
  {
  }

  /** The split is the only one that fits the scan: the headings are
      exactly the leftmost, non-overlapping matches in the text. */
  lemma ArticleSplitUnique(t: string, parts: seq<string>, titles: seq<string>)
    requires LeftmostScan(ArticleMatch, t, parts, titles)
    ensures parts == ArticleSplit(t).0 && titles == ArticleSplit(t).1
  {
    ArticleSplitLeftmost(t);
    LeftmostScanUnique(ArticleMatch, t, parts, titles, ArticleSplit(t).0, ArticleSplit(t).1);
  }

  /** The pieces with the headings put back between them. */
  function Interleave(parts: seq<string>, titles: seq<string>): string
    requires |parts| == |titles| + 1
  {
    if titles == [] then parts[0] else parts[0] + titles[0] + Interleave(parts[1..], titles[1..])
  }

  /** Splitting loses nothing: the pieces and the headings rebuild the text. */
  lemma {:induction false} ArticleSplitRebuilds(t: string)
    ensures Interleave(ArticleSplit(t).0, ArticleSplit(t).1) == t
    decreases |t|
  {
    var i := NextMatch(ArticleMatch, t, 0);
    if i < |t| {
      NextMatchFound(ArticleMatch, t, 0);
      var n := ArticleMatch(t[i..]);
      var rest := ArticleSplit(t[i + n..]);
      ArticleSplitRebuilds(t[i + n..]);
      SplitAtFirstArticle(t, i, n);
      RebuildStep(t, i, n, rest.0, rest.1);
    }
  }

  /** One heading put back between the piece before it and the rebuilt rest. */
  lemma RebuildStep(t: string, i: nat, n: nat, parts: seq<string>, titles: seq<string>)
    requires i + n <= |t| && |parts| == |titles| + 1
    requires Interleave(parts, titles) == t[i + n..]
    ensures Interleave([t[..i]] + parts, [t[i..i + n]] + titles) == t
  {
    assert ([t[..i]] + parts)[1..] == parts;
    assert ([t[i..i + n]] + titles)[1..] == titles;
    assert t == t[..i] + t[i..i + n] + t[i + n..];
  }

  /** The first `n` (heading, stripped body) pairs: heading `j` with the
      piece after it. */
  function ArticleBodies(parts: seq<string>, articles: seq<string>, n: nat): (r: seq<(string, string)>)
    requires n <= |articles| && |parts| == |articles| + 1
    ensures |r| == n
  {
    if n == 0 then [] else ArticleBodies(parts, articles, n - 1) + [(articles[n - 1], Strip(parts[n]))]
  }

  lemma {:induction false} ArticleBodiesAt(parts: seq<string>, articles: seq<string>, n: nat)
    requires n <= |articles| && |parts| == |articles| + 1
    ensures forall j {:trigger ArticleBodies(parts, articles, n)[j]} :: 0 <= j < n ==>
      ArticleBodies(parts, articles, n)[j] == (articles[j], Strip(parts[j + 1]))
  {
    if n > 0 {
      ArticleBodiesAt(parts, articles, n - 1);
    }
  }

  /** `split_by_articles`: one (heading, stripped body) pair per heading;
      the piece before the first heading is dropped. */
  method SplitByArticles(text: string) returns (result: seq<(string, string)>)
    ensures var (parts, articles) := ArticleSplit(text);
      && |result| == |articles|
      && forall i {:trigger result[i]} :: 0 <= i < |result| ==> result[i] == (articles[i], Strip(parts[i + 1]))
  {
    var split := ArticleSplit(text);
    result := PairBodies(split.0, split.1);
    ArticleBodiesAt(split.0, split.1, |split.1|);
  }

  /** The `for i, title in enumerate(articles)` loop. */
  method PairBodies(parts: seq<string>, articles: seq<string>) returns (result: seq<(string, string)>)
    requires |parts| == |articles| + 1
    ensures result == ArticleBodies(parts, articles, |articles|)
  {
    result := [];
    for i := 0 to |articles|
      invariant result == ArticleBodies(parts, articles, i)
    {
      var body := Strip(parts[i + 1]);
      result := result + [(articles[i], body)];
    }
  }

  /** Length of the match of `(\d+)\s*항` at the start of `t`, or 0. */
  function ClauseMatch(t: string): (n: nat)
    ensures n <= |t|
    ensures n > 0 ==> t[n - 1] == '항'
  {
    NumberedMatch(t, FirstDigit, '항')
  }

  /** `re.split` with one capture group, grouped: the text before the
      first match of `m`, then for each match its group (`cap` long) and
      the text up to the next match. */
  function CaptureSplit(m: string -> nat, cap: string -> nat, t: string): (r: (string, seq<(string, string)>))
    requires forall s :: m(s) <= |s|
    requires forall s :: cap(s) <= |s|
    ensures LeftmostCaptures(m, cap, t, r.0, r.1)
    decreases |t|
  {
    var i := NextMatch(m, t, 0);
    if i == |t| then
      LeftmostCapturesNone(m, cap, t);
      (t, [])
    else
      var u := t[i..];
      NextMatchFound(m, t, 0);
      var rest := CaptureSplit(m, cap, t[i + m(u)..]);
      LeftmostCapturesCons(m, cap, t, i, rest.0, rest.1);
      (t[..i], [(t[i..i + cap(u)], rest.0)] + rest.1)
  }

  /** `CLAUSE_PATTERN.split(body)`, grouped: the piece before the first
      match, then for each match its number and the piece after it. */
  function ClauseSplit(t: string): (r: (string, seq<(string, string)>))
  {
    CaptureSplit(ClauseMatch, DigitRun, t)
  }

  /** The scan `re.split` makes with the matcher `m` and a capture group
      `cap` (the length of the group at the start of a match): the text
      before the first match, then for each match its group and the text
      up to the next match. As in `LeftmostScan`, no position outside a
      match starts one, and the scan resumes right after each match. */
  ghost predicate LeftmostCaptures(m: string -> nat, cap: string -> nat, t: string,
                                   before: string, matches: seq<(string, string)>)
    decreases |matches|
  {
    var p := |before|;
    && p <= |t| && before == t[..p]
    && (forall j :: 0 <= j < p ==> m(t[j..]) == 0)
    && if matches == [] then p == |t|
       else
         var n := m(t[p..]);
         && n > 0 && p + n <= |t| && p + cap(t[p..]) <= |t|
         && matches[0].0 == t[p..p + cap(t[p..])]
         && LeftmostCaptures(m, cap, t[p + n..], matches[0].1, matches[1..])
  }

  /** A text without a match is all preamble. */
  lemma LeftmostCapturesNone(m: string -> nat, cap: string -> nat, t: string)
    requires forall j :: 0 <= j < |t| ==> m(t[j..]) == 0
    ensures LeftmostCaptures(m, cap, t, t, [])
  {
    assert t[..|t|] == t;
  }

  /** A match with its group at the first matching position, in front of
      the scan of the rest. */
  lemma LeftmostCapturesCons(m: string -> nat, cap: string -> nat, t: string, i: nat,
                             piece: string, rest: seq<(string, string)>)
    requires i < |t| && m(t[i..]) > 0 && i + m(t[i..]) <= |t| && i + cap(t[i..]) <= |t|
    requires forall j :: 0 <= j < i ==> m(t[j..]) == 0
    requires LeftmostCaptures(m, cap, t[i + m(t[i..])..], piece, rest)
    ensures LeftmostCaptures(m, cap, t, t[..i], [(t[i..i + cap(t[i..])], piece)] + rest)
  {
    assert ([(t[i..i + cap(t[i..])], piece)] + rest)[1..] == rest;
  }

  /** Only one clause split fits the scan. */
  lemma {:induction false} LeftmostCapturesUnique(m: string -> nat, cap: string -> nat, t: string,
                                                  before: string, matches: seq<(string, string)>,
                                                  before': string, matches': seq<(string, string)>)
    requires LeftmostCaptures(m, cap, t, before, matches)
    requires LeftmostCaptures(m, cap, t, before', matches')
    ensures before == before' && matches == matches'
    decreases |matches|
  {
    var p, p' := |before|, |before'|;
    FirstMatchAgrees(m, t, p, matches != [], p', matches' != []);
    if matches != [] {
      var n := m(t[p..]);
      LeftmostCapturesUnique(m, cap, t[p + n..], matches[0].1, matches[1..], matches'[0].1, matches'[1..]);
      assert matches == [matches[0]] + matches[1..] && matches' == [matches'[0]] + matches'[1..];
    }
  }

  /** Every clause number in the body is split off: `ClauseSplit` is the
      left-to-right scan for `(\d+)\s*항`, each number the digits that
      open the match where it stands. */
  lemma ClauseSplitLeftmost(t: string)
    ensures LeftmostCaptures(ClauseMatch, DigitRun, t, ClauseSplit(t).0, ClauseSplit(t).1)
  {
  }

  /** When the group of every possible match satisfies `P`, so does the
      group of every match in a scan. */
  lemma {:induction false} CapturesSatisfy(m: string -> nat, cap: string -> nat, P: string -> bool,
                                           t: string, before: string, matches: seq<(string, string)>)
    requires forall s :: m(s) > 0 && cap(s) <= |s| ==> P(s[..cap(s)])
    requires LeftmostCaptures(m, cap, t, before, matches)
    ensures forall k :: 0 <= k < |matches| ==> P(matches[k].0)
    decreases |matches|
  {
    if matches != [] {
      var p := |before|;
      var u := t[p..];
      CapturesSatisfy(m, cap, P, t[p + m(u)..], matches[0].1, matches[1..]);
      assert u[..cap(u)] == matches[0].0;
      forall k | 0 <= k < |matches| ensures P(matches[k].0) {
        if k > 0 { assert matches[k] == matches[1..][k - 1]; }
      }
    }
  }

  /** Every captured clause number is a run of digits. */
  lemma ClauseNumbersAreDigits(t: string)
    ensures forall k :: 0 <= k < |ClauseSplit(t).1| ==> IsNumber(ClauseSplit(t).1[k].0)
  {
    forall s | ClauseMatch(s) > 0 && DigitRun(s) <= |s| ensures IsNumber(s[..DigitRun(s)]) {
      NumberPrefix(s);
    }
    ClauseSplitLeftmost(t);
    CapturesSatisfy(ClauseMatch, DigitRun, IsNumber, t, ClauseSplit(t).0, ClauseSplit(t).1);
  }

  /** The split is the only one that fits the scan: the clause numbers are
      exactly those of the leftmost, non-overlapping matches in the body. */
  lemma ClauseSplitUnique(t: string, before: string, matches: seq<(string, string)>)
    requires LeftmostCaptures(ClauseMatch, DigitRun, t, before, matches)
    ensures before == ClauseSplit(t).0 && matches == ClauseSplit(t).1
  {
    ClauseSplitLeftmost(t);
    LeftmostCapturesUnique(ClauseMatch, DigitRun, t, before, matches, ClauseSplit(t).0, ClauseSplit(t).1);
  }

  /** A non-empty run of ASCII digits. */
  ghost predicate IsNumber(s: string) {
    |s| >= 1 && forall i :: 0 <= i < |s| ==> IsDigit(s[i])
  }

  /** The digits a clause match starts with form a number. */
  lemma NumberPrefix(u: string)
    requires ClauseMatch(u) > 0
    ensures DigitRun(u) <= |u| && IsNumber(u[..DigitRun(u)])
  {
    assert IsDigit(u[0]);
  }

  /** The flat list Python's split returns: the preamble, then number and
      piece for each match. */
  function SplitParts(before: string, matches: seq<(string, string)>): (parts: seq<string>)
    ensures |parts| == 1 + 2 * |matches|
    ensures parts[0] == before
    ensures forall k {:trigger matches[k]} :: 0 <= k < |matches| ==>
      parts[2 * k + 1] == matches[k].0 && parts[2 * k + 2] == matches[k].1
    decreases |matches|
  {
    if matches == [] then [before]
    else
      var rest := SplitParts(matches[0].1, matches[1..]);
      assert forall k {:trigger matches[k]} :: 1 <= k < |matches| ==> matches[k] == matches[1..][k - 1];
      [before, matches[0].0] + rest
  }

  /** A clause's number and body, stripped. */
  function StripPair(m: (string, string)): (string, string) {
    (Strip(m.0), Strip(m.1))
  }

  /** The first `n` (number, body) pairs read from the flat list, each
      stripped: pair `k` sits at indices `2k + 1` and `2k + 2`. */
  function PairsOf(parts: seq<string>, n: nat): (r: seq<(string, string)>)
    requires 2 * n + 1 <= |parts|
    ensures |r| == n
  {
    if n == 0 then [] else PairsOf(parts, n - 1) + [(Strip(parts[2 * n - 1]), Strip(parts[2 * n]))]
  }

  lemma {:induction false} PairsOfAt(parts: seq<string>, n: nat)
    requires 2 * n + 1 <= |parts|
    ensures forall k {:trigger PairsOf(parts, n)[k]} :: 0 <= k < n ==>
      PairsOf(parts, n)[k] == (Strip(parts[2 * k + 1]), Strip(parts[2 * k + 2]))
  {
    if n > 0 {
      PairsOfAt(parts, n - 1);
    }
  }

  /** One more pair is the pair at indices `2c + 1` and `2c + 2`. */
  lemma PairsOfNext(parts: seq<string>, c: nat)
    requires 2 * c + 3 <= |parts|
    ensures PairsOf(parts, c + 1) == PairsOf(parts, c) + [(Strip(parts[2 * c + 1]), Strip(parts[2 * c + 2]))]
  {
  }

  /** The `while i < len(parts)` loop stepping by two from index 1, over
      the flat split list of odd length, so the preamble at index 0 is
      never read. */
  method ReadPairs(parts: seq<string>, ghost n: nat) returns (clauses: seq<(string, string)>)
    requires |parts| == 2 * n + 1
    ensures clauses == PairsOf(parts, n)
  {
    clauses := [];
    var i := 1;
    while i < |parts|
      invariant i == 2 * |clauses| + 1 && |clauses| <= n
      invariant clauses == PairsOf(parts, |clauses|)
      decreases |parts| - i
    {
      PairsOfNext(parts, |clauses|);
      var clauseNo := Strip(parts[i]);
      var clauseBody := Strip(parts[i + 1]);
      clauses := clauses + [(clauseNo, clauseBody)];
      i := i + 2;
    }
  }

  /** The clauses of an article body: each clause number and the text up
      to the next one, stripped. */
  method ReadClauses(articleBody: string) returns (clauses: seq<(string, string)>)
    ensures var matches := ClauseSplit(articleBody).1;
      && |clauses| == |matches|
      && forall k {:trigger clauses[k]} :: 0 <= k < |clauses| ==> clauses[k] == StripPair(matches[k])
  {
    var split := ClauseSplit(articleBody);
    var parts := SplitParts(split.0, split.1);
    clauses := ReadPairs(parts, |split.1|);
    PairsOfAt(parts, |split.1|);
  }

  // ---------------------------------------------------------------------
  // Chunks
  // ---------------------------------------------------------------------

  /** The fourth element of a chunk tuple. */
  datatype Kind = Short | Normal | Full | Summary

  /** A chunk tuple: the three-element `(title, None, body)` returned for an
      article without clauses, or a four-element
      `(title, clause_no, body, kind)`. */
  datatype ArticleChunk =
    | WholeArticle(title: string, body: string)
    | Piece(title: string, clauseNo: Option<string>, body: string, kind: Kind)

  /** `tokenize_len`: the tokenizer is not part of this model. */
  type TokenLength = string -> nat

  const ParagraphBreak := "\n\n"

  // ---------------------------------------------------------------------
  // Greedy paragraph packing
  // ---------------------------------------------------------------------

  /** The flushed groups so far and the open buffer. */
  datatype Packing = Packing(groups: seq<seq<string>>, buffer: seq<string>)

  /** One iteration of the packing loop: flush the buffer before `p` when
      the buffer with `p` would exceed the budget, else append `p`. */
  function PackStep(acc: Packing, p: string, tokens: TokenLength, maxChunk: nat): Packing {
    if tokens(Join(ParagraphBreak, acc.buffer + [p])) > maxChunk then Packing(acc.groups + [acc.buffer], [p])
    else Packing(acc.groups, acc.buffer + [p])
  }

  /** The packing state after the paragraphs `ps`, from an empty buffer. */
  function PackFold(ps: seq<string>, tokens: TokenLength, maxChunk: nat): Packing {
    if ps == [] then Packing([], [])
    else PackStep(PackFold(ps[..|ps| - 1], tokens, maxChunk), ps[|ps| - 1], tokens, maxChunk)
  }

  /** The groups a clause's paragraphs are packed into: the flushed ones and
      the final buffer, if non-empty. */
  function PackGroups(ps: seq<string>, tokens: TokenLength, maxChunk: nat): seq<seq<string>> {
    var f := PackFold(ps, tokens, maxChunk);
    if f.buffer != [] then f.groups + [f.buffer] else f.groups
  }

  /** The groups laid end to end. */
  function Flatten(groups: seq<seq<string>>): seq<string> {
    if groups == [] then [] else Flatten(groups[..|groups| - 1]) + groups[|groups| - 1]
  }

  lemma {:induction false} FlattenSnoc(groups: seq<seq<string>>, g: seq<string>)
    ensures Flatten(groups + [g]) == Flatten(groups) + g
  {
    assert (groups + [g])[..|groups|] == groups;
  }

  /** The packing loop's state after the paragraphs `ps`: every paragraph
      is in a flushed group or in the buffer, in order; the buffer is
      non-empty once a paragraph has been read; only the first group can
      be empty. */
  ghost predicate Covers(f: Packing, ps: seq<string>) {
    && Flatten(f.groups) + f.buffer == ps
    && (ps != [] ==> f.buffer != [])
    && (ps == [] ==> f.groups == [])
    && (forall k :: 0 < k < |f.groups| ==> f.groups[k] != [])
  }

  /** One packing step keeps the state covering the paragraphs read. */
  lemma PackStepCovers(f: Packing, ps: seq<string>, p: string, tokens: TokenLength, maxChunk: nat)
    requires Covers(f, ps)
    ensures Covers(PackStep(f, p, tokens, maxChunk), ps + [p])
  {
    var g := PackStep(f, p, tokens, maxChunk);
    if g.groups == f.groups + [f.buffer] {
      FlattenSnoc(f.groups, f.buffer);
    } else {
      AppendAssoc(Flatten(f.groups), f.buffer, [p]);
    }
  }

  lemma {:induction false} PackFoldCovers(ps: seq<string>, tokens: TokenLength, maxChunk: nat)
    ensures Covers(PackFold(ps, tokens, maxChunk), ps)
  {
    if ps != [] {
      var init, p := ps[..|ps| - 1], ps[|ps| - 1];
      assert ps == init + [p];
      var f0 := PackFold(init, tokens, maxChunk);
      PackFoldCovers(init, tokens, maxChunk);
      PackStepCovers(f0, init, p, tokens, maxChunk);
    }
  }

  /** Every paragraph lands in exactly one group, in order. The first group
      is empty exactly when the first paragraph alone exceeds the budget,
      and no other group is empty. */
  lemma PackGroupsCover(ps: seq<string>, tokens: TokenLength, maxChunk: nat)
    ensures var groups := PackGroups(ps, tokens, maxChunk);
      && Flatten(groups) == ps
      && (ps != [] ==> |groups| >= 1 && (groups[0] == [] <==> tokens(ps[0]) > maxChunk))
      && (forall k :: 0 < k < |groups| ==> groups[k] != [])
  {
    PackGroupsFlatten(ps, tokens, maxChunk);
    if ps != [] {
      PackFirstGroup(ps, tokens, maxChunk);
    }
  }

  /** The groups laid end to end give back the paragraphs, and only the
      first group can be empty. */
  lemma PackGroupsFlatten(ps: seq<string>, tokens: TokenLength, maxChunk: nat)
    ensures var groups := PackGroups(ps, tokens, maxChunk);
      && Flatten(groups) == ps
      && (forall k :: 0 < k < |groups| ==> groups[k] != [])
  {
    PackFoldCovers(ps, tokens, maxChunk);
    var f := PackFold(ps, tokens, maxChunk);
    if f.buffer != [] {
      FlattenSnoc(f.groups, f.buffer);
    }
  }

  /** The first group is empty exactly when the first paragraph alone is
      over the budget. */
  lemma {:induction false} PackFirstGroup(ps: seq<string>, tokens: TokenLength, maxChunk: nat)
    requires ps != []
    ensures var groups := PackGroups(ps, tokens, maxChunk);
      |groups| >= 1 && (groups[0] == [] <==> tokens(ps[0]) > maxChunk)
  {
    PackFoldCovers(ps, tokens, maxChunk);
    PackFoldHead(ps, tokens, maxChunk);
  }

  /** How the first paragraph opens the packing, and that later steps keep
      the first group. */
  lemma {:induction false} PackFoldHead(ps: seq<string>, tokens: TokenLength, maxChunk: nat)
    requires ps != []
    ensures var f := PackFold(ps, tokens, maxChunk);
      if tokens(ps[0]) > maxChunk then |f.groups| >= 1 && f.groups[0] == []
      else (f.groups == [] && f.buffer != [] && f.buffer[0] == ps[0]) || (|f.groups| >= 1 && f.groups[0] != [] && f.groups[0][0] == ps[0])
  {
    var init := ps[..|ps| - 1];
    var p := ps[|ps| - 1];
    var f := PackFold(ps, tokens, maxChunk);
    if init == [] {
      assert Join(ParagraphBreak, [] + [p]) == p;
      assert ps[0] == p;
    } else {
      PackFoldHead(init, tokens, maxChunk);
      assert init[0] == ps[0];
    }
  }

  /** Group `k` of `all` was closed only because adding the first
      paragraph of the non-empty group after it would have gone over the
      budget. */
  ghost predicate ClosedAt(all: seq<seq<string>>, k: nat, tokens: TokenLength, maxChunk: nat) {
    k + 1 < |all| && all[k + 1] != [] && tokens(Join(ParagraphBreak, all[k] + [all[k + 1][0]])) > maxChunk
  }

  /** The greedy rule, for every flushed group. */
  ghost predicate Greedy(f: Packing, tokens: TokenLength, maxChunk: nat) {
    forall k :: 0 <= k < |f.groups| ==> ClosedAt(f.groups + [f.buffer], k, tokens, maxChunk)
  }

  lemma PackStepGreedy(f: Packing, p: string, tokens: TokenLength, maxChunk: nat)
    requires Greedy(f, tokens, maxChunk)
    ensures Greedy(PackStep(f, p, tokens, maxChunk), tokens, maxChunk)
  {
    var g := PackStep(f, p, tokens, maxChunk);
    var all0 := f.groups + [f.buffer];
    var all := g.groups + [g.buffer];
    forall k | 0 <= k < |g.groups|
      ensures ClosedAt(all, k, tokens, maxChunk)
    {
      if k < |f.groups| {
        assert ClosedAt(all0, k, tokens, maxChunk);
        assert all[k] == all0[k];
        if k + 1 < |f.groups| || |g.groups| > |f.groups| {
          assert all[k + 1] == all0[k + 1];
        } else {
          assert all[k + 1] == f.buffer + [p];
        }
      } else {
        assert all[k] == f.buffer && all[k + 1] == [p];
      }
    }
  }

  /** The greedy rule holds of the whole packing. */
  lemma {:induction false} PackFoldGreedy(ps: seq<string>, tokens: TokenLength, maxChunk: nat)
    ensures Greedy(PackFold(ps, tokens, maxChunk), tokens, maxChunk)
  {
    if ps != [] {
      var init := ps[..|ps| - 1];
      PackFoldGreedy(init, tokens, maxChunk);
      PackStepGreedy(PackFold(init, tokens, maxChunk), ps[|ps| - 1], tokens, maxChunk);
    }
  }

  /** Every group of two or more paragraphs was built by appending within
      the budget. */
  ghost predicate WithinBudget(f: Packing, tokens: TokenLength, maxChunk: nat) {
    forall g :: g in f.groups + [f.buffer] && |g| >= 2 ==> tokens(Join(ParagraphBreak, g)) <= maxChunk
  }

  lemma PackStepWithinBudget(f: Packing, p: string, tokens: TokenLength, maxChunk: nat)
    requires WithinBudget(f, tokens, maxChunk)
    ensures WithinBudget(PackStep(f, p, tokens, maxChunk), tokens, maxChunk)
  {
    var g := PackStep(f, p, tokens, maxChunk);
    if tokens(Join(ParagraphBreak, f.buffer + [p])) > maxChunk {
      assert g.groups + [g.buffer] == (f.groups + [f.buffer]) + [[p]];
    } else {
      assert forall h :: h in g.groups + [g.buffer] ==> h in f.groups + [f.buffer] || h == f.buffer + [p];
    }
  }

  lemma {:induction false} PackFoldWithinBudget(ps: seq<string>, tokens: TokenLength, maxChunk: nat)
    ensures WithinBudget(PackFold(ps, tokens, maxChunk), tokens, maxChunk)
  {
    if ps != [] {
      var init := ps[..|ps| - 1];
      PackFoldWithinBudget(init, tokens, maxChunk);
      PackStepWithinBudget(PackFold(init, tokens, maxChunk), ps[|ps| - 1], tokens, maxChunk);
    }
  }

  /** Groups packed greedily within the budget: a group of several
      paragraphs fits the budget, no group after the first is empty, and
      each group was closed only because the next paragraph would not have
      fit. */
  ghost predicate Packed(groups: seq<seq<string>>, tokens: TokenLength, maxChunk: nat) {
    && (forall k :: 0 <= k < |groups| && |groups[k]| >= 2 ==> tokens(Join(ParagraphBreak, groups[k])) <= maxChunk)
    && (forall k :: 0 <= k < |groups| - 1 ==> ClosedAt(groups, k, tokens, maxChunk))
  }

  lemma PackedOf(f: Packing, ps: seq<string>, tokens: TokenLength, maxChunk: nat)
    requires Covers(f, ps) && Greedy(f, tokens, maxChunk) && WithinBudget(f, tokens, maxChunk)
    ensures Packed(if f.buffer != [] then f.groups + [f.buffer] else f.groups, tokens, maxChunk)
  {
    var all := f.groups + [f.buffer];
    if f.buffer != [] {
      forall k | 0 <= k < |all| && |all[k]| >= 2
        ensures tokens(Join(ParagraphBreak, all[k])) <= maxChunk
      {
        assert all[k] in all;
      }
    }
  }

  /** The groups of a clause are packed greedily within the budget. */
  lemma PackGroupsPacked(ps: seq<string>, tokens: TokenLength, maxChunk: nat)
    ensures Packed(PackGroups(ps, tokens, maxChunk), tokens, maxChunk)
  {
    PackFoldCovers(ps, tokens, maxChunk);
    PackFoldWithinBudget(ps, tokens, maxChunk);
    PackFoldGreedy(ps, tokens, maxChunk);
    PackedOf(PackFold(ps, tokens, maxChunk), ps, tokens, maxChunk);
  }

  // ---------------------------------------------------------------------
  // split_article_into_clauses
  // ---------------------------------------------------------------------

  /** The stripped (number, body) pairs of an article body. */
  function Clauses(articleBody: string): (clauses: seq<(string, string)>)
    ensures |clauses| == |ClauseSplit(articleBody).1|
  {
    var m := ClauseSplit(articleBody).1;
    seq(|m|, k requires 0 <= k < |m| => StripPair(m[k]))
  }

  /** One `normal` chunk per packed group of a clause. */
  function GroupPieces(title: string, no: string, groups: seq<seq<string>>): (pieces: seq<ArticleChunk>)
    ensures |pieces| == |groups|
  {
    seq(|groups|, i requires 0 <= i < |groups| => Piece(title, Some(no), Join(ParagraphBreak, groups[i]), Normal))
  }

  lemma GroupPiecesSnoc(title: string, no: string, groups: seq<seq<string>>, g: seq<string>)
    ensures GroupPieces(title, no, groups + [g])
      == GroupPieces(title, no, groups) + [Piece(title, Some(no), Join(ParagraphBreak, g), Normal)]
  {
  }

  /** The chunks of one clause: a single `short` chunk below the minimum,
      else one `normal` chunk per group of its paragraphs. */
  function ClauseChunks(title: string, clause: (string, string), tokens: TokenLength, minClause: nat, maxChunk: nat): seq<ArticleChunk> {
    if tokens(clause.1) < minClause then [Piece(title, Some(clause.0), clause.1, Short)]
    else GroupPieces(title, clause.0, PackGroups(SplitOn(clause.1, ParagraphBreak), tokens, maxChunk))
  }

  /** The chunks of the clauses, in order. */
  function AllClauseChunks(title: string, clauses: seq<(string, string)>, tokens: TokenLength, minClause: nat, maxChunk: nat): seq<ArticleChunk> {
    if clauses == [] then []
    else
      AllClauseChunks(title, clauses[..|clauses| - 1], tokens, minClause, maxChunk)
        + ClauseChunks(title, clauses[|clauses| - 1], tokens, minClause, maxChunk)
  }

  /** What `split_article_into_clauses` returns: the whole article as a
      three-element tuple when it has no clause, else the clause chunks. */
  function ArticleClauseChunks(title: string, articleBody: string, tokens: TokenLength, minClause: nat, maxChunk: nat): seq<ArticleChunk> {
    var clauses := Clauses(articleBody);
    if clauses == [] then [WholeArticle(title, articleBody)]
    else AllClauseChunks(title, clauses, tokens, minClause, maxChunk)
  }

  /** The inner loop over a long clause's paragraphs. */
  method PackParagraphs(title: string, clauseNo: string, body: string, tokens: TokenLength, maxChunk: nat)
    returns (pieces: seq<ArticleChunk>)
    ensures pieces == GroupPieces(title, clauseNo, PackGroups(SplitOn(body, ParagraphBreak), tokens, maxChunk))
  {
    var paragraphs := SplitOn(body, ParagraphBreak);
    var buffer: seq<string> := [];
    pieces := [];
    for j := 0 to |paragraphs|
      invariant buffer == PackFold(paragraphs[..j], tokens, maxChunk).buffer
      invariant pieces == GroupPieces(title, clauseNo, PackFold(paragraphs[..j], tokens, maxChunk).groups)
    {
      var p := paragraphs[j];
      ghost var f0 := PackFold(paragraphs[..j], tokens, maxChunk);
      assert paragraphs[..j + 1][..j] == paragraphs[..j];
      assert PackFold(paragraphs[..j + 1], tokens, maxChunk) == PackStep(f0, p, tokens, maxChunk);
      if tokens(Join(ParagraphBreak, buffer + [p])) > maxChunk {
        GroupPiecesSnoc(title, clauseNo, f0.groups, buffer);
        pieces := pieces + [Piece(title, Some(clauseNo), Join(ParagraphBreak, buffer), Normal)];
        buffer := [p];
      } else {
        buffer := buffer + [p];
      }
    }
    assert paragraphs[..|paragraphs|] == paragraphs;
    if buffer != [] {
      GroupPiecesSnoc(title, clauseNo, PackFold(paragraphs, tokens, maxChunk).groups, buffer);
      pieces := pieces + [Piece(title, Some(clauseNo), Join(ParagraphBreak, buffer), Normal)];
    }
  }

  /** `split_article_into_clauses`. */
  method SplitArticleIntoClauses(articleTitle: string, articleBody: string, tokens: TokenLength, minClause: nat, maxChunk: nat)
    returns (chunks: seq<ArticleChunk>)
    ensures chunks == ArticleClauseChunks(articleTitle, articleBody, tokens, minClause, maxChunk)
  {
    var clauses := ReadClauses(articleBody);
    assert clauses == Clauses(articleBody);
    if |clauses| == 0 {
      return [WholeArticle(articleTitle, articleBody)];
    }
    chunks := ChunkClauses(articleTitle, clauses, tokens, minClause, maxChunk);
  }

  /** The `for clause_no, body in clauses` loop. */
  method ChunkClauses(articleTitle: string, clauses: seq<(string, string)>, tokens: TokenLength, minClause: nat, maxChunk: nat)
    returns (chunks: seq<ArticleChunk>)
    ensures chunks == AllClauseChunks(articleTitle, clauses, tokens, minClause, maxChunk)
  {
    chunks := [];
    for c := 0 to |clauses|
      invariant chunks == AllClauseChunks(articleTitle, clauses[..c], tokens, minClause, maxChunk)
    {
      var pieces := ChunkClause(articleTitle, clauses[c], tokens, minClause, maxChunk);
      AllClauseChunksSnoc(articleTitle, clauses, c, tokens, minClause, maxChunk);
      chunks := chunks + pieces;
    }
    assert clauses[..|clauses|] == clauses;
  }

  lemma AllClauseChunksSnoc(title: string, clauses: seq<(string, string)>, c: nat, tokens: TokenLength, minClause: nat, maxChunk: nat)
    requires c < |clauses|
    ensures AllClauseChunks(title, clauses[..c + 1], tokens, minClause, maxChunk)
      == AllClauseChunks(title, clauses[..c], tokens, minClause, maxChunk) + ClauseChunks(title, clauses[c], tokens, minClause, maxChunk)
  {
    assert clauses[..c + 1][..c] == clauses[..c];
  }

  /** The body of the loop over the clauses: a short clause is kept whole,
      a long one is packed paragraph by paragraph. */
  method ChunkClause(articleTitle: string, clause: (string, string), tokens: TokenLength, minClause: nat, maxChunk: nat)
    returns (pieces: seq<ArticleChunk>)
    ensures pieces == ClauseChunks(articleTitle, clause, tokens, minClause, maxChunk)
  {
    var clauseNo, body := clause.0, clause.1;
    if tokens(body) < minClause {
      pieces := [Piece(articleTitle, Some(clauseNo), body, Short)];
    } else {
      pieces := PackParagraphs(articleTitle, clauseNo, body, tokens, maxChunk);
    }
  }

  /** A chunk produced for a clause of the article `title`. */
  predicate IsClausePiece(c: ArticleChunk, title: string) {
    c.Piece? && c.title == title && c.clauseNo.Some? && (c.kind == Short || c.kind == Normal)
  }

  /** A clause yields at least one chunk, and only clause chunks. */
  lemma ClauseChunksShape(title: string, clause: (string, string), tokens: TokenLength, minClause: nat, maxChunk: nat)
    ensures var cs := ClauseChunks(title, clause, tokens, minClause, maxChunk);
      |cs| >= 1 && forall k :: 0 <= k < |cs| ==> IsClausePiece(cs[k], title)
  {
    if tokens(clause.1) >= minClause {
      PackGroupsCover(SplitOn(clause.1, ParagraphBreak), tokens, maxChunk);
    }
  }

  lemma {:induction false} AllClauseChunksShape(title: string, clauses: seq<(string, string)>, tokens: TokenLength, minClause: nat, maxChunk: nat)
    ensures var cs := AllClauseChunks(title, clauses, tokens, minClause, maxChunk);
      |cs| >= |clauses| && forall k :: 0 <= k < |cs| ==> IsClausePiece(cs[k], title)
  {
    if clauses != [] {
      var init := clauses[..|clauses| - 1];
      AllClauseChunksShape(title, init, tokens, minClause, maxChunk);
      ClauseChunksShape(title, clauses[|clauses| - 1], tokens, minClause, maxChunk);
    }
  }

  /** The result is never empty; it is the whole article exactly when the
      body has no clause, and otherwise consists of clause chunks. */
  lemma ArticleClauseChunksShape(title: string, articleBody: string, tokens: TokenLength, minClause: nat, maxChunk: nat)
    ensures var cs := ArticleClauseChunks(title, articleBody, tokens, minClause, maxChunk);
      && |cs| >= 1
      && (Clauses(articleBody) == [] ==> cs == [WholeArticle(title, articleBody)])
      && (Clauses(articleBody) != [] ==> forall k :: 0 <= k < |cs| ==> IsClausePiece(cs[k], title))
  {
    AllClauseChunksShape(title, Clauses(articleBody), tokens, minClause, maxChunk);
  }

  // ---------------------------------------------------------------------
  // merge_short_clauses
  // ---------------------------------------------------------------------

  /** The error unpacking a three-element tuple into four names raises. */
  const UnpackMessage := "not enough values to unpack (expected 4, got 3)"

  /** A clause number as an f-string prints it: `None` for the missing one. */
  function ShowClauseNo(no: Option<string>): string {
    match no
    case Some(s) => s
    case None => "None"
  }

  /** `f"{clause_no}항\n{body}\n"`. */
  function Render(c: ArticleChunk): (r: string)
    requires c.Piece?
    ensures |r| > |c.body|
  {
    ShowClauseNo(c.clauseNo) + "항\n" + c.body + "\n"
  }

  predicate IsKind(c: ArticleChunk, kind: Kind) {
    c.Piece? && c.kind == kind
  }

  /** `[c for c in chunks if c[3] == kind]`, over four-element chunks. */
  function OfKind(chunks: seq<ArticleChunk>, kind: Kind): (r: seq<ArticleChunk>)
    ensures |r| <= |chunks|
    ensures forall c :: c in r <==> c in chunks && IsKind(c, kind)
    decreases |chunks|
  {
    if chunks == [] then []
    else
      var rest := OfKind(chunks[1..], kind);
      assert forall c :: c in chunks <==> c == chunks[0] || c in chunks[1..];
      (if IsKind(chunks[0], kind) then [chunks[0]] else []) + rest
  }

  /** Some chunk is a three-element tuple. */
  predicate HasWholeArticle(chunks: seq<ArticleChunk>) {
    exists k :: 0 <= k < |chunks| && chunks[k].WholeArticle?
  }

  /** What `merge_short_clauses` does as written: unpacking a
      three-element tuple raises, an empty list leaves `title` unbound,
      and otherwise the rendered clauses form one `full` chunk under the
      last chunk's title, followed by the `normal` chunks. */
  function MergeAsWritten(chunks: seq<ArticleChunk>): Result<seq<ArticleChunk>> {
    if HasWholeArticle(chunks) then Err(ValueError(UnpackMessage))
    else if chunks == [] then Err(UnboundLocalError("title"))
    else
      var renders := seq(|chunks|, i requires 0 <= i < |chunks| => Render(chunks[i]));
      Ok([Piece(chunks[|chunks| - 1].title, None, Join("\n", renders), Full)] + OfKind(chunks, Normal))
  }

  /** `merge_short_clauses` as written. */
  method MergeShortClausesAsWritten(clauseChunks: seq<ArticleChunk>) returns (r: Result<seq<ArticleChunk>>)
    ensures r == MergeAsWritten(clauseChunks)
  {
    var fullBody: seq<string> := [];
    var title: Option<string> := None;
    for i := 0 to |clauseChunks|
      invariant |fullBody| == i
      invariant forall j :: 0 <= j < i ==> clauseChunks[j].Piece? && fullBody[j] == Render(clauseChunks[j])
      invariant title == if i == 0 then None else Some(clauseChunks[i - 1].title)
    {
      var c := clauseChunks[i];
      if c.WholeArticle? {
        assert HasWholeArticle(clauseChunks);
        return Err(ValueError(UnpackMessage));
      }
      fullBody := fullBody + [Render(c)];
      title := Some(c.title);
    }
    if title.None? {
      return Err(UnboundLocalError("title"));
    }
    assert fullBody == seq(|clauseChunks|, i requires 0 <= i < |clauseChunks| => Render(clauseChunks[i]));
    var fullChunk := Piece(title.value, None, Join("\n", fullBody), Full);
    r := Ok([fullChunk] + OfKind(clauseChunks, Normal));
  }

  /** The as-written merge fails on exactly the articles without clauses,
      whose chunk list is the three-element tuple. */
  lemma ClauseFreeArticleCrashes(title: string, articleBody: string, tokens: TokenLength, minClause: nat, maxChunk: nat)
    ensures var r := MergeAsWritten(ArticleClauseChunks(title, articleBody, tokens, minClause, maxChunk));
      && (Clauses(articleBody) == [] <==> r.Err?)
      && (Clauses(articleBody) == [] ==> r == Err(ValueError(UnpackMessage)))
  {
    var cs := ArticleClauseChunks(title, articleBody, tokens, minClause, maxChunk);
    ArticleClauseChunksShape(title, articleBody, tokens, minClause, maxChunk);
    if Clauses(articleBody) == [] {
      assert cs[0].WholeArticle?;
    } else {
      assert !HasWholeArticle(cs) by {
        forall k | 0 <= k < |cs| ensures !cs[k].WholeArticle? {
          assert IsClausePiece(cs[k], title);
        }
      }
    }
  }

  /** How a chunk enters the full text in the corrected merge: a clause
      chunk as the source renders it, the whole article as its body. */
  function FullText(c: ArticleChunk): string {
    match c
    case WholeArticle(_, body) => body
    case Piece(_, _, _, _) => Render(c)
  }

  /** The corrected merge: a clause-free article becomes a `full` chunk of
      its own body instead of failing to unpack. */
  function Merge(chunks: seq<ArticleChunk>): (merged: seq<ArticleChunk>)
    requires chunks != []
    ensures |merged| >= 1 && IsKind(merged[0], Full)
  {
    var texts := seq(|chunks|, i requires 0 <= i < |chunks| => FullText(chunks[i]));
    [Piece(chunks[|chunks| - 1].title, None, Join("\n", texts), Full)] + OfKind(chunks, Normal)
  }

  /** `merge_short_clauses`, corrected. */
  method MergeShortClauses(clauseChunks: seq<ArticleChunk>) returns (merged: seq<ArticleChunk>)
    requires clauseChunks != []
    ensures merged == Merge(clauseChunks)
  {
    var fullBody: seq<string> := [];
    for i := 0 to |clauseChunks|
      invariant |fullBody| == i
      invariant forall j :: 0 <= j < i ==> fullBody[j] == FullText(clauseChunks[j])
    {
      fullBody := fullBody + [FullText(clauseChunks[i])];
    }
    assert fullBody == seq(|clauseChunks|, i requires 0 <= i < |clauseChunks| => FullText(clauseChunks[i]));
    var title := clauseChunks[|clauseChunks| - 1].title;
    merged := [Piece(title, None, Join("\n", fullBody), Full)] + OfKind(clauseChunks, Normal);
  }

  /** The corrected merge agrees with the source wherever the source does
      not fail; it keeps exactly one `full` chunk, first, then the
      `normal` chunks and nothing else. */
  lemma MergeContract(chunks: seq<ArticleChunk>)
    requires chunks != []
    ensures MergeAsWritten(chunks).Ok? ==> MergeAsWritten(chunks).value == Merge(chunks)
    ensures var merged := Merge(chunks);
      && OfKind(merged, Full) == [merged[0]]
      && merged[1..] == OfKind(chunks, Normal)
      && (forall c :: c in merged[1..] <==> c in chunks && IsKind(c, Normal))
  {
    var merged := Merge(chunks);
    if !HasWholeArticle(chunks) {
      var renders := seq(|chunks|, i requires 0 <= i < |chunks| => Render(chunks[i]));
      var texts := seq(|chunks|, i requires 0 <= i < |chunks| => FullText(chunks[i]));
      assert renders == texts;
    }
    NoneOfKind(merged[1..], Full);
    assert merged == [merged[0]] + merged[1..];
    OfKindCons(merged[0], merged[1..], Full);
  }

  lemma {:induction false} NoneOfKind(chunks: seq<ArticleChunk>, kind: Kind)
    requires forall c :: c in chunks ==> !IsKind(c, kind)
    ensures OfKind(chunks, kind) == []
  {
    if chunks != [] {
      assert chunks[0] in chunks;
      assert forall c :: c in chunks[1..] ==> c in chunks;
      NoneOfKind(chunks[1..], kind);
    }
  }

  lemma OfKindCons(c: ArticleChunk, rest: seq<ArticleChunk>, kind: Kind)
    ensures OfKind([c] + rest, kind) == (if IsKind(c, kind) then [c] else []) + OfKind(rest, kind)
  {
    assert ([c] + rest)[1..] == rest;
  }

  // ---------------------------------------------------------------------
  // build_chunks_for_article
  // ---------------------------------------------------------------------

  /** `create_summary(text, article_title)`: the language model is not part
      of this model. */
  type Summarizer = (string, string) -> string

  /** `build_chunks_for_article`, with the corrected merge: the merged
      chunks, then a `summary` chunk summarising the full chunk's text. */
  method BuildChunksForArticle(articleTitle: string, articleBody: string, tokens: TokenLength, minClause: nat, maxChunk: nat,
                               summarize: Summarizer)
    returns (chunks: seq<ArticleChunk>)
    ensures var merged := Merge(ArticleClauseChunks(articleTitle, articleBody, tokens, minClause, maxChunk));
      && chunks == merged + [Piece(articleTitle, Some("summary"), summarize(merged[0].body, articleTitle), Summary)]
      && IsKind(chunks[0], Full)
      && IsKind(chunks[|chunks| - 1], Summary)
  {
    var clauseChunks := SplitArticleIntoClauses(articleTitle, articleBody, tokens, minClause, maxChunk);
    ArticleClauseChunksShape(articleTitle, articleBody, tokens, minClause, maxChunk);
    var merged := MergeShortClauses(clauseChunks);
    MergeContract(clauseChunks);
    var fullChunkText := OfKind(merged, Full)[0].body;
    var summary := summarize(fullChunkText, articleTitle);
    var summaryChunk := Piece(articleTitle, Some("summary"), summary, Summary);
    chunks := merged + [summaryChunk];
  }
}

=== FILE: ChunkService.dfy ===
/** `ChunkService` (app/domain/document/chunk/service/chunk_service.py):
    splits a document's paragraphs into child chunks and labels each chunk
    with its position and its role. The recursive character splitter is a
    library algorithm and enters as a parameter. */
module ChunkService {
  import opened Docs
  import opened DocumentEntity
  import Wrappers

  /** The splitter, applied to the documents with a chunk size, an overlap
      and the separators it tries in order. */
  type Splitter = (seq<Doc>, nat, nat, seq<string>) -> seq<Doc>

  /** The separators, by priority: paragraph break, line break, full stop,
      space, and finally any character. */
  const Separators: seq<string> := ["\n\n", "\n", ".", " ", ""]

  /** The chunk size and overlap of `full_chunk`. */
  const FullChunkSize: nat := 1500
  const FullChunkOverlap: nat := 200

  /** Chunk `chunk` at position `idx`, after the two metadata writes. */
  function Label(chunk: Doc, idx: nat): Doc
  {
    Doc(chunk.content, chunk.metadata["chunk_index" := Int(idx)]["role" := Str("child")])
  }

  /** Every splitter chunk, labelled with its position. */
  function LabelAll(chunks: seq<Doc>): seq<Doc>
  {
    seq(|chunks|, i requires 0 <= i < |chunks| => Label(chunks[i], i))
  }

  /** Labelling keeps the chunks, their number and order, and every other
      metadata entry; it sets `chunk_index` to the position and `role` to
      `"child"`. */
  lemma LabelAllProperties(chunks: seq<Doc>)
    ensures var r := LabelAll(chunks);
      && |r| == |chunks|
      && (forall i :: 0 <= i < |r| ==> r[i].content == chunks[i].content)
      && (forall i :: 0 <= i < |r| ==>
            && r[i].metadata.Keys == chunks[i].metadata.Keys + {"chunk_index", "role"}
            && r[i].metadata["chunk_index"] == Int(i)
            && r[i].metadata["role"] == Str("child"))
      && (forall i, k :: 0 <= i < |r| && k in chunks[i].metadata && k != "chunk_index" && k != "role" ==>
            r[i].metadata[k] == chunks[i].metadata[k])
  {
  }

  /** No two chunks share a `chunk_index`: the indices are exactly
      0 .. N-1. */
  lemma ChunkIndicesDistinct(chunks: seq<Doc>)
    ensures var r := LabelAll(chunks);
      forall i, j :: 0 <= i < |r| && 0 <= j < |r| && r[i].metadata["chunk_index"] == r[j].metadata["chunk_index"] ==> i == j
  {
    LabelAllProperties(chunks);
  }

  /** The labelling loop of `chunk`, building `doc_list`. */
  method LabelChunks(chunks: seq<Doc>) returns (docList: seq<Doc>)
    ensures docList == LabelAll(chunks)
  {
    docList := [];
    for idx := 0 to |chunks|
      invariant docList == LabelAll(chunks[..idx])
    {
      var chunk := chunks[idx];
      var metadata := chunk.metadata["chunk_index" := Int(idx)];
      metadata := metadata["role" := Str("child")];
      docList := docList + [Doc(chunk.content, metadata)];
    }
    assert chunks[..|chunks|] == chunks;
  }

  /** `chunk`: split, label, store as the child documents, return the same
      document. */
  method Chunk(doc: DocumentInfo, split: Splitter, chunkSize: nat, chunkOverlap: nat) returns (r: DocumentInfo)
    modifies doc
    ensures r == doc
    ensures doc.childDocuments == LabelAll(split(old(doc.documents), chunkSize, chunkOverlap, Separators))
    ensures doc.content == old(doc.content) && doc.metadata == old(doc.metadata) && doc.documents == old(doc.documents)
  {
    var chunks := split(doc.documents, chunkSize, chunkOverlap, Separators);
    var docList := LabelChunks(chunks);
    doc.SetChildDocument(docList);
    r := doc;
  }

  /** `full_chunk`: `chunk` with size 1500 and overlap 200. */
  method FullChunk(doc: DocumentInfo, split: Splitter) returns (r: DocumentInfo)
    modifies doc
    ensures r == doc
    ensures doc.childDocuments == LabelAll(split(old(doc.documents), FullChunkSize, FullChunkOverlap, Separators))
    ensures doc.content == old(doc.content) && doc.metadata == old(doc.metadata) && doc.documents == old(doc.documents)
  {
    r := Chunk(doc, split, FullChunkSize, FullChunkOverlap);
  }

  /** `chunk` as written: the splitter's input is `doc.get_upsert_document()`,
      which iterates `self.document`, and a `DocumentInfo` has no attribute of
      that name (its fields are `InfoFields`). The lookup raises before the
      splitter runs, so `doc` is left as it was. `full_chunk` is `chunk` with
      1500 and 200 and fails the same way. */
  function ChunkAsWritten(doc: DocumentInfo, split: Splitter, chunkSize: nat, chunkOverlap: nat): Wrappers.Result<DocumentInfo> {
    Wrappers.Err(Wrappers.AttributeError("document"))
  }

  /** As written, `chunk` and `full_chunk` raise `AttributeError` on every
      call: `document` is not a field of the dataclass, `documents` is. */
  lemma ChunkAsWrittenFails(doc: DocumentInfo, split: Splitter, chunkSize: nat, chunkOverlap: nat)
    ensures "document" !in InfoFields && "documents" in InfoFields
    ensures ChunkAsWritten(doc, split, chunkSize, chunkOverlap) == Wrappers.Err(Wrappers.AttributeError("document"))
    ensures ChunkAsWritten(doc, split, FullChunkSize, FullChunkOverlap) == Wrappers.Err(Wrappers.AttributeError("document"))
  {
  }
}

=== FILE: Docs.dfy ===
/** The paragraph record shared by the document entities: `Doc` in
    app/domain/document/entity/doc.py, and LangChain's `Document`, which
    carries the same two fields (`page_content` and `metadata`). */
module Docs {

  /** A metadata value. The code only ever reads strings and integers out
      of metadata, or finds a key missing; other values are opaque. */
  datatype Value = Str(text: string) | Int(number: int) | Null | Other(id: nat)

  /** A paragraph or a chunk: its text and its metadata dictionary. */
  datatype Doc = Doc(content: string, metadata: map<string, Value>)

  /** The texts of `docs`, in order. */
  function Contents(docs: seq<Doc>): (r: seq<string>)
    ensures |r| == |docs|
    ensures forall i :: 0 <= i < |docs| ==> r[i] == docs[i].content
  {
    seq(|docs|, i requires 0 <= i < |docs| => docs[i].content)
  }
}

=== FILE: DocumentEntity.dfy ===
/** `DocumentInfo` (app/domain/document/entity/documentinfo.py): a parsed
    document, its paragraphs and the chunks derived from them, and the
    paragraph sample that is sent to the document-type classifier. */
module DocumentEntity {
  import opened Wrappers
  import opened Strings
  import opened Docs

  // ---------------------------------------------------------------------
  // get_route_doc: the classifier sample
  // ---------------------------------------------------------------------

  /** The paragraphs `get_route_doc` keeps, by Python slicing: all of them
      below four, else the first three and the last one below eight, else
      the first three and the one at `total // 2`. */
  function RouteSample(paragraphs: seq<Doc>): seq<Doc>
  {
    var total := |paragraphs|;
    if total < 4 then paragraphs
    else if total < 8 then paragraphs[..3] + [paragraphs[total - 1]]
    else paragraphs[..3] + [paragraphs[total / 2]]
  }

  /** The positions sampled out of `total` paragraphs, written out as
      indices rather than as slices. */
  function SampleIndices(total: nat): (idx: seq<nat>)
  {
    if total < 4 then seq(total, i => i)
    else if total < 8 then [0, 1, 2, total - 1]
    else [0, 1, 2, total / 2]
  }

  /** The sample positions are at most four, distinct, in increasing order
      and inside the list. */
  lemma SampleIndicesOrdered(total: nat)
    ensures var idx := SampleIndices(total);
      && |idx| == (if total < 4 then total else 4)
      && (forall k :: 0 <= k < |idx| ==> idx[k] < total)
      && (forall j, k :: 0 <= j < k < |idx| ==> idx[j] < idx[k])
  {
  }

  /** The slices pick exactly the paragraphs at `SampleIndices`: the sample
      holds at most four paragraphs of the document, in their original
      order. */
  lemma RouteSamplePicks(paragraphs: seq<Doc>)
    ensures var r, idx := RouteSample(paragraphs), SampleIndices(|paragraphs|);
      && |r| == |idx| <= 4
      && forall k :: 0 <= k < |r| ==> idx[k] < |paragraphs| && r[k] == paragraphs[idx[k]]
  {
    var total := |paragraphs|;
    var r, idx := RouteSample(paragraphs), SampleIndices(total);
    if total >= 4 {
      assert r[..3] == paragraphs[..3];
      forall k | 0 <= k < 3 ensures r[k] == paragraphs[idx[k]] {
        assert r[k] == paragraphs[..3][k];
      }
    }
  }

  /** The sample as the classifier reads it: the paragraph texts joined by
      an empty line. */
  function RouteText(paragraphs: seq<Doc>): (r: string)
    ensures paragraphs == [] ==> r == ""
    ensures |paragraphs| < 4 ==> r == Join("\n\n", Contents(paragraphs))
  {
    Join("\n\n", Contents(RouteSample(paragraphs)))
  }

  /** The separators add no visible character: the sample text carries
      exactly the sampled paragraphs' text. */
  lemma RouteTextKeepsSampleText(paragraphs: seq<Doc>)
    ensures NonWs(RouteText(paragraphs)) == NonWs(Concat(Contents(RouteSample(paragraphs))))
  {
    NonWsJoin("\n\n", Contents(RouteSample(paragraphs)));
  }

  /** The first-routing prompt: the classification prompt body, an empty
      line, and the sample. */
  function FirstRoutePrompt(promptBody: string, paragraphs: seq<Doc>): (r: string)
    ensures |r| == |promptBody| + 2 + |RouteText(paragraphs)|
    ensures r[..|promptBody|] == promptBody
    ensures r[|promptBody|..|promptBody| + 2] == "\n\n"
    ensures r[|promptBody| + 2..] == RouteText(paragraphs)
  {
    promptBody + "\n\n" + RouteText(paragraphs)
  }

  // ---------------------------------------------------------------------
  // The entity
  // ---------------------------------------------------------------------

  /** The dataclass fields, all of them required by the generated
      `__init__`. */
  const InfoFields: set<string> := {"content", "metadata", "documents", "child_documents"}

  /** The dataclass-generated `__init__` called with the keyword arguments
      `given`: it raises `TypeError` when an argument names no field, and
      otherwise when a field is missing. Like CPython, it reports an
      unexpected keyword before a missing argument. */
  function DataclassInit(given: set<string>): (r: Option<Error>)
    ensures r.None? <==> given == InfoFields
    ensures r.Some? ==> r.value.TypeError?
    ensures !(given <= InfoFields) ==> r == Some(TypeError("unexpected keyword argument"))
    ensures given < InfoFields ==> r == Some(TypeError("missing required field"))
  {
    if !(given <= InfoFields) then Some(TypeError("unexpected keyword argument"))
    else if given != InfoFields then Some(TypeError("missing required field"))
    else None
  }

  /** The keyword arguments `from_doc_info` passes to `cls(...)`. */
  const FromDocInfoArguments: set<string> := {"content", "metadata", "documents"}

  /** As written, `from_doc_info` leaves out `child_documents`, so every call
      raises `TypeError`, whatever its arguments. */
  lemma FromDocInfoAsWritten()
    ensures DataclassInit(FromDocInfoArguments) == Some(TypeError("missing required field"))
  {
    assert "child_documents" !in FromDocInfoArguments;
  }

  class DocumentInfo {
    var content: string
    var metadata: map<string, Value>
    var documents: seq<Doc>
    var childDocuments: seq<Doc>

    /** The dataclass constructor, every field given. */
    constructor (content: string, metadata: map<string, Value>, documents: seq<Doc>, childDocuments: seq<Doc>)
      ensures this.content == content && this.metadata == metadata
      ensures this.documents == documents && this.childDocuments == childDocuments
    {
      this.content := content;
      this.metadata := metadata;
      this.documents := documents;
      this.childDocuments := childDocuments;
    }

    /** `from_doc_info` as evidently intended: the three given fields and no
        child documents yet. */
    constructor FromDocInfo(content: string, metadata: map<string, Value>, documents: seq<Doc>)
      ensures this.content == content && this.metadata == metadata
      ensures this.documents == documents && this.childDocuments == []
    {
      this.content := content;
      this.metadata := metadata;
      this.documents := documents;
      this.childDocuments := [];
    }

    /** `get_route_doc`. */
    function GetRouteDoc(): (r: string)
      reads this
      ensures NonWs(r) == NonWs(Concat(Contents(RouteSample(documents))))
    {
      RouteTextKeepsSampleText(documents);
      RouteText(documents)
    }

    /** `get_first_route_llm`; the prompt body comes from the prompt
        registry's five-type classification prompt. */
    function GetFirstRouteLlm(promptBody: string): (r: string)
      reads this
      ensures |r| == |promptBody| + 2 + |GetRouteDoc()|
      ensures r[..|promptBody|] == promptBody
      ensures r[|promptBody|..|promptBody| + 2] == "\n\n"
      ensures r[|promptBody| + 2..] == GetRouteDoc()
    {
      FirstRoutePrompt(promptBody, documents)
    }

    /** `set_child_document`: only the child documents change. */
    method SetChildDocument(children: seq<Doc>)
      modifies this
      ensures childDocuments == children
      ensures content == old(content) && metadata == old(metadata) && documents == old(documents)
    {
      childDocuments := children;
    }
  }
}

=== FILE: EnsembleRetriever.dfy ===
/** `EnsembleRetrieverService._get_relevant_documents`
    (app/application/service/ensemble_retriever_service.py): reciprocal-rank
    fusion of several retrievers' result lists. Each retriever's list is a
    parameter here; scores are reals, with no floating-point rounding. */
module EnsembleRetriever {
  import opened Docs
  import Wrappers

  /** The deduplication key: `metadata["chunk_id"]` when present (whatever
      its value), otherwise the page content. */
  function Key(d: Doc): (k: Value)
    ensures "chunk_id" in d.metadata ==> k == d.metadata["chunk_id"]
    ensures "chunk_id" !in d.metadata ==> k == Str(d.content)
  {
    if "chunk_id" in d.metadata then d.metadata["chunk_id"] else Str(d.content)
  }

  /** One document seen at some rank of some retriever, with the score it
      contributes: the retriever's weight times `1 / (rank + 1)`. */
  datatype Occurrence = Occurrence(doc: Doc, gain: real)

  /** A `scored` entry: the stored document and its running score. */
  datatype Scored = Scored(doc: Doc, score: real)

  /** The `scored` dictionary: its keys in insertion order, and the entries. */
  datatype Fusion = Fusion(keys: seq<Value>, scored: map<Value, Scored>)

  predicate Distinct(s: seq<Value>) {
    forall i, j :: 0 <= i < j < |s| ==> s[i] != s[j]
  }

  /** The dictionary's insertion order lists each stored key exactly once. */
  predicate WellFormed(f: Fusion) {
    && (forall k :: k in f.keys ==> k in f.scored)
    && (forall k :: k in f.scored ==> k in f.keys)
    && Distinct(f.keys)
  }

  /** The score a document at `rank` receives from a retriever of `weight`. */
  function Gain(weight: real, rank: nat): real {
    weight * (1.0 / ((rank + 1) as real))
  }

  /** The gains of one retriever's list. */
  function Gains(docs: seq<Doc>, weight: real): (r: seq<Occurrence>)
    ensures |r| == |docs|
    ensures forall rank :: 0 <= rank < |docs| ==> r[rank] == Occurrence(docs[rank], Gain(weight, rank))
  {
    seq(|docs|, rank requires 0 <= rank < |docs| => Occurrence(docs[rank], Gain(weight, rank)))
  }

  /** Every occurrence of the first `n` retriever/weight pairs, retriever by
      retriever and rank by rank. */
  function Occurrences(results: seq<seq<Doc>>, weights: seq<real>, n: nat): seq<Occurrence>
    requires n <= |results| && n <= |weights|
  {
    if n == 0 then [] else Occurrences(results, weights, n - 1) + Gains(results[n - 1], weights[n - 1])
  }

  /** `zip` stops at the shorter of the two lists. */
  function Paired(results: seq<seq<Doc>>, weights: seq<real>): (n: nat)
    ensures n <= |results| && n <= |weights|
    ensures n == |results| || n == |weights|
  {
    if |results| < |weights| then |results| else |weights|
  }

  /** `if key not in scored`: a new key gets the document and a zero score. */
  function Register(f: Fusion, key: Value, doc: Doc): (g: Fusion)
    ensures key in g.scored
  {
    if key in f.scored then f else Fusion(f.keys + [key], f.scored[key := Scored(doc, 0.0)])
  }

  /** `scored[key]["score"] += gain`. */
  function AddGain(f: Fusion, key: Value, gain: real): Fusion
    requires key in f.scored
  {
    Fusion(f.keys, f.scored[key := Scored(f.scored[key].doc, f.scored[key].score + gain)])
  }

  /** One iteration of the inner loop. */
  function Apply(f: Fusion, o: Occurrence): Fusion {
    AddGain(Register(f, Key(o.doc), o.doc), Key(o.doc), o.gain)
  }

  /** What one step does to the entry of each key. */
  lemma ApplyEntry(f: Fusion, o: Occurrence, k: Value)
    ensures var g := Apply(f, o);
      && (k in g.scored <==> k in f.scored || k == Key(o.doc))
      && (k != Key(o.doc) && k in f.scored ==> g.scored[k] == f.scored[k])
      && (k == Key(o.doc) && k in f.scored ==> g.scored[k] == Scored(f.scored[k].doc, f.scored[k].score + o.gain))
      && (k == Key(o.doc) && k !in f.scored ==> g.scored[k] == Scored(o.doc, 0.0 + o.gain))
      && (k in f.scored ==> g.scored[k].doc == f.scored[k].doc)
      && g.keys == (if Key(o.doc) in f.scored then f.keys else f.keys + [Key(o.doc)])
  {
  }

  lemma ApplyWellFormed(f: Fusion, o: Occurrence)
    requires WellFormed(f)
    ensures WellFormed(Apply(f, o))
    ensures Key(o.doc) in Apply(f, o).scored
    ensures f.scored.Keys <= Apply(f, o).scored.Keys
  {
    var key := Key(o.doc);
    var g := Apply(f, o);
    if key !in f.scored {
      assert forall i :: 0 <= i < |f.keys| ==> f.keys[i] != key;
      assert g.scored.Keys == f.scored.Keys + {key};
    } else {
      assert g.scored.Keys == f.scored.Keys;
    }
  }

  /** The dictionary after processing `occs` in order from an empty one. */
  function Accumulate(occs: seq<Occurrence>): Fusion {
    if occs == [] then Fusion([], map[]) else Apply(Accumulate(occs[..|occs| - 1]), occs[|occs| - 1])
  }

  /** Every stored key is listed once in the insertion order, and only
      stored keys are listed. */
  lemma {:induction false} AccumulateWellFormed(occs: seq<Occurrence>)
    ensures WellFormed(Accumulate(occs))
  {
    if occs != [] {
      AccumulateWellFormed(occs[..|occs| - 1]);
      ApplyWellFormed(Accumulate(occs[..|occs| - 1]), occs[|occs| - 1]);
    }
  }

  /** One entry per key: as many entries as keys in insertion order. */
  lemma {:induction false} EntryCount(occs: seq<Occurrence>)
    ensures |Accumulate(occs).keys| == |Accumulate(occs).scored|
  {
    if occs != [] {
      var init, o := occs[..|occs| - 1], occs[|occs| - 1];
      EntryCount(init);
      var f := Accumulate(init);
      var r := Register(f, Key(o.doc), o.doc);
      assert |r.keys| == |r.scored|;
    }
  }

  lemma AccumulateSnoc(occs: seq<Occurrence>, o: Occurrence)
    ensures Accumulate(occs + [o]) == Apply(Accumulate(occs), o)
  {
    assert (occs + [o])[..|occs|] == occs;
  }

  /** The entries `scored.values()` yields, in insertion order. */
  function Entries(f: Fusion): (r: seq<Scored>)
    requires WellFormed(f)
    ensures |r| == |f.keys|
    ensures forall i :: 0 <= i < |f.keys| ==> r[i] == f.scored[f.keys[i]]
  {
    seq(|f.keys|, i requires 0 <= i < |f.keys| => f.scored[f.keys[i]])
  }

  // ---------------------------------------------------------------------
  // sorted(…, key=score, reverse=True): a stable descending sort
  // ---------------------------------------------------------------------

  predicate SortedDesc(s: seq<Scored>) {
    forall i, j :: 0 <= i < j < |s| ==> s[i].score >= s[j].score
  }

  /** Places `x` after every element whose score is at least its own. */
  function Insert(s: seq<Scored>, x: Scored): (r: seq<Scored>)
    ensures |r| == |s| + 1
  {
    if s == [] then [x]
    else if s[0].score >= x.score then [s[0]] + Insert(s[1..], x)
    else [x] + s
  }

  /** Insertion of each entry in turn into the sorted prefix. */
  function SortDesc(s: seq<Scored>): (r: seq<Scored>)
    ensures |r| == |s|
  {
    if s == [] then [] else Insert(SortDesc(s[..|s| - 1]), s[|s| - 1])
  }

  /** The entries of `s` with score `v`, in order. */
  function WithScore(s: seq<Scored>, v: real): (r: seq<Scored>)
    ensures forall i :: 0 <= i < |r| ==> r[i].score == v
  {
    if s == [] then []
    else (if s[0].score == v then [s[0]] else []) + WithScore(s[1..], v)
  }

  lemma {:induction false} WithScoreAppend(a: seq<Scored>, b: seq<Scored>, v: real)
    ensures WithScore(a + b, v) == WithScore(a, v) + WithScore(b, v)
  {
    if a == [] {
      assert a + b == b;
    } else {
      assert (a + b)[1..] == a[1..] + b;
      WithScoreAppend(a[1..], b, v);
    }
  }

  /** Every entry of `Insert(s, x)` scores at most a bound of `s` and `x`. */
  lemma {:induction false} InsertBound(s: seq<Scored>, x: Scored, b: real)
    requires forall i :: 0 <= i < |s| ==> s[i].score <= b
    requires x.score <= b
    ensures forall i :: 0 <= i < |Insert(s, x)| ==> Insert(s, x)[i].score <= b
  {
    if s != [] && s[0].score >= x.score {
      InsertBound(s[1..], x, b);
    }
  }

  lemma {:induction false} InsertSorted(s: seq<Scored>, x: Scored)
    requires SortedDesc(s)
    ensures SortedDesc(Insert(s, x))
  {
    if s != [] && s[0].score >= x.score {
      var tail := Insert(s[1..], x);
      InsertSorted(s[1..], x);
      InsertBound(s[1..], x, s[0].score);
      assert Insert(s, x) == [s[0]] + tail;
    }
  }

  lemma {:induction false} InsertPermutes(s: seq<Scored>, x: Scored)
    ensures multiset(Insert(s, x)) == multiset(s) + multiset{x}
  {
    if s != [] && s[0].score >= x.score {
      InsertPermutes(s[1..], x);
      assert s == [s[0]] + s[1..];
    }
  }

  /** Among entries of one score, the inserted one comes last. */
  lemma {:induction false} InsertStable(s: seq<Scored>, x: Scored, v: real)
    requires SortedDesc(s)
    ensures WithScore(Insert(s, x), v) == WithScore(s, v) + (if x.score == v then [x] else [])
  {
    if s == [] {
    } else if s[0].score >= x.score {
      InsertStable(s[1..], x, v);
      assert Insert(s, x)[1..] == Insert(s[1..], x);
    } else {
      assert Insert(s, x)[1..] == s;
      if x.score == v {
        NoneWithScore(s, v);
      }
    }
  }

  /** A sorted sequence whose head scores below `v` has no entry of score `v`. */
  lemma {:induction false} NoneWithScore(s: seq<Scored>, v: real)
    requires SortedDesc(s) && s != [] && s[0].score < v
    ensures WithScore(s, v) == []
  {
    if |s| > 1 {
      assert s[1].score <= s[0].score;
      NoneWithScore(s[1..], v);
    }
  }

  /** The sort orders by non-increasing score, permutes its input and keeps
      the input order among entries of equal score. */
  lemma {:induction false} SortDescCorrect(s: seq<Scored>)
    ensures SortedDesc(SortDesc(s))
    ensures multiset(SortDesc(s)) == multiset(s)
    ensures forall v :: WithScore(SortDesc(s), v) == WithScore(s, v)
  {
    if s != [] {
      var init, x := s[..|s| - 1], s[|s| - 1];
      SortDescCorrect(init);
      InsertSorted(SortDesc(init), x);
      InsertPermutes(SortDesc(init), x);
      assert s == init + [x];
      forall v ensures WithScore(SortDesc(s), v) == WithScore(s, v) {
        InsertStable(SortDesc(init), x, v);
        WithScoreAppend(init, [x], v);
      }
    }
  }

  // ---------------------------------------------------------------------
  // The retrieval
  // ---------------------------------------------------------------------

  /** What `_get_relevant_documents` returns for the given result lists. */
  function Ranked(results: seq<seq<Doc>>, weights: seq<real>): seq<Doc> {
    var occs := Occurrences(results, weights, Paired(results, weights));
    AccumulateWellFormed(occs);
    var ranked := SortDesc(Entries(Accumulate(occs)));
    seq(|ranked|, i requires 0 <= i < |ranked| => ranked[i].doc)
  }

  /** The body of the inner loop: registers the document's key if it is new,
      then adds the gain to the key's score. */
  method Score(keys0: seq<Value>, scored0: map<Value, Scored>, doc: Doc, gain: real)
    returns (keys: seq<Value>, scored: map<Value, Scored>)
    ensures Fusion(keys, scored) == Apply(Fusion(keys0, scored0), Occurrence(doc, gain))
  {
    keys, scored := keys0, scored0;
    var key := Key(doc);
    if key !in scored {
      keys := keys + [key];
      scored := scored[key := Scored(doc, 0.0)];
    }
    assert Fusion(keys, scored) == Register(Fusion(keys0, scored0), key, doc);
    scored := scored[key := Scored(scored[key].doc, scored[key].score + gain)];
  }

  /** The inner loop of `_get_relevant_documents`: scores one retriever's
      list into `scored`, whose insertion order is `keys`. */
  method ScoreRetriever(keys0: seq<Value>, scored0: map<Value, Scored>, retrieved: seq<Doc>, weight: real, ghost seen: seq<Occurrence>)
    returns (keys: seq<Value>, scored: map<Value, Scored>)
    requires Fusion(keys0, scored0) == Accumulate(seen)
    ensures Fusion(keys, scored) == Accumulate(seen + Gains(retrieved, weight))
  {
    keys, scored := keys0, scored0;
    ghost var gains := Gains(retrieved, weight);
    ghost var done := seen;
    for rank := 0 to |retrieved|
      invariant |done| == |seen| + rank
      invariant forall j :: 0 <= j < |seen| ==> done[j] == seen[j]
      invariant forall j :: 0 <= j < rank ==> done[|seen| + j] == gains[j]
      invariant Fusion(keys, scored) == Accumulate(done)
    {
      ghost var o := Occurrence(retrieved[rank], Gain(weight, rank));
      AccumulateSnoc(done, o);
      keys, scored := Score(keys, scored, retrieved[rank], weight * (1.0 / ((rank + 1) as real)));
      done := done + [o];
    }
    assert done == seen + gains;
  }

  /** `_get_relevant_documents` as written: each retriever is called with
      `query`, a name neither the method nor its module defines, so the first
      retriever/weight pair raises `NameError`. With no pair, the loop body
      never runs and the result is the empty list. */
  function RelevantDocumentsAsWritten(results: seq<seq<Doc>>, weights: seq<real>): Wrappers.Result<seq<Doc>> {
    if Paired(results, weights) == 0 then Wrappers.Ok([]) else Wrappers.Err(Wrappers.NameError("query"))
  }

  /** As written, the method raises exactly when some retriever is paired
      with a weight; where it does not raise, it agrees with the ranking. */
  lemma RelevantDocumentsAsWrittenFails(results: seq<seq<Doc>>, weights: seq<real>)
    ensures var r := RelevantDocumentsAsWritten(results, weights);
      && (r.Err? <==> |results| > 0 && |weights| > 0)
      && (r.Err? ==> r.error == Wrappers.NameError("query"))
      && (r.Ok? ==> r.value == Ranked(results, weights))
  {
  }

  /** `_get_relevant_documents`: `results[i]` is what the i-th retriever
      returns for the query. */
  method GetRelevantDocuments(results: seq<seq<Doc>>, weights: seq<real>) returns (docs: seq<Doc>)
    ensures docs == Ranked(results, weights)
  {
    var keys: seq<Value> := [];
    var scored: map<Value, Scored> := map[];
    var n := Paired(results, weights);
    for r := 0 to n
      invariant Fusion(keys, scored) == Accumulate(Occurrences(results, weights, r))
    {
      keys, scored := ScoreRetriever(keys, scored, results[r], weights[r], Occurrences(results, weights, r));
    }
    AccumulateWellFormed(Occurrences(results, weights, n));
    var ranked := SortDesc(Entries(Fusion(keys, scored)));
    docs := seq(|ranked|, i requires 0 <= i < |ranked| => ranked[i].doc);
  }

  // ---------------------------------------------------------------------
  // Properties of the fusion
  // ---------------------------------------------------------------------

  /** Position `i` is the first occurrence of key `k`. */
  ghost predicate FirstAt(occs: seq<Occurrence>, k: Value, i: nat) {
    && i < |occs|
    && Key(occs[i].doc) == k
    && forall j :: 0 <= j < i ==> Key(occs[j].doc) != k
  }

  /** The keys of all occurrences. */
  ghost function OccurrenceKeys(occs: seq<Occurrence>): set<Value> {
    if occs == [] then {} else OccurrenceKeys(occs[..|occs| - 1]) + {Key(occs[|occs| - 1].doc)}
  }

  /** `OccurrenceKeys` holds the key of every occurrence and nothing else. */
  lemma {:induction false} OccurrenceKeysExact(occs: seq<Occurrence>, k: Value)
    ensures k in OccurrenceKeys(occs) <==> exists i :: 0 <= i < |occs| && Key(occs[i].doc) == k
  {
    if occs != [] {
      var init := occs[..|occs| - 1];
      OccurrenceKeysExact(init, k);
      if k in OccurrenceKeys(init) {
        var i :| 0 <= i < |init| && Key(init[i].doc) == k;
        assert occs[i] == init[i];
      }
      if i :| 0 <= i < |occs| && Key(occs[i].doc) == k {
        if i < |init| {
          assert occs[i] == init[i];
        }
      }
    }
  }

  /** The stored keys are exactly the keys that occur. */
  lemma {:induction false} KeysOccur(occs: seq<Occurrence>)
    ensures Accumulate(occs).scored.Keys == OccurrenceKeys(occs)
  {
    if occs != [] {
      var init, o := occs[..|occs| - 1], occs[|occs| - 1];
      KeysOccur(init);
      var f, g := Accumulate(init), Accumulate(occs);
      forall k ensures k in g.scored <==> k in f.scored || k == Key(o.doc) {
        ApplyEntry(f, o, k);
      }
    }
  }

  lemma FirstAtExtends(occs: seq<Occurrence>, k: Value, i: nat)
    requires occs != [] && FirstAt(occs[..|occs| - 1], k, i)
    ensures FirstAt(occs, k, i)
  {
    assert forall j :: 0 <= j <= i ==> occs[j] == occs[..|occs| - 1][j];
  }

  /** The keys are stored in order of first appearance, each with the
      document of its first occurrence. */
  lemma {:induction false} FirstSeen(occs: seq<Occurrence>) returns (firsts: seq<nat>)
    ensures var f := Accumulate(occs);
      && |firsts| == |f.keys|
      && (forall p, q :: 0 <= p < q < |firsts| ==> firsts[p] < firsts[q])
      && (forall p :: 0 <= p < |firsts| ==> FirstAt(occs, f.keys[p], firsts[p]))
      && (forall p :: 0 <= p < |firsts| ==> f.keys[p] in f.scored && f.scored[f.keys[p]].doc == occs[firsts[p]].doc)
  {
    if occs == [] {
      firsts := [];
    } else {
      var init, o := occs[..|occs| - 1], occs[|occs| - 1];
      var prior := FirstSeen(init);
      var prev, f := Accumulate(init), Accumulate(occs);
      var key := Key(o.doc);
      ApplyEntry(prev, o, key);
      forall p | 0 <= p < |prior|
        ensures FirstAt(occs, prev.keys[p], prior[p])
        ensures prior[p] < |init|
        ensures f.scored[prev.keys[p]].doc == occs[prior[p]].doc
      {
        FirstAtExtends(occs, prev.keys[p], prior[p]);
        ApplyEntry(prev, o, prev.keys[p]);
      }
      if key in prev.scored {
        firsts := prior;
      } else {
        firsts := prior + [|init|];
        KeysOccur(init);
        OccurrenceKeysExact(init, key);
        forall j | 0 <= j < |init| ensures Key(occs[j].doc) != key {
          assert occs[j] == init[j];
        }
      }
    }
  }

  /** The total gain of the occurrences of key `k`. */
  function SumFor(occs: seq<Occurrence>, k: Value): real {
    if occs == [] then 0.0
    else SumFor(occs[..|occs| - 1], k) + (if Key(occs[|occs| - 1].doc) == k then occs[|occs| - 1].gain else 0.0)
  }

  /** A key's score is the sum of `weight / (rank + 1)` over all of its
      occurrences. */
  lemma {:induction false} ScoreIsSum(occs: seq<Occurrence>, k: Value)
    requires k in Accumulate(occs).scored
    ensures Accumulate(occs).scored[k].score == SumFor(occs, k)
  {
    var init, o := occs[..|occs| - 1], occs[|occs| - 1];
    ApplyEntry(Accumulate(init), o, k);
    if k in Accumulate(init).scored {
      ScoreIsSum(init, k);
    } else {
      NoOccurrenceSumsToZero(init, k);
    }
  }

  lemma {:induction false} NoOccurrenceSumsToZero(occs: seq<Occurrence>, k: Value)
    requires k !in Accumulate(occs).scored
    ensures SumFor(occs, k) == 0.0
  {
    if occs != [] {
      var init, o := occs[..|occs| - 1], occs[|occs| - 1];
      ApplyEntry(Accumulate(init), o, k);
      NoOccurrenceSumsToZero(init, k);
    }
  }

  /** Only the first `min(|results|, |weights|)` pairs take part. */
  lemma {:induction false} ZipTruncates(results: seq<seq<Doc>>, weights: seq<real>, n: nat)
    requires n <= Paired(results, weights)
    ensures Occurrences(results, weights, n) == Occurrences(results[..Paired(results, weights)], weights[..Paired(results, weights)], n)
  {
    if n > 0 {
      ZipTruncates(results, weights, n - 1);
    }
  }

  /** The output: the stored documents ordered by non-increasing score, a
      permutation of the dictionary's entries that keeps first-seen order
      among equal scores, one per distinct key, and unaffected by the
      unpaired tail of the longer list. */
  lemma RankedSpec(results: seq<seq<Doc>>, weights: seq<real>)
    ensures var occs := Occurrences(results, weights, Paired(results, weights));
      var f := Accumulate(occs);
      && WellFormed(f)
      && var ranked := SortDesc(Entries(f));
      && Ranked(results, weights) == seq(|ranked|, i requires 0 <= i < |ranked| => ranked[i].doc)
      && SortedDesc(ranked)
      && multiset(ranked) == multiset(Entries(f))
      && (forall v :: WithScore(ranked, v) == WithScore(Entries(f), v))
      && |Ranked(results, weights)| == |OccurrenceKeys(occs)|
    ensures var p := Paired(results, weights);
      Ranked(results, weights) == Ranked(results[..p], weights[..p])
  {
    var p := Paired(results, weights);
    var occs := Occurrences(results, weights, p);
    var f := Accumulate(occs);
    AccumulateWellFormed(occs);
    SortDescCorrect(Entries(f));
    KeysOccur(occs);
    EntryCount(occs);
    assert |f.scored.Keys| == |f.scored|;
    ZipTruncates(results, weights, p);
    assert Paired(results[..p], weights[..p]) == p;
  }
}

=== FILE: FormDetector.dfy ===
/** `FormDetector` (app/service/chunk/rule/form_detector.py): a rule score
    that says how much a text looks like a blank form, and the three-way
    decision taken on it. Both methods are written without `self` in the
    source; they are modelled as standalone functions of the text. */
module FormDetector {
  import opened Strings
  import Wrappers

  // ---------------------------------------------------------------------
  // The patterns
  // ---------------------------------------------------------------------

  /** Length of the run of `c` at the start of `s`. */
  function RunOf(s: string, c: char): (n: nat)
    ensures n <= |s|
    ensures forall i :: 0 <= i < n ==> s[i] == c
    ensures n < |s| ==> s[n] != c
  {
    if s != [] && s[0] == c then 1 + RunOf(s[1..], c) else 0
  }

  /** `\|\s*-{2,}\s*\|` matches at `i`. No backtracking is needed: a dash is
      not whitespace and neither is a bar, so every greedy run is the only
      one that can succeed. */
  predicate TableSeparatorAt(t: string, i: nat) {
    && i < |t| && t[i] == '|'
    && var j := i + 1 + SpaceRun(t[i + 1..]);
       var d := RunOf(t[j..], '-');
       var k := j + d + SpaceRun(t[j + d..]);
       d >= 2 && k < |t| && t[k] == '|'
  }

  /** `\(\s*\)` matches at `i`. */
  predicate BlankParensAt(t: string, i: nat) {
    && i < |t| && t[i] == '('
    && var k := i + 1 + SpaceRun(t[i + 1..]);
       k < |t| && t[k] == ')'
  }

  /** `re.search(r"\|\s*-{2,}\s*\|", text)` finds a match. */
  predicate HasTableSeparator(t: string) {
    exists i :: 0 <= i < |t| && TableSeparatorAt(t, i)
  }

  lemma SeparatorHoldsBar(t: string, i: nat)
    requires TableSeparatorAt(t, i)
    ensures Contains(t, "|")
  {
    assert t[i..i + 1] == [t[i]];
    ContainsAt(t, "|", i);
  }

  /** The `"|" in text` test before the search never changes the outcome:
      a separator match holds a bar. */
  lemma TableSeparatorHasBar(t: string)
    ensures HasTableSeparator(t) ==> Contains(t, "|")
  {
    forall i | 0 <= i < |t| && TableSeparatorAt(t, i)
      ensures Contains(t, "|")
    {
      SeparatorHoldsBar(t, i);
    }
  }

  /** `any(x in text for x in words)`. */
  predicate AnyIn(t: string, words: seq<string>) {
    exists k :: 0 <= k < |words| && Contains(t, words[k])
  }

  // ---------------------------------------------------------------------
  // re.split(r"[.!?]\s*", text)
  // ---------------------------------------------------------------------

  predicate IsStop(c: char) {
    c == '.' || c == '!' || c == '?'
  }

  /** Index of the first sentence stop in `s`, or `|s|`. */
  function StopIndex(s: string): (i: nat)
    ensures i <= |s|
    ensures i < |s| ==> IsStop(s[i])
    ensures forall j :: 0 <= j < i ==> !IsStop(s[j])
  {
    if s == [] then 0 else if IsStop(s[0]) then 0 else 1 + StopIndex(s[1..])
  }

  /** The pieces between the matches of `[.!?]\s*`: each match is a stop
      and the whitespace after it. */
  function SentenceSplit(s: string): (parts: seq<string>)
    ensures |parts| >= 1
    decreases |s|
  {
    var i := StopIndex(s);
    if i == |s| then [s]
    else
      var j := i + 1 + SpaceRun(s[i + 1..]);
      [s[..i]] + SentenceSplit(s[j..])
  }

  /** Number of sentence stops in `s`. */
  function Stops(s: string): nat {
    if s == [] then 0 else (if IsStop(s[0]) then 1 else 0) + Stops(s[1..])
  }

  /** Stops add up across a cut at `k`. */
  lemma {:induction false} StopsSplit(s: string, k: nat)
    requires k <= |s|
    ensures Stops(s) == Stops(s[..k]) + Stops(s[k..])
  {
    if k > 0 {
      assert s[1..][..k - 1] == s[..k][1..];
      assert s[1..][k - 1..] == s[k..];
      StopsSplit(s[1..], k - 1);
    }
  }

  /** A prefix free of stops holds none. */
  lemma {:induction false} NoStops(s: string, k: nat)
    requires k <= |s|
    requires forall j :: 0 <= j < k ==> !IsStop(s[j])
    ensures Stops(s[..k]) == 0
  {
    if k > 0 {
      assert s[..k][1..] == s[1..][..k - 1];
      NoStops(s[1..], k - 1);
    }
  }

  /** The stops the text holds: one in each match, none in the first piece. */
  lemma SentenceMatchStops(s: string, i: nat, j: nat)
    requires i < |s| && i == StopIndex(s) && j == i + 1 + SpaceRun(s[i + 1..])
    ensures Stops(s) == 1 + Stops(s[j..])
  {
    var rest := s[i + 1..];
    StopsSplit(s, i);
    NoStops(s, i);
    assert s[i..][1..] == rest;
    StopsAfterSpaces(rest, SpaceRun(rest));
    assert rest[SpaceRun(rest)..] == s[j..];
  }

  /** A leading run of whitespace holds no stop. */
  lemma StopsAfterSpaces(s: string, n: nat)
    requires n == SpaceRun(s)
    ensures Stops(s) == Stops(s[n..])
  {
    StopsSplit(s, n);
    forall k | 0 <= k < n ensures !IsStop(s[k]) {
      assert IsSpace(s[k]);
    }
    NoStops(s, n);
  }

  /** Every stop ends exactly one piece: the split has one piece more than
      the text has stops. */
  lemma {:induction false} SentenceSplitCount(s: string)
    ensures |SentenceSplit(s)| == Stops(s) + 1
    decreases |s|
  {
    var i := StopIndex(s);
    if i == |s| {
      NoStops(s, |s|);
      assert s[..|s|] == s;
    } else {
      var j := i + 1 + SpaceRun(s[i + 1..]);
      SentenceSplitCount(s[j..]);
      SentenceMatchStops(s, i, j);
    }
  }

  /** No piece of the split holds a stop. */
  lemma {:induction false} SentenceSplitHasNoStops(s: string)
    ensures NoStopIn(SentenceSplit(s))
    decreases |s|
  {
    var i := StopIndex(s);
    if i < |s| {
      var j := i + 1 + SpaceRun(s[i + 1..]);
      SentenceSplitHasNoStops(s[j..]);
      var parts := SentenceSplit(s);
      assert parts == [s[..i]] + SentenceSplit(s[j..]);
      forall k, m | 0 <= k < |parts| && 0 <= m < |parts[k]|
        ensures !IsStop(parts[k][m])
      {
        if k > 0 {
          assert parts[k] == SentenceSplit(s[j..])[k - 1];
        }
      }
    }
  }

  ghost predicate NoStopIn(parts: seq<string>) {
    forall k, m :: 0 <= k < |parts| && 0 <= m < |parts[k]| ==> !IsStop(parts[k][m])
  }

  /** How many pieces have more than five characters once stripped. */
  function MeaningfulCount(parts: seq<string>): (n: nat)
    ensures n <= |parts|
  {
    if parts == [] then 0
    else (if |Strip(parts[0])| > 5 then 1 else 0) + MeaningfulCount(parts[1..])
  }

  // ---------------------------------------------------------------------
  // rule_based_form_score
  // ---------------------------------------------------------------------

  /** The six rules, in the order the score adds them. */
  datatype Rule = FormTitle | MarkdownTable | BlankField | SealMark | FillInstruction | FewSentences

  /** Points a rule adds when it fires. */
  function Points(r: Rule): nat {
    match r
    case FormTitle => 2
    case MarkdownTable => 2
    case BlankField => 2
    case SealMark => 2
    case FillInstruction => 1
    case FewSentences => 1
  }

  /** A form title: "서식" (form) or "별지" (annex) in the lower-cased text. */
  predicate HasFormTitle(lower: string) {
    Contains(lower, "서식") || Contains(lower, "별지")
  }

  /** A markdown table separator row, after the cheap `"|" in text` test. */
  predicate HasMarkdownTable(text: string) {
    Contains(text, "|") && HasTableSeparator(text)
  }

  /** An empty pair of parentheses or the blank date "년  월  일". */
  predicate HasBlankField(text: string) {
    (exists i :: 0 <= i < |text| && BlankParensAt(text, i)) || Contains(text, "년  월  일")
  }

  /** A seal, "to whom it may concern" or approval mark. */
  predicate HasSealMark(lower: string) {
    AnyIn(lower, ["직인", "귀중", "결재"])
  }

  /** An instruction to fill in, to fill the table or to write. */
  predicate HasFillInstruction(lower: string) {
    AnyIn(lower, ["기입", "표를", "작성"])
  }

  /** Fewer than three pieces of the sentence split are longer than five
      characters once stripped. */
  predicate HasFewSentences(text: string) {
    MeaningfulCount(SentenceSplit(text)) < 3
  }

  /** Whether a rule fires on `text`. Lower-casing is Python's `lower` on
      ASCII letters; the Korean keywords have no case. */
  predicate Fires(r: Rule, text: string) {
    match r
    case FormTitle => HasFormTitle(Lower(text))
    case MarkdownTable => HasMarkdownTable(text)
    case BlankField => HasBlankField(text)
    case SealMark => HasSealMark(Lower(text))
    case FillInstruction => HasFillInstruction(Lower(text))
    case FewSentences => HasFewSentences(text)
  }

  /** Points `r` adds to the score of `text`. */
  function Award(r: Rule, text: string): nat {
    if Fires(r, text) then Points(r) else 0
  }

  /** The score: the points of every rule that fires, each rule once. */
  function FormScore(text: string): nat {
    Award(FormTitle, text) + Award(MarkdownTable, text) + Award(BlankField, text)
    + Award(SealMark, text) + Award(FillInstruction, text) + Award(FewSentences, text)
  }

  /** The score lies in [0, 10]; it is 10 exactly when every rule fires and
      0 exactly when none does. */
  lemma FormScoreBounds(text: string)
    ensures 0 <= FormScore(text) <= 10
    ensures FormScore(text) == 10 <==> forall r: Rule :: Fires(r, text)
    ensures FormScore(text) == 0 <==> forall r: Rule :: !Fires(r, text)
  {
    if FormScore(text) == 10 {
      forall r: Rule ensures Fires(r, text) {
        assert Award(r, text) == Points(r);
      }
    }
    if FormScore(text) == 0 {
      forall r: Rule ensures !Fires(r, text) {
        assert Award(r, text) == 0;
      }
    }
  }

  /** `rule_based_form_score`: the score built by successive `+=` steps. */
  method RuleBasedFormScore(text: string) returns (score: nat)
    ensures score == FormScore(text)
  {
    var textLower := Lower(text);
    score := 0;
    if HasFormTitle(textLower) {
      score := score + 2;
    }
    assert score == Award(FormTitle, text);
    if HasMarkdownTable(text) {
      score := score + 2;
    }
    assert score == Award(FormTitle, text) + Award(MarkdownTable, text);
    if HasBlankField(text) {
      score := score + 2;
    }
    ghost var partial := Award(FormTitle, text) + Award(MarkdownTable, text) + Award(BlankField, text);
    assert score == partial;
    if HasSealMark(textLower) {
      score := score + 2;
    }
    assert score == partial + Award(SealMark, text);
    if HasFillInstruction(textLower) {
      score := score + 1;
    }
    assert score == partial + Award(SealMark, text) + Award(FillInstruction, text);
    if HasFewSentences(text) {
      score := score + 1;
    }
  }

  // ---------------------------------------------------------------------
  // rule_based_document_type
  // ---------------------------------------------------------------------

  datatype FormType = Form | Normal | Ambiguous

  /** The `{"type": ..., "reason": ...}` dictionary. */
  datatype RuleDecision = RuleDecision(kind: FormType, reason: string)

  const ScorePrefix := "Rule score="

  /** The remark after the score, by decision. */
  function Remark(kind: FormType): string {
    match kind
    case Form => " (high certainty)"
    case Normal => " (likely natural language)"
    case Ambiguous => " (needs LLM checking)"
  }

  /** The decision for a score. */
  function DecideType(score: nat): RuleDecision {
    var kind := if score >= 5 then Form else if score <= 1 then Normal else Ambiguous;
    RuleDecision(kind, ScorePrefix + NatToString(score) + Remark(kind))
  }

  /** `rule_based_document_type`, with the score taken from
      `rule_based_form_score`: a form from 5, normal text up to 1, and the
      score written into the reason. */
  function RuleBasedDocumentType(text: string): (r: RuleDecision)
    ensures r.kind == Form <==> FormScore(text) >= 5
    ensures r.kind == Normal <==> FormScore(text) <= 1
    ensures r.kind == Ambiguous <==> 2 <= FormScore(text) <= 4
    ensures r.reason == ScorePrefix + NatToString(FormScore(text)) + Remark(r.kind)
  {
    DecideType(FormScore(text))
  }

  /** `rule_based_document_type` as written: it calls `rule_based_form_score`
      unqualified, and the module has no function of that name (it is an
      attribute of the class), so every call raises `NameError`. */
  function RuleBasedDocumentTypeAsWritten(text: string): Wrappers.Result<RuleDecision> {
    Wrappers.Err(Wrappers.NameError("rule_based_form_score"))
  }

  /** As written, the type decision never comes back: every text raises. */
  lemma RuleBasedDocumentTypeAsWrittenFails(text: string)
    ensures RuleBasedDocumentTypeAsWritten(text) == Wrappers.Err(Wrappers.NameError("rule_based_form_score"))
  {
  }

  /** At least 5 is a form, at most 1 is normal text, 2 to 4 is left to the
      language model. */
  lemma DecideTypeThresholds(score: nat)
    ensures DecideType(score).kind == Form <==> score >= 5
    ensures DecideType(score).kind == Normal <==> score <= 1
    ensures DecideType(score).kind == Ambiguous <==> 2 <= score <= 4
  {
  }

  /** The reason carries the score: its digits follow `"Rule score="` and
      read back as the score. */
  lemma ReasonEmbedsScore(score: nat)
    ensures var r := DecideType(score).reason;
      var n := DigitRun(r[|ScorePrefix|..]);
      && |r| > |ScorePrefix| && r[..|ScorePrefix|] == ScorePrefix
      && n == |NatToString(score)|
      && DigitsValue(r[|ScorePrefix|..][..n]) == score
  {
    var d := DecideType(score);
    var digits := NatToString(score);
    var remark := Remark(d.kind);
    var tail := d.reason[|ScorePrefix|..];
    assert d.reason == ScorePrefix + (digits + remark);
    assert tail == digits + remark;
    assert remark[0] == ' ';
    DigitRunOfDigits(digits, remark);
    assert tail[..|digits|] == digits;
    NatToStringRoundTrip(score);
  }

  lemma DigitRunOfDigits(digits: string, rest: string)
    requires forall i :: 0 <= i < |digits| ==> IsDigit(digits[i])
    requires rest != [] && !IsDigit(rest[0])
    ensures DigitRun(digits + rest) == |digits|
  {
    var s := digits + rest;
    assert s[|digits|] == rest[0];
    assert forall i :: 0 <= i < |digits| ==> s[i] == digits[i];
  }
}

=== FILE: LlmRouting.dfy ===
/** The decision logic of `LLMRoutingService`
    (app/service/llm_routing_service.py): reading a category and a reason
    out of the model's free-text reply, the fallbacks when the reply names
    no category, the grading of the reply's confidence, the validation of
    the category, and the truncation of the document before it is sent.
    The model's reply is an input. */
module LlmRouting {
  import opened Wrappers
  import opened Strings

  /** `DocumentCategory`, in declaration order. */
  datatype Category = LoanFinance | ItSystem | SecurityAccess | Hr | AccountingLegal | General

  const AllCategories: seq<Category> := [LoanFinance, ItSystem, SecurityAccess, Hr, AccountingLegal, General]

  /** The enum value (a lowercase string). */
  function Value(c: Category): string {
    match c
    case LoanFinance => "loan_finance"
    case ItSystem => "it_system"
    case SecurityAccess => "security_access"
    case Hr => "hr"
    case AccountingLegal => "accounting_legal"
    case General => "general"
  }

  /** `DocumentCategory(s)`: the member with value `s`; `None` where Python
      raises `ValueError`. */
  function FromValue(s: string): Option<Category> {
    if s == "loan_finance" then Some(LoanFinance)
    else if s == "it_system" then Some(ItSystem)
    else if s == "security_access" then Some(SecurityAccess)
    else if s == "hr" then Some(Hr)
    else if s == "accounting_legal" then Some(AccountingLegal)
    else if s == "general" then Some(General)
    else None
  }

  /** `FromValue` inverts `Value`, and accepts nothing but enum values. */
  lemma FromValueInvertsValue(s: string, c: Category)
    ensures FromValue(Value(c)) == Some(c)
    ensures FromValue(s).Some? ==> Value(FromValue(s).value) == s
  {
  }

  /** The position of a category in declaration order. */
  function Position(c: Category): (k: nat)
    ensures k < |AllCategories| && AllCategories[k] == c
  {
    match c
    case LoanFinance => 0
    case ItSystem => 1
    case SecurityAccess => 2
    case Hr => 3
    case AccountingLegal => 4
    case General => 5
  }

  // ---------------------------------------------------------------------
  // Truncation inside route_document
  // ---------------------------------------------------------------------

  /** Python's `s[:n]`: a negative `n` counts from the end. */
  function SliceTo(s: string, n: int): string {
    if n >= 0 then (if n <= |s| then s[..n] else s)
    else (if |s| + n >= 0 then s[..|s| + n] else [])
  }

  /** `if len(content) > max_content_length: content = content[:max_content_length]`. */
  function Truncate(content: string, maxLength: int): string {
    if |content| > maxLength then SliceTo(content, maxLength) else content
  }

  /** With a non-negative limit, longer content is cut to exactly its first
      `maxLength` characters and shorter content is kept. */
  lemma TruncateKeepsPrefix(content: string, maxLength: nat)
    ensures var r := Truncate(content, maxLength);
      && |r| == (if |content| > maxLength then maxLength else |content|)
      && r == content[..|r|]
  {
  }

  // ---------------------------------------------------------------------
  // _parse_llm_response: the line loop
  // ---------------------------------------------------------------------

  /** `"카테고리:" in line or "category:" in line.lower().strip()`. */
  predicate IsCategoryLine(line: string) {
    Contains(line, "카테고리:") || Contains(Strip(Lower(line)), "category:")
  }

  /** `"이유:" in line or "reason:" in line.lower().strip()`. */
  predicate IsReasonLine(line: string) {
    Contains(line, "이유:") || Contains(Strip(Lower(line)), "reason:")
  }

  /** `line.split(":", 1)[1]` when the split has two parts. */
  function AfterColon(line: string): Option<string> {
    var i := IndexOf(line, ':');
    if i < |line| then Some(line[i + 1..]) else None
  }

  /** The category a category line sets: the text after the first colon,
      stripped, lowercased, spaces turned into `_`. */
  function CategoryField(line: string): Option<string> {
    match AfterColon(line)
    case Some(v) => Some(ReplaceChar(Lower(Strip(v)), ' ', '_'))
    case None => None
  }

  /** The reason a reason line sets: the text after the first colon,
      stripped. */
  function ReasonField(line: string): Option<string> {
    match AfterColon(line)
    case Some(v) => Some(Strip(v))
    case None => None
  }

  /** The loop state: `category` (None until set) and `reason`. */
  datatype Scan = Scan(category: Option<string>, reason: string)

  /** One iteration of the line loop. A category line is never read as a
      reason line (`elif`). */
  function ScanLine(st: Scan, line: string): Scan {
    if IsCategoryLine(line) then
      (if CategoryField(line).Some? then st.(category := CategoryField(line)) else st)
    else if IsReasonLine(line) then
      (if ReasonField(line).Some? then st.(reason := ReasonField(line).value) else st)
    else st
  }

  /** The loop over `lines`, first line first. */
  function ScanLines(st: Scan, lines: seq<string>): Scan
    decreases |lines|
  {
    if lines == [] then st else ScanLines(ScanLine(st, lines[0]), lines[1..])
  }

  /** The category the last category line with a colon sets, read from the
      end; `c` when there is none. */
  function LastCategory(lines: seq<string>, c: Option<string>): Option<string>
    decreases |lines|
  {
    if lines == [] then c
    else
      var last := lines[|lines| - 1];
      if IsCategoryLine(last) && CategoryField(last).Some? then CategoryField(last)
      else LastCategory(lines[..|lines| - 1], c)
  }

  /** The reason the last reason line that is not a category line sets,
      read from the end; `r` when there is none. */
  function LastReason(lines: seq<string>, r: string): string
    decreases |lines|
  {
    if lines == [] then r
    else
      var last := lines[|lines| - 1];
      if !IsCategoryLine(last) && IsReasonLine(last) && ReasonField(last).Some? then ReasonField(last).value
      else LastReason(lines[..|lines| - 1], r)
  }

  lemma {:induction false} ScanLinesSnoc(st: Scan, lines: seq<string>, line: string)
    ensures ScanLines(st, lines + [line]) == ScanLine(ScanLines(st, lines), line)
    decreases |lines|
  {
    if lines == [] {
      assert lines + [line] == [line];
    } else {
      assert (lines + [line])[1..] == lines[1..] + [line];
      ScanLinesSnoc(ScanLine(st, lines[0]), lines[1..], line);
    }
  }

  /** Later lines override earlier ones: the loop ends with the category of
      the last category line and the reason of the last reason line that is
      not also a category line. */
  lemma {:induction false} ScanLinesLastWins(st: Scan, lines: seq<string>)
    ensures ScanLines(st, lines) == Scan(LastCategory(lines, st.category), LastReason(lines, st.reason))
    decreases |lines|
  {
    if lines != [] {
      var init, last := lines[..|lines| - 1], lines[|lines| - 1];
      assert lines == init + [last];
      ScanLinesLastWins(st, init);
      ScanLinesSnoc(st, init, last);
    }
  }

  /** The line loop of `_parse_llm_response`. */
  method ScanReply(lines: seq<string>) returns (category: Option<string>, reason: string)
    ensures Scan(category, reason) == ScanLines(Scan(None, ""), lines)
  {
    category, reason := None, "";
    for k := 0 to |lines|
      invariant ScanLines(Scan(category, reason), lines[k..]) == ScanLines(Scan(None, ""), lines)
    {
      var line := lines[k];
      assert lines[k..][0] == line && lines[k..][1..] == lines[k + 1..];
      var lineLower := Strip(Lower(line));
      if Contains(line, "카테고리:") || Contains(lineLower, "category:") {
        var parts := AfterColon(line);
        if parts.Some? {
          category := Some(ReplaceChar(Lower(Strip(parts.value)), ' ', '_'));
        }
      } else if Contains(line, "이유:") || Contains(lineLower, "reason:") {
        var parts := AfterColon(line);
        if parts.Some? {
          reason := Strip(parts.value);
        }
      }
    }
  }

  // ---------------------------------------------------------------------
  // _parse_llm_response: the fallbacks
  // ---------------------------------------------------------------------

  /** The position, in `cats`, of the first category whose value occurs in
      `text`; `|cats|` when none occurs. */
  function FirstNamedIndex(text: string, cats: seq<Category>): (k: nat)
    ensures k <= |cats|
    ensures k < |cats| ==> Contains(text, Value(cats[k]))
    ensures forall j :: 0 <= j < k ==> !Contains(text, Value(cats[j]))
  {
    if cats == [] then 0
    else if Contains(text, Value(cats[0])) then 0
    else 1 + FirstNamedIndex(text, cats[1..])
  }

  /** The category the `for cat in DocumentCategory` search settles on. */
  function FirstNamed(text: string): Option<Category>
  {
    var k := FirstNamedIndex(text, AllCategories);
    if k < |AllCategories| then Some(AllCategories[k]) else None
  }

  /** The `for cat in DocumentCategory` loop with its `break`. */
  method FindCategory(text: string) returns (found: Option<Category>)
    ensures found == FirstNamed(text)
  {
    var i := 0;
    while i < |AllCategories| && !Contains(text, Value(AllCategories[i]))
      invariant 0 <= i <= FirstNamedIndex(text, AllCategories)
    {
      i := i + 1;
    }
    found := if i < |AllCategories| then Some(AllCategories[i]) else None;
  }

  /** `any(kw in text for kw in keywords)`. */
  predicate AnyIn(text: string, keywords: seq<string>) {
    exists k :: 0 <= k < |keywords| && Contains(text, keywords[k])
  }

  /** The keyword cascade: loan, IT, security, HR, accounting, else general. */
  function KeywordCategory(text: string): Category {
    if AnyIn(text, ["loan", "finance", "대출", "금융"]) then LoanFinance
    else if AnyIn(text, ["it", "system", "소프트웨어", "시스템"]) then ItSystem
    else if AnyIn(text, ["security", "access", "보안", "접근"]) then SecurityAccess
    else if AnyIn(text, ["hr", "human", "인사", "채용"]) then Hr
    else if AnyIn(text, ["accounting", "legal", "회계", "법무"]) then AccountingLegal
    else General
  }

  /** The reason used when the reply gives none. */
  const DefaultReason: string := "LLM 응답에서 이유를 추출하지 못했습니다."

  /** `not category`: None or the empty string. */
  predicate Falsy(category: Option<string>) {
    category.None? || category.value == ""
  }

  /** `_parse_llm_response` as a function of the reply: the line scan, the
      two fallbacks when it gave no non-empty category, and the default
      reason. */
  function ParsedReply(response: string): (string, string)
  {
    var st := ScanLines(Scan(None, ""), Split(response, '\n'));
    var category :=
      if !Falsy(st.category) then st.category.value
      else match FirstNamed(Lower(response))
        case Some(c) => Value(c)
        case None => Value(KeywordCategory(Lower(response)));
    (category, if st.reason == "" then DefaultReason else st.reason)
  }

  /** The reason is never empty; a category that no category line supplied
      is always a valid enum value, the first one named in the reply if
      any is. */
  lemma ParsedReplyProperties(response: string)
    ensures var (category, reason) := ParsedReply(response);
      var st := ScanLines(Scan(None, ""), Split(response, '\n'));
      && reason != ""
      && (!Falsy(st.category) ==> category == st.category.value)
      && (Falsy(st.category) ==> FromValue(category).Some?)
      && (Falsy(st.category) && FirstNamed(Lower(response)).Some? ==>
            category == Value(FirstNamed(Lower(response)).value))
  {
    var (category, reason) := ParsedReply(response);
    var st := ScanLines(Scan(None, ""), Split(response, '\n'));
    if Falsy(st.category) {
      var c := match FirstNamed(Lower(response))
        case Some(c) => c
        case None => KeywordCategory(Lower(response));
      assert category == Value(c);
      FromValueInvertsValue(category, c);
    }
  }

  /** `_parse_llm_response`. */
  method ParseLlmResponse(response: string) returns (category: string, reason: string)
    ensures (category, reason) == ParsedReply(response)
  {
    var scanned: Option<string>;
    scanned, reason := ScanReply(Split(response, '\n'));
    if !Falsy(scanned) {
      category := scanned.value;
    } else {
      var responseLower := Lower(response);
      var found := FindCategory(responseLower);
      if found.Some? {
        category := Value(found.value);
      } else {
        category := Value(KeywordCategory(responseLower));
      }
    }
    if reason == "" {
      reason := DefaultReason;
    }
  }

  // ---------------------------------------------------------------------
  // Category validation and confidence
  // ---------------------------------------------------------------------

  /** The reason given when the category is not an enum value. */
  const InvalidCategoryReason: string := "유효하지 않은 카테고리 응답으로 인해 기본값 사용: "

  /** `DocumentCategory(category)`, falling back to `GENERAL` with the raw
      reply as the reason. */
  function Validate(category: string, reason: string, llmResponse: string): (r: (Category, string))
    ensures FromValue(category).Some? ==> r == (FromValue(category).value, reason)
    ensures FromValue(category).None? ==> r == (General, InvalidCategoryReason + llmResponse)
  {
    match FromValue(category)
    case Some(c) => (c, reason)
    case None => (General, InvalidCategoryReason + llmResponse)
  }

  datatype Confidence = High | Medium | Low

  /** `_calculate_confidence`: not `Low` exactly when the reply names a
      category, and `High` only for a reply over 50 characters. */
  function CalculateConfidence(llmResponse: string): (c: Confidence)
    ensures c != Low <==> FirstNamed(Lower(llmResponse)).Some?
    ensures c == High ==> |llmResponse| > 50
  {
    var responseLower := Lower(llmResponse);
    NamedIffFirstNamed(responseLower);
    var hasCategory := exists k :: 0 <= k < |AllCategories| && Contains(responseLower, Value(AllCategories[k]));
    var hasReason := |llmResponse| > 50 && (Contains(llmResponse, "이유") || Contains(responseLower, "reason"));
    if hasCategory && hasReason then High
    else if hasCategory then Medium
    else Low
  }

  /** Some category value is contained in `t` exactly when the search in
      declaration order finds one. */
  lemma NamedIffFirstNamed(t: string)
    ensures FirstNamed(t).Some? <==> exists k :: 0 <= k < |AllCategories| && Contains(t, Value(AllCategories[k]))
  {
    var k := FirstNamedIndex(t, AllCategories);
    if k < |AllCategories| {
      assert 0 <= k < |AllCategories| && Contains(t, Value(AllCategories[k]));
    }
  }

  /** The confidence is not `Low` exactly when the category search of the
      parser would find a category in the same reply. */
  lemma ConfidenceMatchesCategorySearch(llmResponse: string)
    ensures CalculateConfidence(llmResponse) != Low <==> FirstNamed(Lower(llmResponse)).Some?
  {
    var t := Lower(llmResponse);
    var k := FirstNamedIndex(t, AllCategories);
    if k < |AllCategories| {
      assert 0 <= k < |AllCategories| && Contains(t, Value(AllCategories[k]));
    }
  }

  /** The grades: `High` needs a category and a reason over 50 characters,
      `Medium` a category only. */
  lemma ConfidenceGrades(llmResponse: string)
    ensures var c := CalculateConfidence(llmResponse);
      var named := FirstNamed(Lower(llmResponse)).Some?;
      var reasoned := |llmResponse| > 50 && (Contains(llmResponse, "이유") || Contains(Lower(llmResponse), "reason"));
      && (c == High <==> named && reasoned)
      && (c == Medium <==> named && !reasoned)
      && (c == Low <==> !named)
  {
    ConfidenceMatchesCategorySearch(llmResponse);
  }

  /** The decision `route_document` returns for a reply: the reply is
      stripped, parsed, validated and graded. */
  datatype Routing = Routing(category: Category, confidence: Confidence, reason: string)

  function RouteDecision(rawReply: string): (r: Routing)
    ensures var reply := Strip(rawReply);
      var parsed := ParsedReply(reply);
      && r.reason != ""
      && (FromValue(parsed.0).Some? ==> r.category == FromValue(parsed.0).value && r.reason == parsed.1)
      && (FromValue(parsed.0).None? ==> r.category == General && r.reason == InvalidCategoryReason + reply)
      && (r.confidence != Low <==> FirstNamed(Lower(reply)).Some?)
  {
    var reply := Strip(rawReply);
    ParsedReplyProperties(reply);
    var (category, reason) := ParsedReply(reply);
    var (validated, why) := Validate(category, reason, reply);
    Routing(validated, CalculateConfidence(reply), why)
  }

  /** The reason given back is never empty, and a reply whose lines name no
      category keeps the reason the parser found. */
  lemma RouteDecisionReason(rawReply: string)
    ensures RouteDecision(rawReply).reason != ""
    ensures var reply := Strip(rawReply);
      Falsy(ScanLines(Scan(None, ""), Split(reply, '\n')).category) ==>
        RouteDecision(rawReply).reason == ParsedReply(reply).1
  {
    var reply := Strip(rawReply);
    ParsedReplyProperties(reply);
  }
}

=== FILE: NlpService.dfy ===
/** `NLPService.is_broken` (app/service/chunk/nlp/nlp_service.py): six
    rules over the part-of-speech tags of a sentence that flag it as a
    broken fragment. The Kiwi tokenizer is not part of this model: the tag
    list is an input, and so is Python's `str.isalnum`, a Unicode character
    class. */
module NlpService {

  /** `tag.startswith(c)` for a one-letter prefix. */
  predicate TagIs(tag: string, c: char) {
    |tag| > 0 && tag[0] == c
  }

  /** A subject or object case particle, JKS or JKO. */
  predicate IsCaseParticle(tag: string) {
    tag == "JKS" || tag == "JKO"
  }

  /** `any(p.startswith("V") for p in pos[from:])`. */
  predicate HasVerbFrom(pos: seq<string>, from: nat) {
    exists i :: from <= i < |pos| && TagIs(pos[i], 'V')
  }

  /** Three noun tags in a row starting at `j`. */
  predicate NounTriple(pos: seq<string>, j: nat) {
    j + 2 < |pos| && TagIs(pos[j], 'N') && TagIs(pos[j + 1], 'N') && TagIs(pos[j + 2], 'N')
  }

  /** Noun, noun, particle starting at `j`. */
  predicate NounNounParticle(pos: seq<string>, j: nat) {
    j + 2 < |pos| && TagIs(pos[j], 'N') && TagIs(pos[j + 1], 'N') && TagIs(pos[j + 2], 'J')
  }

  /** Index of the last JKS or JKO tag, or -1 when there is none. */
  function LastCaseParticle(pos: seq<string>): (k: int)
    ensures -1 <= k < |pos|
    ensures k >= 0 ==> IsCaseParticle(pos[k])
    ensures forall j :: k < j < |pos| ==> !IsCaseParticle(pos[j])
  {
    if pos == [] then -1
    else if IsCaseParticle(pos[|pos| - 1]) then |pos| - 1
    else LastCaseParticle(pos[..|pos| - 1])
  }

  /** Neither alphanumeric nor one of the allowed punctuation marks. */
  predicate IsSpecial(c: char, isAlnum: char -> bool) {
    !isAlnum(c) && c !in " .,-()"
  }

  /** `sum(1 for ch in text if ...)`: the special characters of `text`. */
  function SpecialCount(text: string, isAlnum: char -> bool): (n: nat)
    ensures n <= |text|
  {
    if text == [] then 0
    else SpecialCount(text[..|text| - 1], isAlnum) + (if IsSpecial(text[|text| - 1], isAlnum) then 1 else 0)
  }

  // ---------------------------------------------------------------------
  // The rules, stated on the whole tag list
  // ---------------------------------------------------------------------

  /** Rule 1: no verb at all. */
  predicate NoVerb(pos: seq<string>) {
    !HasVerbFrom(pos, 0)
  }

  /** Rule 2: three or more nouns in a row. */
  predicate NounRun(pos: seq<string>) {
    exists j :: 0 <= j < |pos| && NounTriple(pos, j)
  }

  /** Rule 3: noun, noun, particle. */
  predicate NounsBeforeParticle(pos: seq<string>) {
    exists j :: 0 <= j < |pos| && NounNounParticle(pos, j)
  }

  /** Rule 4: a subject or object particle and no verb from the last of them on. */
  predicate DanglingParticle(pos: seq<string>) {
    var k := LastCaseParticle(pos);
    k >= 0 && !HasVerbFrom(pos, k)
  }

  /** Rule 5: at most three tokens, all nouns. */
  predicate ShortNounsOnly(pos: seq<string>) {
    |pos| <= 3 && forall i :: 0 <= i < |pos| ==> TagIs(pos[i], 'N')
  }

  /** Rule 6: more than three special characters. */
  predicate TooManySpecials(text: string, isAlnum: char -> bool) {
    SpecialCount(text, isAlnum) > 3
  }

  /** The sentence is broken when any rule fires. */
  predicate Broken(pos: seq<string>, text: string, isAlnum: char -> bool) {
    || NoVerb(pos)
    || NounRun(pos)
    || NounsBeforeParticle(pos)
    || DanglingParticle(pos)
    || ShortNounsOnly(pos)
    || TooManySpecials(text, isAlnum)
  }

  // ---------------------------------------------------------------------
  // Properties
  // ---------------------------------------------------------------------

  /** An empty tag list has no verb, so it is broken. */
  lemma EmptyIsBroken(text: string, isAlnum: char -> bool)
    ensures Broken([], text, isAlnum)
  {
  }

  /** Rule 5 never decides: a list of nouns only has no verb and has been
      flagged by rule 1 already. */
  lemma ShortNounsOnlyIsNoVerb(pos: seq<string>)
    ensures ShortNounsOnly(pos) ==> NoVerb(pos)
  {
  }

  /** Rule 4 reads the last particle, but any particle would do: a verb
      after the last particle is a verb after every particle. */
  lemma DanglingParticleAnywhere(pos: seq<string>)
    ensures DanglingParticle(pos) <==>
      exists i :: 0 <= i < |pos| && IsCaseParticle(pos[i]) && !HasVerbFrom(pos, i)
  {
    var k := LastCaseParticle(pos);
    if i :| 0 <= i < |pos| && IsCaseParticle(pos[i]) && !HasVerbFrom(pos, i) {
      assert k >= i;
    }
  }

  // ---------------------------------------------------------------------
  // is_broken
  // ---------------------------------------------------------------------

  /** Length of the run of noun tags that ends just before `i`. */
  function NounStreak(pos: seq<string>, i: nat): nat
    requires i <= |pos|
  {
    if i == 0 || !TagIs(pos[i - 1], 'N') then 0 else 1 + NounStreak(pos, i - 1)
  }

  lemma NounStreakTriple(pos: seq<string>, i: nat)
    requires i < |pos| && TagIs(pos[i], 'N')
    ensures NounStreak(pos, i + 1) >= 3 <==> i >= 2 && NounTriple(pos, i - 2)
  {
    if NounStreak(pos, i + 1) >= 3 {
      assert NounStreak(pos, i) >= 2;
      assert NounStreak(pos, i - 1) >= 1;
    }
    if i >= 2 && NounTriple(pos, i - 2) {
      assert NounStreak(pos, i - 1) >= 1;
      assert NounStreak(pos, i) >= 2;
    }
  }

  /** Rule 2 as the source runs it: a `streak` counter that a non-noun tag
      resets, stopping as soon as it reaches 3. */
  method NounStreakReaches3(pos: seq<string>) returns (found: bool)
    ensures found == NounRun(pos)
  {
    var streak := 0;
    for i := 0 to |pos|
      invariant streak == NounStreak(pos, i) && streak < 3
      invariant forall j :: 0 <= j && j + 2 < i ==> !NounTriple(pos, j)
    {
      if TagIs(pos[i], 'N') {
        NounStreakTriple(pos, i);
        streak := streak + 1;
        if streak >= 3 {
          return true;
        }
      } else {
        streak := 0;
      }
    }
    return false;
  }

  /** Rule 3: `for i in range(len(pos) - 2)`. */
  method FindNounsBeforeParticle(pos: seq<string>) returns (found: bool)
    ensures found == NounsBeforeParticle(pos)
  {
    var i := 0;
    while i + 2 < |pos|
      invariant 0 <= i
      invariant forall j :: 0 <= j < i ==> !NounNounParticle(pos, j)
      decreases |pos| - i
    {
      if TagIs(pos[i], 'N') && TagIs(pos[i + 1], 'N') && TagIs(pos[i + 2], 'J') {
        assert NounNounParticle(pos, i);
        return true;
      }
      i := i + 1;
    }
    return false;
  }

  /** `max(i for i, p in enumerate(pos) if p in ("JKS", "JKO"))`, for a
      list that holds one of them. */
  method LastParticleIndex(pos: seq<string>) returns (lastJ: nat)
    requires exists i :: 0 <= i < |pos| && IsCaseParticle(pos[i])
    ensures lastJ == LastCaseParticle(pos)
  {
    var best := -1;
    for i := 0 to |pos|
      invariant best == LastCaseParticle(pos[..i])
    {
      assert pos[..i + 1][..i] == pos[..i];
      if IsCaseParticle(pos[i]) {
        best := i;
      }
    }
    assert pos[..|pos|] == pos;
    lastJ := best;
  }

  /** `sum(1 for ch in text if not ch.isalnum() and ch not in " .,-()")`. */
  method CountSpecials(text: string, isAlnum: char -> bool) returns (special: nat)
    ensures special == SpecialCount(text, isAlnum)
  {
    special := 0;
    for k := 0 to |text|
      invariant special == SpecialCount(text[..k], isAlnum)
    {
      assert text[..k + 1][..k] == text[..k];
      if IsSpecial(text[k], isAlnum) {
        special := special + 1;
      }
    }
    assert text[..|text|] == text;
  }

  /** `is_broken`: the rules in the source's order, each returning True
      as soon as it fires. */
  method IsBroken(pos: seq<string>, text: string, isAlnum: char -> bool) returns (broken: bool)
    ensures broken == Broken(pos, text, isAlnum)
  {
    if !HasVerbFrom(pos, 0) {
      return true;
    }
    var streak := NounStreakReaches3(pos);
    if streak {
      return true;
    }
    var triple := FindNounsBeforeParticle(pos);
    if triple {
      return true;
    }
    if exists i :: 0 <= i < |pos| && IsCaseParticle(pos[i]) {
      var lastJ := LastParticleIndex(pos);
      if !HasVerbFrom(pos, lastJ) {
        return true;
      }
    }
    if |pos| <= 3 && forall i :: 0 <= i < |pos| ==> TagIs(pos[i], 'N') {
      return true;
    }
    var special := CountSpecials(text, isAlnum);
    if special > 3 {
      return true;
    }
    return false;
  }
}

=== FILE: ParseDocumentService.dfy ===
/** `ParseDocumentService` (app/application/service/parse_document_service.py):
    a four-stage pipeline over a dictionary, parse_pdf, classify, router and
    upsert, where each stage returns a copy of its input with one more key.
    The PDF parser, the language model, the JSON decoder, LlamaParse, the
    chunker and the vector store are not part of this model: they enter as
    the functions of a `Services` value. */
module ParseDocumentService {
  import opened Wrappers
  import opened Docs
  import ChunkService

  // ---------------------------------------------------------------------
  // Document types and the classifier's reply
  // ---------------------------------------------------------------------

  /** `DocumentType` (app/domain/document/entity/document_type.py), a `str`
      enum: a member compares equal to its lower-case value. */
  datatype DocumentType = Procedure | Policy | Manual | Report | Unknown

  function TypeValue(t: DocumentType): string {
    match t
    case Procedure => "procedure"
    case Policy => "policy"
    case Manual => "manual"
    case Report => "report"
    case Unknown => "unknown"
  }

  /** A decoded JSON value. */
  datatype Json =
    | JString(s: string)
    | JNumber(n: real)
    | JObject(fields: map<string, Json>)
    | JOther(id: nat)

  /** `DocumentClassification`: a dataclass, so its fields hold whatever
      the decoded reply held; the `str` and `float` annotations are not
      checked at run time. */
  datatype Classification = Classification(documentType: Json, confidence: Json, reason: Json)

  const ClassificationFields: set<string> := {"document_type", "confidence", "reason"}

  /** `DocumentClassification(**json.loads(reply))`. A reply that is not
      JSON raises the decoder's error; one that decodes to a non-object, or
      to an object with a missing or an extra key, raises `TypeError`. */
  function Classify(reply: string, decode: string -> Option<Json>): (r: Result<Classification>)
  {
    match decode(reply)
    case None => Err(DecodeError)
    case Some(JObject(fields)) =>
      if fields.Keys == ClassificationFields then
        Ok(Classification(fields["document_type"], fields["confidence"], fields["reason"]))
      else Err(TypeError("unexpected or missing keyword argument"))
    case Some(_) => Err(TypeError("argument after ** must be a mapping"))
  }

  /** Classification succeeds exactly on a JSON object with the three
      field names, and then carries the three values unchanged; there is
      no fallback type. */
  lemma ClassifyContract(reply: string, decode: string -> Option<Json>)
    ensures Classify(reply, decode).Ok? <==>
      decode(reply).Some? && decode(reply).value.JObject? && decode(reply).value.fields.Keys == ClassificationFields
    ensures Classify(reply, decode).Ok? ==>
      var fields := decode(reply).value.fields;
      Classify(reply, decode).value == Classification(fields["document_type"], fields["confidence"], fields["reason"])
    ensures decode(reply).None? ==> Classify(reply, decode) == Err(DecodeError)
  {
  }

  // ---------------------------------------------------------------------
  // router_fn
  // ---------------------------------------------------------------------

  /** What the router stage runs: LlamaParse on the file, `full_chunk` on
      the document, or `chunk` with a size and an overlap. */
  datatype Strategy = LlamaParse | FullChunk | Chunk(chunkSize: nat, chunkOverlap: nat)

  const DefaultChunkSize: nat := 800
  const DefaultChunkOverlap: nat := 150

  /** `doc_type == DocumentType.X`: only the exact lower-case string
      compares equal. */
  predicate IsType(docType: Json, t: DocumentType) {
    docType == JString(TypeValue(t))
  }

  /** `router_fn`. */
  function RouterFn(docType: Json): (s: Strategy)
  {
    if IsType(docType, Policy) then LlamaParse
    else if IsType(docType, Manual) then FullChunk
    else Chunk(DefaultChunkSize, DefaultChunkOverlap)
  }

  /** `"policy"` parses with LlamaParse, `"manual"` chunks with the full
      chunk settings, and every other value, whatever its case or type,
      chunks with 800/150. */
  lemma RouterCases(docType: Json)
    ensures RouterFn(docType) == LlamaParse <==> docType == JString("policy")
    ensures RouterFn(docType) == FullChunk <==> docType == JString("manual")
    ensures RouterFn(docType).Chunk? <==> docType != JString("policy") && docType != JString("manual")
    ensures RouterFn(docType).Chunk? ==> RouterFn(docType) == Chunk(800, 150)
  {
  }

  /** The chunk size and overlap a strategy chunks with, if it chunks:
      `full_chunk` is `chunk` with 1500 and 200. */
  function ChunkSettings(s: Strategy): (r: Option<(nat, nat)>)
    ensures s == LlamaParse <==> r.None?
    ensures s == FullChunk ==> r == Some((1500, 200))
    ensures s.Chunk? ==> r == Some((s.chunkSize, s.chunkOverlap))
  {
    match s
    case LlamaParse => None
    case FullChunk => Some((ChunkService.FullChunkSize, ChunkService.FullChunkOverlap))
    case Chunk(size, overlap) => Some((size, overlap))
  }

  /** An upper-case type name takes the default branch. */
  lemma UpperCaseTypeIsDefault()
    ensures RouterFn(JString("POLICY")) == Chunk(800, 150)
    ensures RouterFn(JString("MANUAL")) == Chunk(800, 150)
  {
    assert JString("POLICY") != JString("policy") by {
      assert "POLICY"[0] != "policy"[0];
    }
    assert JString("MANUAL") != JString("manual") by {
      assert "MANUAL"[0] != "manual"[0];
    }
  }

  // ---------------------------------------------------------------------
  // The pipeline
  // ---------------------------------------------------------------------

  /** The external operations the stages call, as functions. Documents are
      referred to by an opaque handle. `parsePdf` stands for the document
      parser the parse stage means to call (a `DocumentInfo` with
      `get_route_doc`); the vector store is not a function here: what it is
      called with is part of the pipeline's outcome. */
  datatype Services = Services(
    parsePdf: (seq<bv8>, string) -> nat,
    routeDoc: nat -> string,
    ask: (string, string) -> string,
    decode: string -> Option<Json>,
    run: (Strategy, nat, seq<bv8>, string) -> nat,
    upsertDocuments: nat -> seq<Doc>,
    firstClassificationPrompt: string)

  /** An argument of `Upsert.upsert(collection, docs)`. */
  datatype UpsertArg = Documents(docs: seq<Doc>) | TypeName(docType: Json)

  /** A value in the pipeline's dictionary. */
  datatype Slot =
    | FileBytes(bytes: seq<bv8>)
    | FileName(name: string)
    | ParsedDoc(handle: nat)
    | Classified(classification: Classification)
    | Routed(result: nat)
    | NoneValue

  type State = map<string, Slot>

  /** `{**x, key: v}`: a copy of `x` with one key set. */
  function Extend(x: State, key: string, v: Slot): (y: State)
    ensures y.Keys == x.Keys + {key}
    ensures y[key] == v
    ensures forall k :: k in x && k != key ==> y[k] == x[k]
  {
    x[key := v]
  }

  /** The input of `execute`. */
  function Input(fileBytes: seq<bv8>, filename: string): State {
    map["file_bytes" := FileBytes(fileBytes), "filename" := FileName(filename)]
  }

  /** The parse_pdf stage, as written: the attribute `normal_parse` is looked
      up on a `PdfService` before any argument is evaluated, and the class
      has no such method, so the stage raises `AttributeError` whatever the
      dictionary holds. */
  function ParsePdfStageAsWritten(x: State, env: Services): Result<State> {
    Err(AttributeError("normal_parse"))
  }

  /** The parse_pdf stage, with `parsePdf` as the parser it means to call. */
  function ParsePdfStage(x: State, env: Services): Result<State> {
    if "file_bytes" !in x then Err(KeyError("file_bytes"))
    else if "filename" !in x then Err(KeyError("filename"))
    else if !x["file_bytes"].FileBytes? || !x["filename"].FileName? then Err(TypeError("unexpected value"))
    else Ok(Extend(x, "doc", ParsedDoc(env.parsePdf(x["file_bytes"].bytes, x["filename"].name))))
  }

  /** The classify stage: ask the model with the five-type prompt and the
      route sample, then build the classification from the reply. */
  function ClassifyStage(x: State, env: Services): Result<State> {
    if "doc" !in x then Err(KeyError("doc"))
    else if !x["doc"].ParsedDoc? then Err(TypeError("unexpected value"))
    else
      var reply := env.ask(env.firstClassificationPrompt, env.routeDoc(x["doc"].handle));
      match Classify(reply, env.decode)
      case Err(e) => Err(e)
      case Ok(c) => Ok(Extend(x, "classification", Classified(c)))
  }

  /** The router stage: choose by the document type, then run the choice. */
  function RouterStage(x: State, env: Services): Result<State> {
    if "classification" !in x then Err(KeyError("classification"))
    else if "doc" !in x then Err(KeyError("doc"))
    else if "file_bytes" !in x then Err(KeyError("file_bytes"))
    else if "filename" !in x then Err(KeyError("filename"))
    else if !x["classification"].Classified? || !x["doc"].ParsedDoc? || !x["file_bytes"].FileBytes? || !x["filename"].FileName? then
      Err(TypeError("unexpected value"))
    else
      var strategy := RouterFn(x["classification"].classification.documentType);
      Ok(Extend(x, "result", Routed(env.run(strategy, x["doc"].handle, x["file_bytes"].bytes, x["filename"].name))))
  }

  /** The arguments the upsert stage passes, as written: the documents
      first, into `collection`, and the type second, into `docs`. */
  function UpsertArgsAsWritten(documents: seq<Doc>, docType: Json): (UpsertArg, UpsertArg) {
    (Documents(documents), TypeName(docType))
  }

  /** The arguments as `Upsert.upsert(collection, docs)` expects them: the
      collection named by the type, then the documents. */
  function UpsertArgs(documents: seq<Doc>, docType: Json): (args: (UpsertArg, UpsertArg))
    ensures args.0.TypeName? && args.0.docType == docType
    ensures args.1.Documents? && args.1.docs == documents
  {
    (TypeName(docType), Documents(documents))
  }

  /** As written, the collection argument is always the document list and
      the documents argument always the type: the two are swapped for
      every input. */
  lemma UpsertArgumentsSwapped(documents: seq<Doc>, docType: Json)
    ensures UpsertArgsAsWritten(documents, docType).0 == UpsertArgs(documents, docType).1
    ensures UpsertArgsAsWritten(documents, docType).1 == UpsertArgs(documents, docType).0
    ensures UpsertArgsAsWritten(documents, docType) != UpsertArgs(documents, docType)
  {
  }

  /** What a run of the whole chain leaves: the final dictionary and the
      one call made to the vector store, `Upsert.upsert(collection, docs)`. */
  datatype Outcome = Outcome(state: State, stored: (UpsertArg, UpsertArg))

  /** The upsert stage, with the arguments in the order `upsert` expects.
      `Upsert.upsert` adds the documents to the store and returns nothing,
      so `upsert_document` holds `None`. */
  function UpsertStage(x: State, env: Services): Result<Outcome> {
    if "result" !in x then Err(KeyError("result"))
    else if "classification" !in x then Err(KeyError("classification"))
    else if !x["result"].Routed? || !x["classification"].Classified? then Err(TypeError("unexpected value"))
    else
      var args := UpsertArgs(env.upsertDocuments(x["result"].result), x["classification"].classification.documentType);
      Ok(Outcome(Extend(x, "upsert_document", NoneValue), args))
  }

  /** `a | b`: run `b` on the output of `a`; an exception stops the chain. */
  function Then(r: Result<State>, stage: (State, Services) -> Result<State>, env: Services): Result<State> {
    match r
    case Err(e) => Err(e)
    case Ok(x) => stage(x, env)
  }

  /** `parse | classify | router | upsert` on the two inputs, for a given
      parse stage. */
  function Chain(parse: (State, Services) -> Result<State>, fileBytes: seq<bv8>, filename: string, env: Services): Result<Outcome> {
    var parsed := parse(Input(fileBytes, filename), env);
    var classified := Then(parsed, ClassifyStage, env);
    match Then(classified, RouterStage, env)
    case Err(e) => Err(e)
    case Ok(x) => UpsertStage(x, env)
  }

  /** `execute` as written: the parse stage raises, so nothing after it runs
      and the store is never called. */
  function ExecuteAsWritten(fileBytes: seq<bv8>, filename: string, env: Services): Result<Outcome> {
    Chain(ParsePdfStageAsWritten, fileBytes, filename, env)
  }

  /** `execute` with the parse stage it means to have. */
  function Execute(fileBytes: seq<bv8>, filename: string, env: Services): Result<Outcome> {
    Chain(ParsePdfStage, fileBytes, filename, env)
  }

  /** As written, `execute` raises `AttributeError` on every input. */
  lemma ExecuteAsWrittenFails(fileBytes: seq<bv8>, filename: string, env: Services)
    ensures ExecuteAsWritten(fileBytes, filename, env) == Err(AttributeError("normal_parse"))
  {
  }

  /** The chain fails exactly when classification fails, with its error;
      otherwise the result holds every key each stage added, the inputs
      unchanged, and each stage's value computed from the earlier ones. */
  lemma ExecuteContract(fileBytes: seq<bv8>, filename: string, env: Services)
    ensures var doc := env.parsePdf(fileBytes, filename);
      var reply := env.ask(env.firstClassificationPrompt, env.routeDoc(doc));
      var c := Classify(reply, env.decode);
      var r := Execute(fileBytes, filename, env);
      && (r.Err? <==> c.Err?)
      && (c.Err? ==> r.error == c.error)
      && (r.Ok? ==>
            var y := r.value.state;
            var strategy := RouterFn(c.value.documentType);
            var result := env.run(strategy, doc, fileBytes, filename);
            && y.Keys == {"file_bytes", "filename", "doc", "classification", "result", "upsert_document"}
            && y["file_bytes"] == FileBytes(fileBytes)
            && y["filename"] == FileName(filename)
            && y["doc"] == ParsedDoc(doc)
            && y["classification"] == Classified(c.value)
            && y["result"] == Routed(result)
            && y["upsert_document"] == NoneValue
            && r.value.stored == (TypeName(c.value.documentType), Documents(env.upsertDocuments(result))))
  {
    var x0 := Input(fileBytes, filename);
    var doc := env.parsePdf(fileBytes, filename);
    var x1 := Extend(x0, "doc", ParsedDoc(doc));
    ParsePdfOnInput(fileBytes, filename, env);
    var reply := env.ask(env.firstClassificationPrompt, env.routeDoc(doc));
    var c := Classify(reply, env.decode);
    if c.Ok? {
      var x2 := Extend(x1, "classification", Classified(c.value));
      assert ClassifyStage(x1, env) == Ok(x2);
      var result := env.run(RouterFn(c.value.documentType), doc, fileBytes, filename);
      RouterOnClassified(x2, env);
      var x3 := Extend(x2, "result", Routed(result));
      UpsertOnRouted(x3, env);
    }
  }

  lemma ParsePdfOnInput(fileBytes: seq<bv8>, filename: string, env: Services)
    ensures ParsePdfStage(Input(fileBytes, filename), env)
      == Ok(Extend(Input(fileBytes, filename), "doc", ParsedDoc(env.parsePdf(fileBytes, filename))))
  {
    var x0 := Input(fileBytes, filename);
    assert "file_bytes" in x0 && "filename" in x0;
  }

  lemma RouterOnClassified(x: State, env: Services)
    requires "classification" in x && x["classification"].Classified?
    requires "doc" in x && x["doc"].ParsedDoc?
    requires "file_bytes" in x && x["file_bytes"].FileBytes?
    requires "filename" in x && x["filename"].FileName?
    ensures RouterStage(x, env) == Ok(Extend(x, "result", Routed(env.run(
      RouterFn(x["classification"].classification.documentType), x["doc"].handle, x["file_bytes"].bytes, x["filename"].name))))
  {
  }

  lemma UpsertOnRouted(x: State, env: Services)
    requires "result" in x && x["result"].Routed?
    requires "classification" in x && x["classification"].Classified?
    ensures UpsertStage(x, env) == Ok(Outcome(Extend(x, "upsert_document", NoneValue),
      (TypeName(x["classification"].classification.documentType), Documents(env.upsertDocuments(x["result"].result)))))
  {
  }
}

=== FILE: PdfService.dfy ===
/** The text-side helpers of `PdfService`: splitting a page's text spans into
    sections by font size and list numbering, and joining a lone list number
    with the line after it. The PDF library is not modelled: a page is the
    block/line/span structure it reports, each span reduced to its text and
    its font size. */
module PdfService {
  import opened Strings
  import opened Wrappers

  // ---------------------------------------------------------------------
  // Page structure
  // ---------------------------------------------------------------------

  datatype Span = Span(text: string, size: real)
  datatype TextLine = TextLine(spans: seq<Span>)
  /** A block of the page dictionary; `None` when it has no `"lines"` key
      (an image block). */
  datatype Block = Block(lines: Option<seq<TextLine>>)

  /** The spans of some lines, in reading order. */
  function LineSpans(lines: seq<TextLine>): seq<Span> {
    if lines == [] then [] else lines[0].spans + LineSpans(lines[1..])
  }

  function BlockSpans(b: Block): seq<Span> {
    match b.lines
    case None => []
    case Some(lines) => LineSpans(lines)
  }

  /** The spans of a page, in reading order. */
  function PageSpans(blocks: seq<Block>): seq<Span> {
    if blocks == [] then [] else BlockSpans(blocks[0]) + PageSpans(blocks[1..])
  }

  lemma {:induction false} LineSpansAppend(a: seq<TextLine>, b: seq<TextLine>)
    ensures LineSpans(a + b) == LineSpans(a) + LineSpans(b)
  {
    if a == [] {
      assert a + b == b;
    } else {
      assert (a + b)[0] == a[0];
      assert (a + b)[1..] == a[1..] + b;
      LineSpansAppend(a[1..], b);
    }
  }

  lemma {:induction false} PageSpansAppend(a: seq<Block>, b: seq<Block>)
    ensures PageSpans(a + b) == PageSpans(a) + PageSpans(b)
  {
    if a == [] {
      assert a + b == b;
    } else {
      assert (a + b)[0] == a[0];
      assert (a + b)[1..] == a[1..] + b;
      PageSpansAppend(a[1..], b);
    }
  }

  lemma LineSpansSnoc(a: seq<TextLine>, x: TextLine)
    ensures LineSpans(a + [x]) == LineSpans(a) + x.spans
  {
    LineSpansAppend(a, [x]);
    assert [x][1..] == [];
  }

  lemma PageSpansSnoc(a: seq<Block>, x: Block)
    ensures PageSpans(a + [x]) == PageSpans(a) + BlockSpans(x)
  {
    PageSpansAppend(a, [x]);
    assert [x][1..] == [];
  }

  /** A block without lines contributes no span, wherever it stands. */
  lemma ImageBlockIgnored(before: seq<Block>, image: Block, after: seq<Block>)
    requires image.lines.None?
    ensures PageSpans(before + [image] + after) == PageSpans(before + after)
  {
    PageSpansAppend(before + [image], after);
    PageSpansSnoc(before, image);
    PageSpansAppend(before, after);
  }

  // ---------------------------------------------------------------------
  // split_sections_layout
  // ---------------------------------------------------------------------

  /** `re.match(r"^\d+\.\s|^\d+\)\s|^\(\d+\)", text)`: digits then `.` or `)`
      then whitespace, or digits in parentheses. */
  predicate StartsNumbered(t: string) {
    var n := DigitRun(t);
    || (n >= 1 && n + 1 < |t| && (t[n] == '.' || t[n] == ')') && IsSpace(t[n + 1]))
    || (|t| >= 1 && t[0] == '(' && var m := DigitRun(t[1..]); m >= 1 && m + 1 < |t| && t[m + 1] == ')')
  }

  /** Python truthiness of `last_font`: neither `None` nor zero. */
  predicate Truthy(lastFont: Option<real>) {
    lastFont.Some? && lastFont.value != 0.0
  }

  /** A span opens a new section when its font grows by more than 1.2 over a
      truthy previous size, or when its text starts like a list item. */
  predicate StartsSection(lastFont: Option<real>, text: string, size: real) {
    (Truthy(lastFont) && size > lastFont.value + 1.2) || StartsNumbered(text)
  }

  /** The loop state: the flushed buffers (each becomes one section), the
      open buffer and the previous span's size. */
  datatype Layout = Layout(groups: seq<seq<string>>, buffer: seq<string>, lastFont: Option<real>)

  /** One span read by the loop. */
  function Feed(st: Layout, sp: Span): Layout {
    var text := Strip(sp.text);
    var flush := StartsSection(st.lastFont, text, sp.size) && st.buffer != [];
    Layout(if flush then st.groups + [st.buffer] else st.groups,
           (if flush then [] else st.buffer) + [text],
           Some(sp.size))
  }

  function FeedAll(spans: seq<Span>): Layout {
    if spans == [] then Layout([], [], None)
    else Feed(FeedAll(spans[..|spans| - 1]), spans[|spans| - 1])
  }

  /** The section buffers after the final flush. */
  function SectionGroups(spans: seq<Span>): seq<seq<string>> {
    var st := FeedAll(spans);
    st.groups + (if st.buffer != [] then [st.buffer] else [])
  }

  function JoinEach(groups: seq<seq<string>>): seq<string> {
    seq(|groups|, i requires 0 <= i < |groups| => Join("\n", groups[i]))
  }

  /** What `split_sections_layout` returns for a page. */
  function SplitSectionsLayout(blocks: seq<Block>): seq<string> {
    JoinEach(SectionGroups(PageSpans(blocks)))
  }

  /** The stripped span texts, in order. */
  function Texts(spans: seq<Span>): seq<string> {
    seq(|spans|, k requires 0 <= k < |spans| => Strip(spans[k].text))
  }

  /** Span `k` opens a section: it is the first span, or it starts one with
      respect to the span before it. */
  predicate IsStart(spans: seq<Span>, k: nat)
    requires k < |spans|
  {
    k == 0 || StartsSection(Some(spans[k - 1].size), Strip(spans[k].text), spans[k].size)
  }

  function Starts(spans: seq<Span>): seq<bool> {
    seq(|spans|, k requires 0 <= k < |spans| => IsStart(spans, k))
  }

  /** The groups laid end to end. */
  function Flatten(groups: seq<seq<string>>): seq<string> {
    if groups == [] then [] else Flatten(groups[..|groups| - 1]) + groups[|groups| - 1]
  }

  /** `true` at the position of each group's first element, `false` at the
      others. */
  function StartMask(groups: seq<seq<string>>): seq<bool> {
    if groups == [] then []
    else
      StartMask(groups[..|groups| - 1]) + FirstMask(|groups[|groups| - 1]|)
  }

  function FirstMask(n: nat): seq<bool> {
    seq(n, j requires 0 <= j < n => j == 0)
  }

  lemma FirstMaskGrow(n: nat)
    requires n >= 1
    ensures FirstMask(n + 1) == FirstMask(n) + [false]
  {
  }

  /** After some spans, the buffer is open exactly when a span was read, and
      `last_font` is the size of the last one. */
  lemma {:induction false} FeedAllState(spans: seq<Span>)
    ensures FeedAll(spans).buffer != [] <==> spans != []
    ensures FeedAll(spans).lastFont == if spans == [] then None else Some(spans[|spans| - 1].size)
  {
  }

  lemma StartsSnoc(spans: seq<Span>, sp: Span)
    ensures Starts(spans + [sp]) == Starts(spans) + [IsStart(spans + [sp], |spans|)]
  {
    var t := spans + [sp];
    forall k | 0 <= k < |spans|
      ensures IsStart(t, k) == IsStart(spans, k)
    {
      assert t[k] == spans[k];
      if k > 0 {
        assert t[k - 1] == spans[k - 1];
      }
    }
  }

  lemma TextsSnoc(spans: seq<Span>, sp: Span)
    ensures Texts(spans + [sp]) == Texts(spans) + [Strip(sp.text)]
  {
  }

  /** A span that opens a section starts a new group holding its text. */
  lemma GroupsSnocStart(spans: seq<Span>, sp: Span)
    requires IsStart(spans + [sp], |spans|)
    ensures SectionGroups(spans + [sp]) == SectionGroups(spans) + [[Strip(sp.text)]]
  {
    var s, t := spans + [sp], Strip(sp.text);
    assert s[..|s| - 1] == spans && s[|spans|] == sp;
    FeedAllState(spans);
    var st := FeedAll(spans);
    assert FeedAll(s) == Feed(st, sp);
    if spans == [] {
      assert SectionGroups(spans) == [];
      assert FeedAll(s) == Layout([], [t], Some(sp.size));
    } else {
      assert s[|spans| - 1] == spans[|spans| - 1];
      assert FeedAll(s) == Layout(st.groups + [st.buffer], [t], Some(sp.size));
    }
  }

  /** Any other span extends the last group with its text. */
  lemma GroupsSnocExtend(spans: seq<Span>, sp: Span)
    requires !IsStart(spans + [sp], |spans|)
    ensures var g := SectionGroups(spans);
      g != [] && SectionGroups(spans + [sp]) == g[..|g| - 1] + [g[|g| - 1] + [Strip(sp.text)]]
  {
    var s, t := spans + [sp], Strip(sp.text);
    assert s[..|s| - 1] == spans && s[|spans|] == sp;
    assert s[|spans| - 1] == spans[|spans| - 1];
    FeedAllState(spans);
    var st := FeedAll(spans);
    assert FeedAll(s) == Feed(st, sp);
    var g := st.groups + [st.buffer];
    assert SectionGroups(spans) == g;
    assert FeedAll(s) == Layout(st.groups, st.buffer + [t], Some(sp.size));
    assert g[..|g| - 1] == st.groups;
  }

  lemma FlattenNewGroup(g: seq<seq<string>>, t: string)
    ensures Flatten(g + [[t]]) == Flatten(g) + [t]
  {
    assert (g + [[t]])[..|g|] == g;
  }

  lemma FlattenExtend(g: seq<seq<string>>, t: string)
    requires g != []
    ensures Flatten(g[..|g| - 1] + [g[|g| - 1] + [t]]) == Flatten(g) + [t]
  {
    var h := g[..|g| - 1] + [g[|g| - 1] + [t]];
    assert h[..|h| - 1] == g[..|g| - 1];
    AppendAssoc(Flatten(g[..|g| - 1]), g[|g| - 1], [t]);
  }

  lemma StartMaskNewGroup(g: seq<seq<string>>, t: string)
    ensures StartMask(g + [[t]]) == StartMask(g) + [true]
  {
    assert (g + [[t]])[..|g|] == g;
    assert FirstMask(1) == [true];
  }

  lemma StartMaskExtend(g: seq<seq<string>>, t: string)
    requires g != [] && g[|g| - 1] != []
    ensures StartMask(g[..|g| - 1] + [g[|g| - 1] + [t]]) == StartMask(g) + [false]
  {
    var last := g[|g| - 1];
    var h := g[..|g| - 1] + [last + [t]];
    assert h[..|h| - 1] == g[..|g| - 1];
    FirstMaskGrow(|last|);
    AppendAssoc(StartMask(g[..|g| - 1]), FirstMask(|last|), [false]);
  }

  ghost predicate NoEmptyGroup(g: seq<seq<string>>) {
    forall i :: 0 <= i < |g| ==> g[i] != []
  }

  lemma NoEmptyGroupSnoc(g: seq<seq<string>>, x: seq<string>)
    requires forall i :: 0 <= i < |g| ==> g[i] != []
    requires x != []
    ensures NoEmptyGroup(g + [x])
  {
  }

  /** No section comes from an empty buffer. */
  lemma {:induction false} SectionGroupsNonEmpty(spans: seq<Span>)
    ensures NoEmptyGroup(SectionGroups(spans))
    decreases |spans|
  {
    if spans != [] {
      var init, sp := spans[..|spans| - 1], spans[|spans| - 1];
      assert spans == init + [sp];
      SectionGroupsNonEmpty(init);
      var g := SectionGroups(init);
      if IsStart(spans, |init|) {
        GroupsSnocStart(init, sp);
        NoEmptyGroupSnoc(g, [Strip(sp.text)]);
      } else {
        GroupsSnocExtend(init, sp);
        NoEmptyGroupSnoc(g[..|g| - 1], g[|g| - 1] + [Strip(sp.text)]);
      }
    }
  }

  /** Every span's stripped text lands in exactly one section, in page
      order. */
  lemma {:induction false} SectionGroupsKeepTexts(spans: seq<Span>)
    ensures Flatten(SectionGroups(spans)) == Texts(spans)
    decreases |spans|
  {
    if spans != [] {
      var init, sp := spans[..|spans| - 1], spans[|spans| - 1];
      assert spans == init + [sp];
      SectionGroupsKeepTexts(init);
      TextsSnoc(init, sp);
      if IsStart(spans, |init|) {
        GroupsSnocStart(init, sp);
        FlattenNewGroup(SectionGroups(init), Strip(sp.text));
      } else {
        GroupsSnocExtend(init, sp);
        FlattenExtend(SectionGroups(init), Strip(sp.text));
      }
    }
  }

  /** A section begins exactly at the spans that open one: the first span,
      a font jump over a truthy previous size, or a list number. */
  lemma {:induction false} SectionGroupsStarts(spans: seq<Span>)
    ensures StartMask(SectionGroups(spans)) == Starts(spans)
    decreases |spans|
  {
    if spans != [] {
      var init, sp := spans[..|spans| - 1], spans[|spans| - 1];
      assert spans == init + [sp];
      SectionGroupsStarts(init);
      StartsSnoc(init, sp);
      if IsStart(spans, |init|) {
        GroupsSnocStart(init, sp);
        StartMaskNewGroup(SectionGroups(init), Strip(sp.text));
      } else {
        GroupsSnocExtend(init, sp);
        SectionGroupsNonEmpty(init);
        StartMaskExtend(SectionGroups(init), Strip(sp.text));
      }
    }
  }

  /** `split_sections_layout`: spans of blocks with lines, stripped, grouped
      into sections joined by `\n`. */
  method SplitSections(blocks: seq<Block>) returns (sections: seq<string>)
    ensures sections == SplitSectionsLayout(blocks)
  {
    sections := [];
    var buffer: seq<string> := [];
    var lastFont: Option<real> := None;
    ghost var groups: seq<seq<string>> := [];
    var b := 0;
    while b < |blocks|
      invariant 0 <= b <= |blocks|
      invariant Layout(groups, buffer, lastFont) == FeedAll(PageSpans(blocks[..b]))
      invariant sections == JoinEach(groups)
    {
      ghost var before := PageSpans(blocks[..b]);
      var block := blocks[b];
      BlockStep(blocks, b);
      if block.lines.Some? {
        sections, groups, buffer, lastFont := ReadBlock(sections, groups, buffer, lastFont, before, block.lines.value);
      }
      b := b + 1;
    }
    assert blocks[..b] == blocks;
    if buffer != [] {
      JoinEachSnoc(groups, buffer);
      sections := sections + [Join("\n", buffer)];
      groups := groups + [buffer];
    }
  }

  /** The loop over the lines of one block. */
  method ReadBlock(sections: seq<string>, ghost groups: seq<seq<string>>, buffer: seq<string>,
                   lastFont: Option<real>, ghost before: seq<Span>, lines: seq<TextLine>)
    returns (sections': seq<string>, ghost groups': seq<seq<string>>, buffer': seq<string>, lastFont': Option<real>)
    requires Layout(groups, buffer, lastFont) == FeedAll(before)
    requires sections == JoinEach(groups)
    ensures Layout(groups', buffer', lastFont') == FeedAll(before + LineSpans(lines[..|lines|]))
    ensures sections' == JoinEach(groups')
  {
    sections', groups', buffer', lastFont' := sections, groups, buffer, lastFont;
    var l := 0;
    assert before + LineSpans(lines[..0]) == before by {
      assert lines[..0] == [];
    }
    while l < |lines|
      invariant 0 <= l <= |lines|
      invariant Layout(groups', buffer', lastFont') == FeedAll(before + LineSpans(lines[..l]))
      invariant sections' == JoinEach(groups')
    {
      LineStep(before, lines, l);
      sections', groups', buffer', lastFont' :=
        ReadLine(sections', groups', buffer', lastFont', before + LineSpans(lines[..l]), lines[l].spans);
      l := l + 1;
    }
  }

  /** The loop over the spans of one line. */
  method ReadLine(sections: seq<string>, ghost groups: seq<seq<string>>, buffer: seq<string>,
                  lastFont: Option<real>, ghost done: seq<Span>, spans: seq<Span>)
    returns (sections': seq<string>, ghost groups': seq<seq<string>>, buffer': seq<string>, lastFont': Option<real>)
    requires Layout(groups, buffer, lastFont) == FeedAll(done)
    requires sections == JoinEach(groups)
    ensures Layout(groups', buffer', lastFont') == FeedAll(done + spans[..|spans|])
    ensures sections' == JoinEach(groups')
  {
    sections', groups', buffer', lastFont' := sections, groups, buffer, lastFont;
    var s := 0;
    assert done + spans[..0] == done;
    while s < |spans|
      invariant 0 <= s <= |spans|
      invariant Layout(groups', buffer', lastFont') == FeedAll(done + spans[..s])
      invariant sections' == JoinEach(groups')
    {
      SpanStep(done, spans, s);
      sections', groups', buffer', lastFont' := ReadSpan(sections', groups', buffer', lastFont', spans[s]);
      s := s + 1;
    }
  }

  /** The body of the span loop: flush the buffer on a font jump or a list
      number, then add the stripped text. */
  method ReadSpan(sections: seq<string>, ghost groups: seq<seq<string>>, buffer: seq<string>,
                  lastFont: Option<real>, span: Span)
    returns (sections': seq<string>, ghost groups': seq<seq<string>>, buffer': seq<string>, lastFont': Option<real>)
    requires sections == JoinEach(groups)
    ensures Layout(groups', buffer', lastFont') == Feed(Layout(groups, buffer, lastFont), span)
    ensures sections' == JoinEach(groups')
  {
    sections', groups', buffer' := sections, groups, buffer;
    var text := Strip(span.text);
    var font := span.size;
    if lastFont.Some? && lastFont.value != 0.0 && font > lastFont.value + 1.2 {
      if buffer' != [] {
        JoinEachSnoc(groups', buffer');
        sections' := sections' + [Join("\n", buffer')];
        groups' := groups' + [buffer'];
        buffer' := [];
      }
    }
    if StartsNumbered(text) {
      if buffer' != [] {
        JoinEachSnoc(groups', buffer');
        sections' := sections' + [Join("\n", buffer')];
        groups' := groups' + [buffer'];
        buffer' := [];
      }
    }
    buffer' := buffer' + [text];
    lastFont' := Some(font);
  }

  lemma JoinEachSnoc(groups: seq<seq<string>>, buffer: seq<string>)
    ensures JoinEach(groups + [buffer]) == JoinEach(groups) + [Join("\n", buffer)]
  {
  }

  /** Reading span `s` of a line. */
  lemma SpanStep(done: seq<Span>, spans: seq<Span>, s: nat)
    requires s < |spans|
    ensures FeedAll(done + spans[..s + 1]) == Feed(FeedAll(done + spans[..s]), spans[s])
  {
    TakeSnoc(spans, s);
    SnocAssoc(done, spans[s], []);
    assert done + spans[..s + 1] == (done + spans[..s]) + [spans[s]];
    FeedOne(done + spans[..s], spans[s]);
  }

  /** Finishing line `l` of a block. */
  lemma LineStep(before: seq<Span>, lines: seq<TextLine>, l: nat)
    requires l < |lines|
    ensures before + LineSpans(lines[..l + 1]) == before + LineSpans(lines[..l]) + lines[l].spans[..|lines[l].spans|]
  {
    TakeSnoc(lines, l);
    LineSpansSnoc(lines[..l], lines[l]);
    assert lines[l].spans[..|lines[l].spans|] == lines[l].spans;
  }

  /** Finishing block `b`; a block without lines adds nothing. */
  lemma BlockStep(blocks: seq<Block>, b: nat)
    requires b < |blocks|
    ensures blocks[b].lines.None? ==> PageSpans(blocks[..b + 1]) == PageSpans(blocks[..b])
    ensures blocks[b].lines.Some? ==> var lines := blocks[b].lines.value;
      PageSpans(blocks[..b + 1]) == PageSpans(blocks[..b]) + LineSpans(lines[..|lines|])
  {
    TakeSnoc(blocks, b);
    PageSpansSnoc(blocks[..b], blocks[b]);
    if blocks[b].lines.Some? {
      var lines := blocks[b].lines.value;
      assert lines[..|lines|] == lines;
    } else {
      assert PageSpans(blocks[..b]) + [] == PageSpans(blocks[..b]);
    }
  }

  lemma FeedOne(done: seq<Span>, sp: Span)
    ensures FeedAll(done + [sp]) == Feed(FeedAll(done), sp)
  {
    assert (done + [sp])[..|done|] == done;
  }

  // ---------------------------------------------------------------------
  // normalize_numbered_lines
  // ---------------------------------------------------------------------

  /** `re.fullmatch(r"\d+\.", t)`: one or more digits and a final dot. */
  predicate IsNumberMark(t: string) {
    |t| >= 2 && DigitRun(t) == |t| - 1 && t[|t| - 1] == '.'
  }

  /** The first line is a lone list number with a line after it. */
  predicate JoinsNext(ls: seq<string>) {
    |ls| > 1 && IsNumberMark(Strip(ls[0]))
  }

  /** The number, one space, and the next line left-stripped. */
  function JoinNumber(mark: string, next: string): (r: string)
    ensures r != ""
  {
    Strip(mark) + " " + LStrip(next)
  }

  /** The lines `normalize_numbered_lines` emits from the list it iterates.
      A number-only line with a successor is emitted joined with that
      successor, which is then overwritten with `""` in the list; other
      non-empty lines are emitted as they are. */
  function NumberedLines(ls: seq<string>): seq<string>
    decreases |ls|
  {
    if ls == [] then []
    else if JoinsNext(ls) then [JoinNumber(ls[0], ls[1])] + NumberedLines([""] + ls[2..])
    else if ls[0] != "" then [ls[0]] + NumberedLines(ls[1..])
    else NumberedLines(ls[1..])
  }

  /** The overwritten successor is never emitted a second time. */
  lemma ConsumedLineNotEmitted(rest: seq<string>)
    ensures NumberedLines([""] + rest) == NumberedLines(rest)
  {
    assert ([""] + rest)[1..] == rest;
  }

  /** There are never more output lines than input lines. */
  lemma {:induction false} NumberedLinesFewer(ls: seq<string>)
    ensures |NumberedLines(ls)| <= |ls|
    decreases |ls|
  {
    if ls != [] {
      if JoinsNext(ls) {
        NumberedLinesFewer([""] + ls[2..]);
      } else {
        NumberedLinesFewer(ls[1..]);
      }
    }
  }

  ghost predicate NoEmptyLine(ls: seq<string>) {
    forall i :: 0 <= i < |ls| ==> ls[i] != ""
  }

  lemma NoEmptyLineCons(x: string, ls: seq<string>)
    requires x != "" && NoEmptyLine(ls)
    ensures NoEmptyLine([x] + ls)
  {
    forall i | 0 < i < |ls| + 1
      ensures ([x] + ls)[i] != ""
    {
      assert ([x] + ls)[i] == ls[i - 1];
    }
  }

  /** No emitted line is empty. */
  lemma {:induction false} NumberedLinesNonEmpty(ls: seq<string>)
    ensures NoEmptyLine(NumberedLines(ls))
    decreases |ls|
  {
    if ls != [] {
      if JoinsNext(ls) {
        NumberedLinesNonEmpty([""] + ls[2..]);
        NoEmptyLineCons(JoinNumber(ls[0], ls[1]), NumberedLines([""] + ls[2..]));
      } else if ls[0] != "" {
        NumberedLinesNonEmpty(ls[1..]);
        NoEmptyLineCons(ls[0], NumberedLines(ls[1..]));
      } else {
        NumberedLinesNonEmpty(ls[1..]);
      }
    }
  }

  lemma JoinNumberKeepsVisible(a: string, b: string)
    ensures NonWs(JoinNumber(a, b)) == NonWs(a) + NonWs(b)
  {
    NonWsSpaced(Strip(a), LStrip(b));
    StripKeepsVisible(a);
    LStripKeepsVisible(b);
  }

  lemma ConsKeepsVisible(x: string, m: seq<string>)
    ensures NonWs(Concat([x] + m)) == NonWs(x) + NonWs(Concat(m))
  {
    assert Concat([x] + m) == x + Concat(m);
    NonWsAppend(x, Concat(m));
  }

  lemma NumberedLinesJoin(ls: seq<string>)
    requires JoinsNext(ls)
    ensures NumberedLines(ls) == [JoinNumber(ls[0], ls[1])] + NumberedLines(ls[2..])
  {
    ConsumedLineNotEmitted(ls[2..]);
  }

  lemma PairKeepsVisible(a: string, b: string, rest: seq<string>, out: seq<string>)
    requires NonWs(Concat(out)) == NonWs(Concat(rest))
    ensures NonWs(Concat([JoinNumber(a, b)] + out)) == NonWs(Concat([a] + ([b] + rest)))
  {
    ConsKeepsVisible(JoinNumber(a, b), out);
    JoinNumberKeepsVisible(a, b);
    ConsKeepsVisible(a, [b] + rest);
    ConsKeepsVisible(b, rest);
    AppendAssoc(NonWs(a), NonWs(b), NonWs(Concat(rest)));
  }

  lemma JoinStepKeepsVisible(ls: seq<string>)
    requires JoinsNext(ls)
    requires NonWs(Concat(NumberedLines(ls[2..]))) == NonWs(Concat(ls[2..]))
    ensures NonWs(Concat(NumberedLines(ls))) == NonWs(Concat(ls))
  {
    NumberedLinesJoin(ls);
    SplitFirstTwo(ls);
    PairKeepsVisible(ls[0], ls[1], ls[2..], NumberedLines(ls[2..]));
  }

  lemma KeepStepKeepsVisible(ls: seq<string>)
    requires ls != [] && !JoinsNext(ls)
    requires NonWs(Concat(NumberedLines(ls[1..]))) == NonWs(Concat(ls[1..]))
    ensures NonWs(Concat(NumberedLines(ls))) == NonWs(Concat(ls))
  {
    assert Concat(ls) == ls[0] + Concat(ls[1..]);
    NonWsAppend(ls[0], Concat(ls[1..]));
    if ls[0] != "" {
      ConsKeepsVisible(ls[0], NumberedLines(ls[1..]));
    }
  }

  /** Joining numbers with their successors only adds or removes
      whitespace: every visible character survives, in order. */
  lemma {:induction false} NumberedLinesKeepVisible(ls: seq<string>)
    ensures NonWs(Concat(NumberedLines(ls))) == NonWs(Concat(ls))
    decreases |ls|
  {
    if ls != [] {
      if JoinsNext(ls) {
        NumberedLinesKeepVisible(ls[2..]);
        JoinStepKeepsVisible(ls);
      } else {
        NumberedLinesKeepVisible(ls[1..]);
        KeepStepKeepsVisible(ls);
      }
    }
  }

  /** One step of the loop at index `i`, overwriting the successor it
      consumes. */
  lemma NumberedStep(ls: seq<string>, i: nat)
    requires i < |ls|
    ensures JoinsNext(ls[i..]) <==> IsNumberMark(Strip(ls[i])) && i + 1 < |ls|
    ensures NumberedLines(ls[i..]) ==
      if JoinsNext(ls[i..]) then [JoinNumber(ls[i], ls[i + 1])] + NumberedLines(ls[i + 1 := ""][i + 1..])
      else if ls[i] != "" then [ls[i]] + NumberedLines(ls[i + 1..])
      else NumberedLines(ls[i + 1..])
  {
    var t := ls[i..];
    assert t[0] == ls[i] && t[1..] == ls[i + 1..];
    if i + 1 < |ls| {
      assert t[1] == ls[i + 1];
      assert ls[i + 1 := ""][i + 1..] == [""] + t[2..];
    }
  }

  /** The loop of `normalize_numbered_lines` over its list of lines,
      overwriting a consumed successor in place. */
  method JoinNumberedLines(input: seq<string>) returns (merged: seq<string>)
    ensures merged == NumberedLines(input)
  {
    var lines := input;
    merged := [];
    var i := 0;
    while i < |lines|
      invariant 0 <= i <= |lines|
      invariant merged + NumberedLines(lines[i..]) == NumberedLines(input)
    {
      var line := lines[i];
      NumberedStep(lines, i);
      if IsNumberMark(Strip(line)) && i + 1 < |lines| {
        var joined := Strip(line) + " " + LStrip(lines[i + 1]);
        SnocAssoc(merged, joined, NumberedLines(lines[i + 1 := ""][i + 1..]));
        merged := merged + [joined];
        lines := lines[i + 1 := ""];
      } else if line != "" {
        SnocAssoc(merged, line, NumberedLines(lines[i + 1..]));
        merged := merged + [line];
      }
      i := i + 1;
    }
    assert lines[i..] == [];
  }

  /** `normalize_numbered_lines`: the lines of `text`, number lines joined
      with their successors, then joined again by `\n`. */
  method NormalizeNumberedLines(text: string) returns (r: string)
    ensures r == Join("\n", NumberedLines(SplitLines(text)))
  {
    var merged := JoinNumberedLines(SplitLines(text));
    r := Join("\n", merged);
  }
}

=== FILE: PromptRegistry.dfy ===
/** `PromptRegistry` (app/domain/llm/prompt/prompt_registry.py): the
    class-level dictionary of system prompts, filled by `init` and lazily
    by `get`, and the `basic_prompt` payload builder. The prompt wording is
    not part of this model: each template is an atom naming the builder
    that returns it. */
module PromptRegistry {
  import opened Wrappers

  /** `PromptType` (app/domain/llm/prompt/prompt_type.py). */
  datatype PromptType = DocumentClassification | Summarization | ChunkStrategy | MetadataExtraction

  /** The prompt builders: the five-type first classification prompt, the
      FORM/NORMAL prompt and the three task prompts. */
  datatype Template =
    | FirstDocumentClassification
    | FormOrNormalClassification
    | SummarizationPrompt
    | ChunkStrategyPrompt
    | MetadataExtractionPrompt

  /** The dictionary `init` assigns. */
  function Defaults(): (m: map<PromptType, Template>)
    ensures m.Keys == {DocumentClassification, Summarization, ChunkStrategy, MetadataExtraction}
    ensures m[DocumentClassification] == FormOrNormalClassification
    ensures FirstDocumentClassification !in m.Values
  {
    map[DocumentClassification := FormOrNormalClassification,
        Summarization := SummarizationPrompt,
        ChunkStrategy := ChunkStrategyPrompt,
        MetadataExtraction := MetadataExtractionPrompt]
  }

  /** `dict.get`: the stored template, or `None`. */
  function Lookup(m: map<PromptType, Template>, t: PromptType): (r: Option<Template>)
    ensures r.Some? <==> t in m
    ensures r.Some? ==> r.value == m[t]
  {
    if t in m then Some(m[t]) else None
  }

  /** Each prompt type has its own template. */
  lemma DefaultsInjective(s: PromptType, t: PromptType)
    requires s != t
    ensures Defaults()[s] != Defaults()[t]
  {
    var m := Defaults();
    match s
    case DocumentClassification =>
    case Summarization =>
    case ChunkStrategy =>
    case MetadataExtraction =>
  }

  /** The registry. The source keeps `_PROMPTS` on the class; one object
      stands for that class-level state here. */
  class Registry {
    var prompts: map<PromptType, Template>

    /** Importing the module: the class body sets `_PROMPTS = {}`, then the
        module's last line calls `init`. */
    constructor Import()
      ensures prompts == Defaults()
    {
      prompts := map[];
      new;
      Init();
    }

    /** `init`: assigns the four prompts, whatever was stored before, so
        calling it again rebuilds the same dictionary. */
    method Init()
      modifies this
      ensures prompts == Defaults()
    {
      prompts := Defaults();
    }

    /** `get`: an empty registry is initialised first; the result is the
        stored template or `None`. */
    method Get(t: PromptType) returns (r: Option<Template>)
      modifies this
      ensures old(prompts) == map[] ==> prompts == Defaults()
      ensures old(prompts) != map[] ==> prompts == old(prompts)
      ensures r == Lookup(prompts, t)
    {
      if prompts == map[] {
        Init();
      }
      r := Lookup(prompts, t);
    }
  }

  /** A registry that was filled by `init` answers every prompt type, and
      document classification gets the FORM/NORMAL prompt. */
  lemma GetAfterInit(t: PromptType)
    ensures Lookup(Defaults(), t).Some?
    ensures t == DocumentClassification ==> Lookup(Defaults(), t) == Some(FormOrNormalClassification)
  {
    match t
    case DocumentClassification =>
    case Summarization =>
    case ChunkStrategy =>
    case MetadataExtraction =>
  }

  // ---------------------------------------------------------------------
  // basic_prompt
  // ---------------------------------------------------------------------

  /** A JSON value as `json.dumps` would write it. */
  datatype Json = JStr(s: string) | JNum(n: int) | JList(items: seq<Json>) | JObj(fields: map<string, Json>) | JOpaque(id: nat)

  /** The `output_format` block: an `answer` list of text with a
      `file_name`/`page` source. */
  function OutputFormat(): Json {
    JObj(map["type" := JStr("json"),
             "schema" := JObj(map["answer" := JList([JObj(map["text" := JStr("string"),
                                                               "source" := JObj(map["file_name" := JStr("string"),
                                                                                    "page" := JStr("number")])])])])])
  }

  /** The two strings `basic_prompt` returns. The payload is kept as the
      value `json.dumps` serialises; the format instructions come from the
      JSON output parser, which is not part of this model. */
  datatype PromptInput = PromptInput(payload: Json, formatInstructions: string)

  /** `basic_prompt(x)`: reading `x["question"]` or `x["tool_outputs"]`
      raises `KeyError` when the key is missing; otherwise both are placed
      unchanged under `user_query` and `tool_outputs`. `instruction` is the
      fixed role-and-rules block, whose wording is not reproduced. */
  function BasicPrompt(x: map<string, Json>, instruction: Json, formatInstructions: string): (r: Result<PromptInput>)
    ensures r.Ok? <==> "question" in x && "tool_outputs" in x
    ensures "question" !in x ==> r == Err(KeyError("question"))
    ensures r.Ok? ==> r.value.formatInstructions == formatInstructions
  {
    if "question" !in x then Err(KeyError("question"))
    else if "tool_outputs" !in x then Err(KeyError("tool_outputs"))
    else
      var task := JObj(map["instruction" := instruction,
                           "user_query" := x["question"],
                           "tool_outputs" := x["tool_outputs"],
                           "output_format" := OutputFormat()]);
      Ok(PromptInput(JObj(map["assistant_task" := task]), formatInstructions))
  }

  /** The task block of a payload, if it has one. */
  function Task(payload: Json): Option<map<string, Json>> {
    if payload.JObj? && "assistant_task" in payload.fields && payload.fields["assistant_task"].JObj?
    then Some(payload.fields["assistant_task"].fields)
    else None
  }

  /** The question and the tool outputs can be read back from the payload
      exactly as given, next to the fixed instruction and output format. */
  lemma BasicPromptCarriesInput(x: map<string, Json>, instruction: Json, formatInstructions: string)
    requires "question" in x && "tool_outputs" in x
    ensures var r := BasicPrompt(x, instruction, formatInstructions);
      && r.Ok? && Task(r.value.payload).Some?
      && var task := Task(r.value.payload).value;
      && task.Keys == {"instruction", "user_query", "tool_outputs", "output_format"}
      && task["user_query"] == x["question"]
      && task["tool_outputs"] == x["tool_outputs"]
      && task["instruction"] == instruction
      && task["output_format"] == OutputFormat()
  {
  }
}

=== FILE: QuestionService.dfy ===
/** `QuestionService.normalize_docs`
    (app/application/service/question_service.py): turns the retrieved
    documents into the `tool_outputs` entries of the answer prompt. */
module QuestionService {
  import opened Docs

  /** The metadata keys copied into an entry's `source`. */
  const SourceKeys: set<string> := {"file_name", "page", "chunk_index"}

  /** `metadata.get(key)`: the stored value, or `None` for a missing key. */
  function MetaGet(metadata: map<string, Value>, key: string): Value {
    if key in metadata then metadata[key] else Null
  }

  /** One `{"content": …, "source": {…}}` entry. */
  datatype Entry = Entry(content: string, source: map<string, Value>)

  function Normalize(d: Doc): (e: Entry)
    ensures e.content == d.content
    ensures e.source.Keys == SourceKeys
    ensures forall key :: key in SourceKeys ==> e.source[key] == MetaGet(d.metadata, key)
  {
    Entry(d.content, map["file_name" := MetaGet(d.metadata, "file_name"),
                         "page" := MetaGet(d.metadata, "page"),
                         "chunk_index" := MetaGet(d.metadata, "chunk_index")])
  }

  /** `normalize_docs`: one entry per document, in order. */
  function NormalizeDocs(docs: seq<Doc>): (r: seq<Entry>)
    ensures |r| == |docs|
    ensures forall i :: 0 <= i < |docs| ==> r[i] == Normalize(docs[i])
  {
    seq(|docs|, i requires 0 <= i < |docs| => Normalize(docs[i]))
  }

  /** The metadata restricted to the three source keys. */
  function Restrict(metadata: map<string, Value>): (m: map<string, Value>)
    ensures m.Keys == metadata.Keys * SourceKeys
  {
    map key | key in metadata && key in SourceKeys :: metadata[key]
  }

  /** Nothing but the content and the three source keys reaches the
      output: dropping every other metadata key changes no entry. */
  lemma OnlySourceKeysMatter(docs: seq<Doc>)
    ensures NormalizeDocs(docs) == NormalizeDocs(seq(|docs|, i requires 0 <= i < |docs| => Doc(docs[i].content, Restrict(docs[i].metadata))))
  {
    var restricted := seq(|docs|, i requires 0 <= i < |docs| => Doc(docs[i].content, Restrict(docs[i].metadata)));
    forall i | 0 <= i < |docs| ensures Normalize(docs[i]) == Normalize(restricted[i]) {
      var m, m' := docs[i].metadata, restricted[i].metadata;
      assert forall key :: key in SourceKeys ==> MetaGet(m, key) == MetaGet(m', key);
    }
  }

  /** Normalising a concatenation normalises each part: entries follow the
      documents one for one and in order. */
  lemma NormalizeDocsAppend(a: seq<Doc>, b: seq<Doc>)
    ensures NormalizeDocs(a + b) == NormalizeDocs(a) + NormalizeDocs(b)
  {
  }
}

=== FILE: Strings.dfy ===
/** String helpers shared by the text-cleanup, classification and chunking
    modules: Python's whitespace class, `strip`/`lstrip`/`rstrip`, `join`,
    `splitlines`, `lower` and substring search, each with the facts the
    rest of the model relies on. */
module Strings {

  /** The characters Python's `str.isspace()` accepts; `\s`, `strip()`,
      `lstrip()` and `rstrip()` without arguments use the same set. */
  predicate IsSpace(c: char) {
    || ('\t' <= c <= '\r')
    || ('\U{1C}' <= c <= ' ')
    || c == '\U{85}' || c == '\U{A0}' || c == '\U{1680}'
    || ('\U{2000}' <= c <= '\U{200A}')
    || c == '\U{2028}' || c == '\U{2029}' || c == '\U{202F}' || c == '\U{205F}'
    || c == '\U{3000}'
  }

  /** The non-whitespace characters of `s`, in order: what a cleanup step
      that only touches whitespace must keep intact. */
  function NonWs(s: string): (r: string)
    ensures |r| <= |s|
  {
    if s == [] then [] else (if IsSpace(s[0]) then [] else [s[0]]) + NonWs(s[1..])
  }

  lemma {:induction false} NonWsAppend(a: string, b: string)
    ensures NonWs(a + b) == NonWs(a) + NonWs(b)
  {
    if a == [] {
      assert a + b == b;
    } else {
      assert (a + b)[1..] == a[1..] + b;
      NonWsAppend(a[1..], b);
      var head := if IsSpace(a[0]) then [] else [a[0]];
      assert NonWs(a + b) == head + NonWs(a[1..] + b);
      AppendAssoc(head, NonWs(a[1..]), NonWs(b));
    }
  }

  /** Joining two strings with one space adds no visible character. */
  lemma NonWsSpaced(a: string, b: string)
    ensures NonWs(a + " " + b) == NonWs(a) + NonWs(b)
  {
    NonWsAppend(a + " ", b);
    NonWsAppend(a, " ");
    assert NonWs(" ") == NonWs([]);
  }

  lemma {:induction false} NonWsAllSpace(s: string)
    requires forall i :: 0 <= i < |s| ==> IsSpace(s[i])
    ensures NonWs(s) == []
  {
    if s != [] {
      NonWsAllSpace(s[1..]);
    }
  }

  /** Python's `s.lstrip()`. */
  function LStrip(s: string): (r: string)
    ensures |r| <= |s|
    ensures r == [] || !IsSpace(r[0])
  {
    if s != [] && IsSpace(s[0]) then LStrip(s[1..]) else s
  }

  /** `lstrip` keeps a suffix. */
  lemma {:induction false} LStripSuffix(s: string)
    ensures LStrip(s) == s[|s| - |LStrip(s)|..]
  {
    if s != [] && IsSpace(s[0]) {
      LStripSuffix(s[1..]);
    }
  }

  /** What `lstrip` removes is whitespace only. */
  lemma {:induction false} LStripRemovesSpaces(s: string)
    ensures forall i :: 0 <= i < |s| - |LStrip(s)| ==> IsSpace(s[i])
  {
    if s != [] && IsSpace(s[0]) {
      LStripRemovesSpaces(s[1..]);
      assert forall i :: 1 <= i < |s| - |LStrip(s)| ==> s[i] == s[1..][i - 1];
    }
  }

  lemma {:induction false} LStripKeepsVisible(s: string)
    ensures NonWs(LStrip(s)) == NonWs(s)
  {
    if s != [] && IsSpace(s[0]) {
      LStripKeepsVisible(s[1..]);
    }
  }

  /** Python's `s.rstrip()`. */
  function RStrip(s: string): (r: string)
    ensures |r| <= |s|
    ensures r == [] || !IsSpace(r[|r| - 1])
  {
    if s != [] && IsSpace(s[|s| - 1]) then RStrip(s[..|s| - 1]) else s
  }

  /** `rstrip` keeps a prefix. */
  lemma {:induction false} RStripPrefix(s: string)
    ensures RStrip(s) == s[..|RStrip(s)|]
  {
    if s != [] && IsSpace(s[|s| - 1]) {
      RStripPrefix(s[..|s| - 1]);
    }
  }

  /** What `rstrip` removes is whitespace only. */
  lemma {:induction false} RStripRemovesSpaces(s: string)
    ensures forall i :: |RStrip(s)| <= i < |s| ==> IsSpace(s[i])
  {
    if s != [] && IsSpace(s[|s| - 1]) {
      RStripRemovesSpaces(s[..|s| - 1]);
    }
  }

  lemma {:induction false} RStripKeepsVisible(s: string)
    ensures NonWs(RStrip(s)) == NonWs(s)
  {
    if s != [] && IsSpace(s[|s| - 1]) {
      RStripKeepsVisible(s[..|s| - 1]);
      assert s == s[..|s| - 1] + [s[|s| - 1]];
      NonWsAppend(s[..|s| - 1], [s[|s| - 1]]);
    }
  }

  /** Python's `s.strip()`. */
  function Strip(s: string): (r: string)
    ensures |r| <= |s|
  {
    if s != [] && IsSpace(s[0]) then Strip(s[1..]) else RStrip(s)
  }

  /** What `strip` returns neither starts nor ends with whitespace. */
  lemma {:induction false} StripTrimsEnds(s: string)
    ensures Strip(s) == [] || (!IsSpace(Strip(s)[0]) && !IsSpace(Strip(s)[|Strip(s)| - 1]))
  {
    if s != [] && IsSpace(s[0]) {
      StripTrimsEnds(s[1..]);
    } else if RStrip(s) != [] {
      RStripPrefix(s);
      assert RStrip(s)[0] == s[0];
    }
  }

  /** `strip` is `lstrip` followed by `rstrip`. */
  lemma {:induction false} StripIsBoth(s: string)
    ensures Strip(s) == RStrip(LStrip(s))
  {
    if s != [] && IsSpace(s[0]) {
      StripIsBoth(s[1..]);
    }
  }

  lemma StripKeepsVisible(s: string)
    ensures NonWs(Strip(s)) == NonWs(s)
  {
    StripIsBoth(s);
    LStripKeepsVisible(s);
    RStripKeepsVisible(LStrip(s));
  }

  /** `s` is non-empty and its last character is visible. */
  predicate EndsVisible(s: string) {
    s != [] && !IsSpace(s[|s| - 1])
  }

  /** Left-stripping a string that ends visibly keeps its last character. */
  lemma {:induction false} LStripKeepsLast(s: string)
    requires EndsVisible(s)
    ensures EndsVisible(LStrip(s)) && LStrip(s)[|LStrip(s)| - 1] == s[|s| - 1]
  {
    if IsSpace(s[0]) {
      assert |s| > 1;
      assert s[1..][|s| - 2] == s[|s| - 1];
      LStripKeepsLast(s[1..]);
    }
  }

  /** On a string that ends visibly, `strip` only removes leading whitespace. */
  lemma StripEndsVisible(s: string)
    requires EndsVisible(s)
    ensures Strip(s) == LStrip(s)
    ensures EndsVisible(Strip(s)) && Strip(s)[|Strip(s)| - 1] == s[|s| - 1]
  {
    StripIsBoth(s);
    LStripKeepsLast(s);
  }

  /** `Strip(s)` is the slice of `s` that starts where `LStrip` stops. */
  lemma {:induction false} StripSlice(s: string)
    ensures |s| - |LStrip(s)| + |Strip(s)| <= |s|
    ensures Strip(s) == s[|s| - |LStrip(s)|..|s| - |LStrip(s)| + |Strip(s)|]
  {
    var l := LStrip(s);
    var r := RStrip(l);
    StripIsBoth(s);
    var k := |s| - |l|;
    LStripSuffix(s);
    RStripPrefix(l);
    assert l[..|r|] == s[k..k + |r|];
  }

  /** Stripping a string with no whitespace at either end changes nothing. */
  lemma StripTrimmed(s: string)
    requires s == [] || (!IsSpace(s[0]) && !IsSpace(s[|s| - 1]))
    ensures Strip(s) == s
  {
  }

  /** Python's `sep.join(parts)`. */
  function Join(sep: string, parts: seq<string>): string
  {
    if |parts| == 0 then ""
    else if |parts| == 1 then parts[0]
    else parts[0] + sep + Join(sep, parts[1..])
  }

  lemma {:induction false} JoinSnoc(sep: string, parts: seq<string>, x: string)
    requires |parts| >= 1
    ensures Join(sep, parts + [x]) == Join(sep, parts) + sep + x
  {
    if |parts| == 1 {
      assert (parts + [x])[1..] == [x];
    } else {
      assert (parts + [x])[1..] == parts[1..] + [x];
      JoinSnoc(sep, parts[1..], x);
    }
  }

  /** `"".join(parts)`. */
  function Concat(parts: seq<string>): string
  {
    if parts == [] then "" else parts[0] + Concat(parts[1..])
  }

  lemma {:induction false} ConcatAppend(a: seq<string>, b: seq<string>)
    ensures Concat(a + b) == Concat(a) + Concat(b)
  {
    if a == [] {
      assert a + b == b;
    } else {
      assert (a + b)[1..] == a[1..] + b;
      ConcatAppend(a[1..], b);
    }
  }

  /** Joining with a whitespace separator adds no visible character. */
  lemma {:induction false} NonWsJoin(sep: string, parts: seq<string>)
    requires forall i :: 0 <= i < |sep| ==> IsSpace(sep[i])
    ensures NonWs(Join(sep, parts)) == NonWs(Concat(parts))
  {
    if |parts| == 1 {
      assert parts[1..] == [];
      assert Concat(parts) == parts[0];
    } else if |parts| > 1 {
      NonWsJoin(sep, parts[1..]);
      NonWsAllSpace(sep);
      NonWsAppend(parts[0] + sep, Join(sep, parts[1..]));
      NonWsAppend(parts[0], sep);
      NonWsAppend(parts[0], Concat(parts[1..]));
    }
  }

  /** Two lists whose lines keep the same visible characters, line by line,
      keep the same visible characters when concatenated. */
  lemma {:induction false} NonWsConcatPointwise(a: seq<string>, b: seq<string>)
    requires |a| == |b|
    requires forall i :: 0 <= i < |a| ==> NonWs(a[i]) == NonWs(b[i])
    ensures NonWs(Concat(a)) == NonWs(Concat(b))
  {
    if a != [] {
      NonWsConcatPointwise(a[1..], b[1..]);
      NonWsAppend(a[0], Concat(a[1..]));
      NonWsAppend(b[0], Concat(b[1..]));
    }
  }

  /** A string with a visible character has visible characters. */
  lemma {:induction false} NonWsHasVisible(s: string, i: nat)
    requires i < |s| && !IsSpace(s[i])
    ensures NonWs(s) != []
  {
    if i > 0 {
      assert s[1..][i - 1] == s[i];
      NonWsHasVisible(s[1..], i - 1);
    }
  }

  /** Replacing characters by characters of the same class (whitespace by
      whitespace, anything else by itself) keeps the visible characters. */
  lemma {:induction false} NonWsPointwise(a: string, b: string)
    requires |a| == |b|
    requires forall i :: 0 <= i < |a| ==> a[i] == b[i] || (IsSpace(a[i]) && IsSpace(b[i]))
    ensures NonWs(a) == NonWs(b)
  {
    if a != [] {
      NonWsPointwise(a[1..], b[1..]);
    }
  }

  /** Length of the run of visible characters at the start of `s`. */
  function VisibleRun(s: string): (n: nat)
    ensures n <= |s|
    ensures forall i :: 0 <= i < n ==> !IsSpace(s[i])
    ensures n < |s| ==> IsSpace(s[n])
  {
    if s != [] && !IsSpace(s[0]) then 1 + VisibleRun(s[1..]) else 0
  }

  /** The visible run is fixed by where the first whitespace stands. */
  lemma VisibleRunIs(s: string, n: nat)
    requires n <= |s|
    requires forall i :: 0 <= i < n ==> !IsSpace(s[i])
    requires n < |s| ==> IsSpace(s[n])
    ensures VisibleRun(s) == n
  {
  }

  /** Python's `s.split()` without arguments: the maximal runs of visible
      characters, in order. */
  function Words(s: string): seq<string>
    decreases |s|
  {
    if s == [] then []
    else if IsSpace(s[0]) then Words(s[1..])
    else
      var n := VisibleRun(s);
      [s[..n]] + Words(s[n..])
  }

  /** Leading whitespace belongs to no word. */
  lemma {:induction false} WordsAfterSpaces(a: string, b: string)
    requires forall i :: 0 <= i < |a| ==> IsSpace(a[i])
    ensures Words(a + b) == Words(b)
  {
    if a == [] {
      assert a + b == b;
    } else {
      assert (a + b)[1..] == a[1..] + b;
      WordsAfterSpaces(a[1..], b);
    }
  }

  /** One whitespace character between two strings keeps their words apart:
      no word of `a` is fused with a word of `b`. */
  lemma {:induction false} WordsSeparated(a: string, w: char, b: string)
    requires IsSpace(w)
    ensures Words(a + [w] + b) == Words(a) + Words(b)
    decreases |a|
  {
    var s := a + [w] + b;
    if a == [] {
      assert s[1..] == b;
    } else if IsSpace(a[0]) {
      assert s[1..] == a[1..] + [w] + b;
      WordsSeparated(a[1..], w, b);
    } else {
      var n := VisibleRun(a);
      WordsSeparated(a[n..], w, b);
      WordsSeparatedStep(a, w, b, n);
    }
  }

  /** The step of `WordsSeparated` where `a` starts with a word. */
  lemma WordsSeparatedStep(a: string, w: char, b: string, n: nat)
    requires IsSpace(w) && a != [] && !IsSpace(a[0]) && n == VisibleRun(a)
    requires Words(a[n..] + [w] + b) == Words(a[n..]) + Words(b)
    ensures Words(a + [w] + b) == Words(a) + Words(b)
  {
    var tail := [w] + b;
    var s := a + tail;
    AppendAssoc(a, [w], b);
    assert forall i :: 0 <= i <= n && i < |a| ==> s[i] == a[i];
    VisibleRunIs(s, n);
    var head, rest := a[..n], a[n..];
    SliceAppend(a, tail, n);
    AppendAssoc(rest, [w], b);
    var ws, wa := Words(s), Words(a);
    assert ws == [head] + Words(rest + [w] + b);
    assert wa == [head] + Words(rest);
    AppendAssoc([head], Words(rest), Words(b));
  }

  /** Whitespace only: no word. */
  lemma WordsOfSpaces(s: string)
    requires forall i :: 0 <= i < |s| ==> IsSpace(s[i])
    ensures Words(s) == []
  {
    WordsAfterSpaces(s, []);
    assert s + [] == s;
  }

  /** Trailing whitespace belongs to no word. */
  lemma WordsBeforeSpaces(a: string, b: string)
    requires forall i :: 0 <= i < |b| ==> IsSpace(b[i])
    ensures Words(a + b) == Words(a)
  {
    if b == [] {
      assert a + b == a;
    } else {
      assert a + b == a + [b[0]] + b[1..];
      WordsSeparated(a, b[0], b[1..]);
      WordsOfSpaces(b[1..]);
      assert Words(a) + [] == Words(a);
    }
  }

  /** A visible character in front of a string joins its first word when
      the string starts visibly, and forms a word of its own otherwise. */
  lemma WordsCons(c: char, x: string)
    requires !IsSpace(c)
    ensures x != [] && !IsSpace(x[0]) ==> Words(x) != [] && Words([c] + x) == [[c] + Words(x)[0]] + Words(x)[1..]
    ensures x == [] || IsSpace(x[0]) ==> Words([c] + x) == [[c]] + Words(x)
  {
    var s := [c] + x;
    var m := VisibleRun(x);
    assert forall i :: 0 < i < |s| ==> s[i] == x[i - 1];
    VisibleRunIs(s, m + 1);
    assert s[..m + 1] == [c] + x[..m];
    assert s[m + 1..] == x[m..];
  }

  /** A visible character in front of two strings with the same words and
      the same kind of first character gives the same words. */
  lemma WordsConsSame(c: char, x: string, y: string)
    requires !IsSpace(c)
    requires Words(x) == Words(y)
    requires x == [] <==> y == []
    requires x != [] && y != [] ==> (IsSpace(x[0]) <==> IsSpace(y[0]))
    ensures Words([c] + x) == Words([c] + y)
  {
    WordsCons(c, x);
    WordsCons(c, y);
  }

  /** Replacing characters by characters of the same class (whitespace by
      whitespace, anything else by itself) keeps the words. */
  lemma {:induction false} WordsPointwise(a: string, b: string)
    requires |a| == |b|
    requires forall i :: 0 <= i < |a| ==> a[i] == b[i] || (IsSpace(a[i]) && IsSpace(b[i]))
    ensures Words(a) == Words(b)
    decreases |a|
  {
    if a != [] {
      if IsSpace(a[0]) {
        WordsPointwise(a[1..], b[1..]);
      } else {
        var n := VisibleRun(a);
        VisibleRunIs(b, n);
        assert a[..n] == b[..n];
        WordsPointwise(a[n..], b[n..]);
      }
    }
  }

  lemma {:induction false} WordsRStrip(s: string)
    ensures Words(RStrip(s)) == Words(s)
  {
    if s != [] && IsSpace(s[|s| - 1]) {
      WordsRStrip(s[..|s| - 1]);
      assert s == s[..|s| - 1] + [s[|s| - 1]] + [];
      WordsSeparated(s[..|s| - 1], s[|s| - 1], []);
    }
  }

  /** `strip` keeps the words. */
  lemma {:induction false} WordsStrip(s: string)
    ensures Words(Strip(s)) == Words(s)
  {
    if s != [] && IsSpace(s[0]) {
      WordsStrip(s[1..]);
    } else {
      WordsRStrip(s);
    }
  }

  /** The words of each line, in order. */
  function WordsOfLines(lines: seq<string>): seq<string>
  {
    if lines == [] then [] else Words(lines[0]) + WordsOfLines(lines[1..])
  }

  /** Joining lines with a line feed keeps the words of different lines
      apart. */
  lemma {:induction false} WordsJoinLines(lines: seq<string>)
    ensures Words(Join("\n", lines)) == WordsOfLines(lines)
  {
    if |lines| == 1 {
      assert lines[1..] == [];
    } else if |lines| > 1 {
      WordsJoinLines(lines[1..]);
      assert "\n" == ['\n'];
      WordsSeparated(lines[0], '\n', Join("\n", lines[1..]));
    }
  }

  /** Splitting into lines and joining them again keeps the words. */
  lemma WordsSplitLines(s: string)
    ensures Words(Join("\n", SplitLines(s))) == Words(s)
  {
    if s != [] && s[|s| - 1] == '\n' {
      SplitLinesDropsFinalBreak(s);
      WordsBeforeSpaces(Join("\n", SplitLines(s)), "\n");
    } else if s != [] {
      assert "\n" == ['\n'];
    }
  }

  /** Index of the first `c` in `s`, or `|s|` when there is none. */
  function IndexOf(s: string, c: char): (i: nat)
    ensures i <= |s|
    ensures i < |s| ==> s[i] == c
    ensures forall j :: 0 <= j < i ==> s[j] != c
  {
    if s == [] then 0 else if s[0] == c then 0 else 1 + IndexOf(s[1..], c)
  }

  /** Python's `s.split(c)` for a one-character separator: never empty, and
      joining the pieces back gives `s`. */
  function Split(s: string, c: char): (parts: seq<string>)
    ensures |parts| >= 1
    ensures forall k :: 0 <= k < |parts| ==> c !in parts[k]
    ensures Join([c], parts) == s
    decreases |s|
  {
    var i := IndexOf(s, c);
    if i == |s| then [s]
    else
      var rest := Split(s[i + 1..], c);
      assert ([s[..i]] + rest)[1..] == rest;
      assert s == s[..i] + [c] + s[i + 1..];
      [s[..i]] + rest
  }

  /** `sep` occurs in `s` at `j`. */
  predicate OccursAt(s: string, sep: string, j: nat) {
    j + |sep| <= |s| && s[j..j + |sep|] == sep
  }

  /** Index of the first occurrence of `sep` in `s`, or `|s|` when there is none. */
  function Find(s: string, sep: string): (i: nat)
    requires |sep| > 0
    ensures i <= |s|
    ensures i < |s| ==> OccursAt(s, sep, i)
    ensures forall j :: 0 <= j < i ==> !OccursAt(s, sep, j)
    decreases |s|
  {
    if |s| < |sep| then |s|
    else if s[..|sep|] == sep then 0
    else
      OccursShift(s, sep);
      1 + Find(s[1..], sep)
  }

  /** An occurrence at `j >= 1` is one at `j - 1` in the tail. */
  lemma OccursShift(s: string, sep: string)
    requires |s| >= 1
    ensures forall j: nat {:trigger OccursAt(s, sep, j)} :: 1 <= j ==> (OccursAt(s, sep, j) <==> OccursAt(s[1..], sep, j - 1))
  {
    forall j: nat | 1 <= j
      ensures OccursAt(s, sep, j) <==> OccursAt(s[1..], sep, j - 1)
    {
      if j + |sep| <= |s| {
        var a, b := s[j..j + |sep|], s[1..][j - 1..j - 1 + |sep|];
        forall k | 0 <= k < |sep| ensures a[k] == b[k] {
        }
        assert a == b;
      }
    }
  }

  /** Python's `s.split(sep)` for a non-empty separator. */
  function SplitOn(s: string, sep: string): (parts: seq<string>)
    requires |sep| > 0
    ensures |parts| >= 1
    ensures Join(sep, parts) == s
    decreases |s|
  {
    var i := Find(s, sep);
    if i == |s| then [s]
    else
      var rest := SplitOn(s[i + |sep|..], sep);
      assert ([s[..i]] + rest)[1..] == rest;
      assert s == s[..i] + sep + s[i + |sep|..];
      [s[..i]] + rest
  }

  /** Python's `s.splitlines()`, with `\n` as the only line boundary: the
      empty string has no lines and a final `\n` opens no empty line. */
  function SplitLines(s: string): (lines: seq<string>)
    ensures forall k :: 0 <= k < |lines| ==> '\n' !in lines[k]
  {
    if s == [] then []
    else
      var parts := Split(s, '\n');
      if s[|s| - 1] == '\n' then parts[..|parts| - 1] else parts
  }

  /** Splitting into lines and joining with `\n` loses no visible character. */
  lemma {:induction false} SplitLinesNonWs(s: string)
    ensures NonWs(Join("\n", SplitLines(s))) == NonWs(s)
  {
    if s != [] && s[|s| - 1] == '\n' {
      SplitLinesDropsFinalBreak(s);
      NonWsAppend(Join("\n", SplitLines(s)), "\n");
    } else if s != [] {
      assert "\n" == ['\n'];
    }
  }

  /** A final line feed ends the last line rather than starting an empty one. */
  lemma SplitLinesDropsFinalBreak(s: string)
    requires s != [] && s[|s| - 1] == '\n'
    ensures s == Join("\n", SplitLines(s)) + "\n"
  {
    var parts := Split(s, '\n');
    SplitEndingInSeparator(s, '\n');
    var init := parts[..|parts| - 1];
    assert parts == init + [[]];
    JoinSnoc("\n", init, []);
    assert "\n" == ['\n'];
  }

  /** Text that ends with the separator splits into at least two pieces,
      the last one empty: the separator cannot sit inside a piece, so the
      joined text ends with a separator only after an empty last piece. */
  lemma SplitEndingInSeparator(s: string, c: char)
    requires s != [] && s[|s| - 1] == c
    ensures |Split(s, c)| >= 2 && Split(s, c)[|Split(s, c)| - 1] == []
  {
    var parts := Split(s, c);
    JoinLastChar([c], parts);
  }

  /** A joined text ends with the last character of a non-empty last piece. */
  lemma {:induction false} JoinLastChar(sep: string, parts: seq<string>)
    requires |parts| >= 1
    ensures var j, l := Join(sep, parts), parts[|parts| - 1];
      l != [] ==> j != [] && j[|j| - 1] == l[|l| - 1]
    decreases |parts|
  {
    if |parts| > 1 {
      JoinLastChar(sep, parts[1..]);
      assert parts[1..][|parts| - 2] == parts[|parts| - 1];
    }
  }

  /** Python's `str.lower()` on the ASCII letters. */
  function LowerChar(c: char): char {
    if 'A' <= c <= 'Z' then (c as int + 32) as char else c
  }

  function Lower(s: string): (r: string)
    ensures |r| == |s|
    ensures forall i :: 0 <= i < |s| ==> r[i] == LowerChar(s[i])
  {
    seq(|s|, i requires 0 <= i < |s| => LowerChar(s[i]))
  }

  predicate StartsWith(s: string, p: string) {
    |p| <= |s| && s[..|p|] == p
  }

  /** Moving one element across a concatenation. */
  lemma SnocAssoc<T>(a: seq<T>, x: T, m: seq<T>)
    ensures a + [x] + m == a + ([x] + m)
  {
  }

  /** Slicing a concatenation inside its first part. */
  lemma SliceAppend<T>(a: seq<T>, c: seq<T>, n: nat)
    requires n <= |a|
    ensures (a + c)[..n] == a[..n]
    ensures (a + c)[n..] == a[n..] + c
  {
  }

  lemma AppendAssoc<T>(a: seq<T>, b: seq<T>, c: seq<T>)
    ensures a + b + c == a + (b + c)
  {
  }

  lemma SplitFirstTwo<T>(s: seq<T>)
    requires |s| >= 2
    ensures s == [s[0]] + ([s[1]] + s[2..])
  {
    assert s[1..] == [s[1]] + s[2..];
  }

  lemma TakeSnoc<T>(a: seq<T>, k: nat)
    requires k < |a|
    ensures a[..k + 1] == a[..k] + [a[k]]
  {
  }

  /** Python's `sub in s`. */
  predicate Contains(s: string, sub: string)
    decreases |s|
  {
    StartsWith(s, sub) || (|s| > 0 && Contains(s[1..], sub))
  }

  /** `Contains` finds exactly the positions where `sub` occurs. */
  lemma {:induction false} ContainsAt(s: string, sub: string, i: nat)
    requires i + |sub| <= |s| && s[i..i + |sub|] == sub
    ensures Contains(s, sub)
    decreases i
  {
    if i > 0 {
      assert s[1..][i - 1..i - 1 + |sub|] == s[i..i + |sub|];
      ContainsAt(s[1..], sub, i - 1);
    }
  }

  /** Python's `s.replace(a, b)` for single characters. */
  function ReplaceChar(s: string, a: char, b: char): (r: string)
    ensures |r| == |s|
    ensures forall i :: 0 <= i < |s| ==> r[i] == if s[i] == a then b else s[i]
  {
    seq(|s|, i requires 0 <= i < |s| => if s[i] == a then b else s[i])
  }

  predicate IsDigit(c: char) {
    '0' <= c <= '9'
  }

  /** Length of the run of ASCII digits at the start of `s`. */
  function DigitRun(s: string): (n: nat)
    ensures n <= |s|
    ensures forall i :: 0 <= i < n ==> IsDigit(s[i])
    ensures n < |s| ==> !IsDigit(s[n])
  {
    if s != [] && IsDigit(s[0]) then 1 + DigitRun(s[1..]) else 0
  }

  /** Length of the run of whitespace at the start of `s`. */
  function SpaceRun(s: string): (n: nat)
    ensures n <= |s|
    ensures forall i :: 0 <= i < n ==> IsSpace(s[i])
    ensures n < |s| ==> !IsSpace(s[n])
  {
    if s != [] && IsSpace(s[0]) then 1 + SpaceRun(s[1..]) else 0
  }

  /** The decimal digit for `d`. */
  function DigitChar(d: nat): (c: char)
    requires d < 10
    ensures IsDigit(c) && DigitValue(c) == d
  {
    ('0' as int + d) as char
  }

  /** `str(n)` for a non-negative integer: its decimal digits. */
  function NatToString(n: nat): (s: string)
    ensures |s| >= 1
    ensures forall i :: 0 <= i < |s| ==> IsDigit(s[i])
    decreases n
  {
    if n < 10 then [DigitChar(n)] else NatToString(n / 10) + [DigitChar(n % 10)]
  }

  /** The number a string of decimal digits denotes. */
  function DigitsValue(s: string): nat
    requires forall i :: 0 <= i < |s| ==> IsDigit(s[i])
  {
    if s == [] then 0 else DigitsValue(s[..|s| - 1]) * 10 + DigitValue(s[|s| - 1])
  }

  /** The value of one decimal digit. */
  function DigitValue(c: char): (d: nat)
    requires IsDigit(c)
    ensures d < 10
  {
    c as int - '0' as int
  }

  /** Reading the digits back gives the number. */
  lemma {:induction false} NatToStringRoundTrip(n: nat)
    ensures DigitsValue(NatToString(n)) == n
    decreases n
  {
    var s := NatToString(n);
    if n >= 10 {
      NatToStringRoundTrip(n / 10);
      assert s[..|s| - 1] == NatToString(n / 10);
    }
  }
}

=== FILE: TextParseProcessor.dfy ===
/** The cleanup steps `TextParseProcessor` applies to parsed document text:
    punctuation unification, repair of words split by a hyphen at a line
    break, whitespace normalisation and merging of broken lines, run in that
    order by `preprocess_text`. Unicode normalisation is an input (`nfkc`). */
module TextParseProcessor {
  import opened Strings
  import opened Wrappers

  // ---------------------------------------------------------------------
  // normalize_punctuation
  // ---------------------------------------------------------------------

  const NoBreakSpace: char := '\U{A0}'
  const ZeroWidthSpace: char := '\U{200B}'

  /** “ ” « » ‟ */
  predicate IsDoubleQuoteVariant(c: char) {
    c == '\U{201C}' || c == '\U{201D}' || c == '\U{AB}' || c == '\U{BB}' || c == '\U{201F}'
  }

  /** ‘ ’ ‚ ‛ */
  predicate IsSingleQuoteVariant(c: char) {
    c == '\U{2018}' || c == '\U{2019}' || c == '\U{201A}' || c == '\U{201B}'
  }

  /** The class `[‐-‒–—─]`: U+2010 to U+2012, the en and em dashes and the
      box-drawing horizontal line. */
  predicate IsDashVariant(c: char) {
    ('\U{2010}' <= c <= '\U{2012}') || c == '\U{2013}' || c == '\U{2014}' || c == '\U{2500}'
  }

  /** A character `normalize_punctuation` rewrites or deletes. */
  predicate IsPunctuationVariant(c: char) {
    IsDoubleQuoteVariant(c) || IsSingleQuoteVariant(c) || IsDashVariant(c)
    || c == NoBreakSpace || c == ZeroWidthSpace
  }

  /** The replacement for one character that is kept. */
  function UnifyChar(c: char): (u: char)
    requires c != ZeroWidthSpace
    ensures !IsPunctuationVariant(u)
    ensures IsDoubleQuoteVariant(c) ==> u == '"'
    ensures IsSingleQuoteVariant(c) ==> u == '\''
    ensures IsDashVariant(c) ==> u == '-'
    ensures c == NoBreakSpace ==> u == ' '
    ensures !IsPunctuationVariant(c) ==> u == c
  {
    if IsDoubleQuoteVariant(c) then '"'
    else if IsSingleQuoteVariant(c) then '\''
    else if IsDashVariant(c) then '-'
    else if c == NoBreakSpace then ' '
    else c
  }

  /** `normalize_punctuation`: the quote and dash substitutions, then U+00A0
      to a space and deletion of U+200B. The four passes touch disjoint
      character sets, so one pass per character does the same. */
  function NormalizePunctuation(s: string): (r: string)
    ensures forall i :: 0 <= i < |r| ==> !IsPunctuationVariant(r[i])
  {
    if s == [] then []
    else (if s[0] == ZeroWidthSpace then [] else [UnifyChar(s[0])]) + NormalizePunctuation(s[1..])
  }

  /** Only U+200B is deleted: the text shrinks by its number of occurrences. */
  lemma {:induction false} NormalizePunctuationLength(s: string)
    ensures |NormalizePunctuation(s)| == |s| - multiset(s)[ZeroWidthSpace]
  {
    if s != [] {
      NormalizePunctuationLength(s[1..]);
      assert s == [s[0]] + s[1..];
      assert multiset(s) == multiset([s[0]]) + multiset(s[1..]);
    }
  }

  /** Without U+200B, the step maps each character on its own. */
  lemma {:induction false} NormalizePunctuationPointwise(s: string)
    requires ZeroWidthSpace !in s
    ensures |NormalizePunctuation(s)| == |s|
    ensures forall i :: 0 <= i < |s| ==> NormalizePunctuation(s)[i] == UnifyChar(s[i])
  {
    if s != [] {
      assert ZeroWidthSpace !in s[1..] by {
        assert forall c :: c in s[1..] ==> c in s;
      }
      NormalizePunctuationPointwise(s[1..]);
      var r := NormalizePunctuation(s);
      assert r == [UnifyChar(s[0])] + NormalizePunctuation(s[1..]);
      forall i | 0 <= i < |s| ensures r[i] == UnifyChar(s[i]) {
        if i > 0 { assert r[i] == NormalizePunctuation(s[1..])[i - 1]; }
      }
    }
  }

  /** Text without any of the variants is left as it is. */
  lemma {:induction false} NormalizePunctuationIdentity(s: string)
    requires forall i :: 0 <= i < |s| ==> !IsPunctuationVariant(s[i])
    ensures NormalizePunctuation(s) == s
  {
    if s != [] {
      NormalizePunctuationIdentity(s[1..]);
    }
  }

  /** Running the step twice gives the same text as running it once. */
  lemma NormalizePunctuationIdempotent(s: string)
    ensures NormalizePunctuation(NormalizePunctuation(s)) == NormalizePunctuation(s)
  {
    NormalizePunctuationIdentity(NormalizePunctuation(s));
  }

  // ---------------------------------------------------------------------
  // fix_hyphenated_linebreaks: re.sub(r"(\w+)-\n(\w+)", r"\1\2", text)
  // ---------------------------------------------------------------------

  /** The word-character class `\w` is a parameter; it never contains the
      hyphen or the line feed. */
  predicate WordClass(isWord: char -> bool) {
    !isWord('-') && !isWord('\n')
  }

  /** End of the run of word characters starting at `i` (greedy `\w+`). */
  function WordRunEnd(isWord: char -> bool, s: string, i: nat): (e: nat)
    requires i <= |s|
    ensures i <= e <= |s|
    ensures i < e ==> isWord(s[i]) && isWord(s[e - 1])
    ensures e < |s| ==> !isWord(s[e])
    decreases |s| - i
  {
    if i < |s| && isWord(s[i]) then WordRunEnd(isWord, s, i + 1) else i
  }

  /** The match of `(\w+)-\n(\w+)` at position `i`, if any: the index of the
      hyphen and the end of the second word. Neither `-` nor `\n` is a word
      character, so backtracking can never find a shorter first group. */
  function HyphenBreakAt(isWord: char -> bool, s: string, i: nat): (m: Option<(nat, nat)>)
    requires i < |s|
    ensures m.Some? ==> i < m.value.0 && m.value.0 + 2 < m.value.1 <= |s|
    ensures m.Some? ==> s[m.value.0] == '-' && s[m.value.0 + 1] == '\n'
  {
    if !isWord(s[i]) then None
    else
      var q := WordRunEnd(isWord, s, i);
      if q + 2 < |s| && s[q] == '-' && s[q + 1] == '\n' && isWord(s[q + 2]) then
        Some((q, WordRunEnd(isWord, s, q + 2)))
      else None
  }

  /** `re.sub` from position `i`: try to match at each position, replace a
      match by its two groups and resume after it, otherwise copy one
      character. */
  function FixFrom(isWord: char -> bool, s: string, i: nat): string
    requires i <= |s|
    decreases |s| - i
  {
    if i == |s| then []
    else
      match HyphenBreakAt(isWord, s, i)
      case Some((q, e)) => s[i..q] + s[q + 2..e] + FixFrom(isWord, s, e)
      case None => [s[i]] + FixFrom(isWord, s, i + 1)
  }

  /** `fix_hyphenated_linebreaks`: the text with exactly the hyphen and
      line feed of each match removed, each match a hyphen at a line break
      between two word characters; nothing but hyphens and line feeds goes. */
  function FixHyphenatedLinebreaks(isWord: char -> bool, s: string): (r: string)
    requires WordClass(isWord)
    ensures r == DeleteAt(s, 0, MatchedPairs(FixMatches(isWord, s, 0)))
    ensures forall q :: q in FixMatches(isWord, s, 0) ==> HyphenBreakBetweenWords(isWord, s, q)
    ensures WithoutHyphensAndBreaks(r) == WithoutHyphensAndBreaks(s)
  {
    FixFromDeletesMatches(isWord, s, 0);
    FixFromKeepsText(isWord, s, 0);
    assert s[0..] == s;
    FixFrom(isWord, s, 0)
  }

  /** The hyphen positions of the matches `re.sub` replaces from `i` on. */
  function FixMatches(isWord: char -> bool, s: string, i: nat): set<int>
    requires i <= |s|
    decreases |s| - i
  {
    if i == |s| then {}
    else
      match HyphenBreakAt(isWord, s, i)
      case Some((q, e)) => {q} + FixMatches(isWord, s, e)
      case None => FixMatches(isWord, s, i + 1)
  }

  /** Each hyphen position with the line feed after it. */
  function MatchedPairs(hyphens: set<int>): set<int> {
    hyphens + set q | q in hyphens :: q + 1
  }

  /** `s[i..]` without the characters at the positions in `del`. */
  function DeleteAt(s: string, i: nat, del: set<int>): string
    requires i <= |s|
    decreases |s| - i
  {
    if i == |s| then [] else (if i in del then [] else [s[i]]) + DeleteAt(s, i + 1, del)
  }

  /** Two deletion sets that agree from `i` on delete the same characters. */
  lemma {:induction false} DeleteAtAgree(s: string, i: nat, d1: set<int>, d2: set<int>)
    requires i <= |s|
    requires forall j :: i <= j < |s| ==> (j in d1 <==> j in d2)
    ensures DeleteAt(s, i, d1) == DeleteAt(s, i, d2)
    decreases |s| - i
  {
    if i < |s| {
      DeleteAtAgree(s, i + 1, d1, d2);
      var head := if i in d1 then [] else [s[i]];
      assert DeleteAt(s, i, d1) == head + DeleteAt(s, i + 1, d1);
      assert DeleteAt(s, i, d2) == head + DeleteAt(s, i + 1, d2);
    }
  }

  /** Positions outside `del` are copied. */
  lemma {:induction false} DeleteAtKeeps(s: string, i: nat, k: nat, del: set<int>)
    requires i <= k <= |s|
    requires forall j :: i <= j < k ==> j !in del
    ensures DeleteAt(s, i, del) == s[i..k] + DeleteAt(s, k, del)
    decreases k - i
  {
    if i < k {
      DeleteAtKeeps(s, i + 1, k, del);
      var rest := DeleteAt(s, k, del);
      assert DeleteAt(s, i, del) == [s[i]] + DeleteAt(s, i + 1, del);
      AppendAssoc([s[i]], s[i + 1..k], rest);
      assert [s[i]] + s[i + 1..k] == s[i..k];
    }
  }

  /** One step of `FixFromDeletesMatches` at a match. */
  lemma FixMatchStep(isWord: char -> bool, s: string, i: nat)
    requires i < |s| && HyphenBreakAt(isWord, s, i).Some?
    requires var e := HyphenBreakAt(isWord, s, i).value.1;
      && (forall q :: q in FixMatches(isWord, s, e) ==> e < q)
      && FixFrom(isWord, s, e) == DeleteAt(s, e, MatchedPairs(FixMatches(isWord, s, e)))
    ensures FixFrom(isWord, s, i) == DeleteAt(s, i, MatchedPairs(FixMatches(isWord, s, i)))
  {
    var m := HyphenBreakAt(isWord, s, i).value;
    var q, e := m.0, m.1;
    var later := FixMatches(isWord, s, e);
    assert FixMatches(isWord, s, i) == {q} + later;
    FixFromBreak(isWord, s, i);
    DeleteAroundMatch(s, i, q, e, later);
  }

  /** Deleting a match's hyphen and line feed, and the later matches'. */
  lemma DeleteAroundMatch(s: string, i: nat, q: nat, e: nat, later: set<int>)
    requires i <= q && q + 2 <= e <= |s|
    requires forall x :: x in later ==> e < x
    ensures DeleteAt(s, i, MatchedPairs({q} + later)) == s[i..q] + s[q + 2..e] + DeleteAt(s, e, MatchedPairs(later))
  {
    var del := MatchedPairs({q} + later);
    MatchedPairsAround(q, e, later);
    DeleteAtKeeps(s, i, q, del);
    DeletePair(s, q, del);
    DeleteAtKeeps(s, q + 2, e, del);
    DeleteAtAgree(s, e, del, MatchedPairs(later));
    AppendAssoc(s[i..q], s[q + 2..e], DeleteAt(s, e, del));
  }

  /** The positions deleted for a match at `q` and the later matches. */
  lemma MatchedPairsAround(q: int, e: int, later: set<int>)
    requires q + 2 <= e
    requires forall x :: x in later ==> e < x
    ensures q in MatchedPairs({q} + later) && q + 1 in MatchedPairs({q} + later)
    ensures forall j :: j in MatchedPairs({q} + later) ==> j == q || j == q + 1 || e < j
    ensures forall j :: e <= j ==> (j in MatchedPairs({q} + later) <==> j in MatchedPairs(later))
  {
    assert q + 1 in set x | x in {q} + later :: x + 1;
  }

  /** A hyphen and the line feed after it, both deleted. */
  lemma DeletePair(s: string, q: nat, del: set<int>)
    requires q + 2 <= |s| && q in del && q + 1 in del
    ensures DeleteAt(s, q, del) == DeleteAt(s, q + 2, del)
  {
    assert DeleteAt(s, q, del) == DeleteAt(s, q + 1, del);
  }

  /** One step of `FixFromDeletesMatches` where a character is copied. */
  lemma FixCopyStep(isWord: char -> bool, s: string, i: nat, next: nat)
    requires i < |s| && HyphenBreakAt(isWord, s, i).None? && next == i + 1
    requires forall q :: q in FixMatches(isWord, s, next) ==> next < q
    requires FixFrom(isWord, s, next) == DeleteAt(s, next, MatchedPairs(FixMatches(isWord, s, next)))
    ensures FixFrom(isWord, s, i) == DeleteAt(s, i, MatchedPairs(FixMatches(isWord, s, i)))
  {
    FixFromCopy(isWord, s, i);
    assert i !in MatchedPairs(FixMatches(isWord, s, next));
  }

  /** The repair removes exactly the hyphen and the line feed of each match
      it makes, and each match is a hyphen at a line break between two word
      characters. */
  lemma {:induction false} FixFromDeletesMatches(isWord: char -> bool, s: string, i: nat)
    requires i <= |s|
    ensures forall q :: q in FixMatches(isWord, s, i) ==> i < q && HyphenBreakBetweenWords(isWord, s, q)
    ensures FixFrom(isWord, s, i) == DeleteAt(s, i, MatchedPairs(FixMatches(isWord, s, i)))
    decreases |s| - i
  {
    if i < |s| {
      if HyphenBreakAt(isWord, s, i).Some? {
        var m := HyphenBreakAt(isWord, s, i).value;
        FixFromDeletesMatches(isWord, s, m.1);
        HyphenBreakIsBetweenWords(isWord, s, i);
        FixMatchStep(isWord, s, i);
        assert FixMatches(isWord, s, i) == {m.0} + FixMatches(isWord, s, m.1);
      } else {
        FixFromDeletesMatches(isWord, s, i + 1);
        FixCopyStep(isWord, s, i, i + 1);
      }
    }
  }

  /** A match found at `i` is a hyphen at a line break between two word
      characters. */
  lemma HyphenBreakIsBetweenWords(isWord: char -> bool, s: string, i: nat)
    requires i < |s| && HyphenBreakAt(isWord, s, i).Some?
    ensures HyphenBreakBetweenWords(isWord, s, HyphenBreakAt(isWord, s, i).value.0)
  {
  }

  /** `s` without its hyphens and line feeds. */
  function WithoutHyphensAndBreaks(s: string): string
  {
    if s == [] then []
    else (if s[0] == '-' || s[0] == '\n' then [] else [s[0]]) + WithoutHyphensAndBreaks(s[1..])
  }

  lemma {:induction false} WithoutHyphensAndBreaksAppend(a: string, b: string)
    ensures WithoutHyphensAndBreaks(a + b) == WithoutHyphensAndBreaks(a) + WithoutHyphensAndBreaks(b)
  {
    if a == [] {
      assert a + b == b;
    } else {
      assert (a + b)[1..] == a[1..] + b;
      WithoutHyphensAndBreaksAppend(a[1..], b);
    }
  }

  /** The repair only deletes hyphens and line feeds: every other character
      is kept, in order. */
  lemma {:induction false} FixFromKeepsText(isWord: char -> bool, s: string, i: nat)
    requires i <= |s|
    ensures WithoutHyphensAndBreaks(FixFrom(isWord, s, i)) == WithoutHyphensAndBreaks(s[i..])
    decreases |s| - i
  {
    if i < |s| {
      FixFromKeepsText(isWord, s, FixResume(isWord, s, i));
      if HyphenBreakAt(isWord, s, i).Some? {
        FixBreakKeepsText(isWord, s, i);
      } else {
        FixCopyKeepsText(isWord, s, i);
      }
    }
  }

  /** Where `FixFrom` resumes after position `i`: after the match, or at the
      next character. */
  function FixResume(isWord: char -> bool, s: string, i: nat): (n: nat)
    requires i < |s|
    ensures i < n <= |s|
  {
    match HyphenBreakAt(isWord, s, i)
    case Some((_, e)) => e
    case None => i + 1
  }

  /** One step of `FixFromKeepsText` at a match. */
  lemma FixBreakKeepsText(isWord: char -> bool, s: string, i: nat)
    requires i < |s| && HyphenBreakAt(isWord, s, i).Some?
    requires var e := HyphenBreakAt(isWord, s, i).value.1;
      WithoutHyphensAndBreaks(FixFrom(isWord, s, e)) == WithoutHyphensAndBreaks(s[e..])
    ensures WithoutHyphensAndBreaks(FixFrom(isWord, s, i)) == WithoutHyphensAndBreaks(s[i..])
  {
    var m := HyphenBreakAt(isWord, s, i).value;
    FixFromBreak(isWord, s, i);
    BreakStepKeepsText(s, i, m.0, m.1, FixFrom(isWord, s, i), FixFrom(isWord, s, m.1));
  }

  /** One step of `FixFromKeepsText` where one character is copied. */
  lemma FixCopyKeepsText(isWord: char -> bool, s: string, i: nat)
    requires i < |s| && HyphenBreakAt(isWord, s, i).None?
    requires WithoutHyphensAndBreaks(FixFrom(isWord, s, i + 1)) == WithoutHyphensAndBreaks(s[i + 1..])
    ensures WithoutHyphensAndBreaks(FixFrom(isWord, s, i)) == WithoutHyphensAndBreaks(s[i..])
  {
    FixFromCopy(isWord, s, i);
    CopyStepKeepsText(s, i, FixFrom(isWord, s, i), FixFrom(isWord, s, i + 1));
  }

  /** `FixFrom` at a match. */
  lemma FixFromBreak(isWord: char -> bool, s: string, i: nat)
    requires i < |s| && HyphenBreakAt(isWord, s, i).Some?
    ensures var m := HyphenBreakAt(isWord, s, i).value;
      FixFrom(isWord, s, i) == s[i..m.0] + s[m.0 + 2..m.1] + FixFrom(isWord, s, m.1)
  {
  }

  /** `FixFrom` where nothing matches. */
  lemma FixFromCopy(isWord: char -> bool, s: string, i: nat)
    requires i < |s| && HyphenBreakAt(isWord, s, i).None?
    ensures FixFrom(isWord, s, i) == [s[i]] + FixFrom(isWord, s, i + 1)
  {
  }

  /** The step of `FixFromKeepsText` where a match is replaced. */
  lemma BreakStepKeepsText(s: string, i: nat, q: nat, e: nat, r: string, rest: string)
    requires i <= q && q + 2 <= e <= |s|
    requires s[q] == '-' && s[q + 1] == '\n'
    requires r == s[i..q] + s[q + 2..e] + rest
    requires WithoutHyphensAndBreaks(rest) == WithoutHyphensAndBreaks(s[e..])
    ensures WithoutHyphensAndBreaks(r) == WithoutHyphensAndBreaks(s[i..])
  {
    SliceAroundBreak(s, i, q, e);
    HyphenBreakHasNoText(s[q..q + 2]);
    DroppingHyphenBreakKeepsText(s[i..q], s[q..q + 2], s[q + 2..e], s[e..], rest);
  }

  /** The step of `FixFromKeepsText` where one character is copied. */
  lemma CopyStepKeepsText(s: string, i: nat, r: string, rest: string)
    requires i < |s|
    requires r == [s[i]] + rest
    requires WithoutHyphensAndBreaks(rest) == WithoutHyphensAndBreaks(s[i + 1..])
    ensures WithoutHyphensAndBreaks(r) == WithoutHyphensAndBreaks(s[i..])
  {
    assert s[i..] == [s[i]] + s[i + 1..];
    KeepingFirstCharKeepsText(s[i], rest, s[i + 1..]);
  }


  lemma SliceAroundBreak(s: string, i: nat, q: nat, e: nat)
    requires i <= q && q + 2 <= e <= |s|
    ensures s[i..] == s[i..q] + s[q..q + 2] + s[q + 2..e] + s[e..]
  {
  }

  lemma KeepingFirstCharKeepsText(c: char, x: string, y: string)
    requires WithoutHyphensAndBreaks(x) == WithoutHyphensAndBreaks(y)
    ensures WithoutHyphensAndBreaks([c] + x) == WithoutHyphensAndBreaks([c] + y)
  {
    assert ([c] + x)[1..] == x;
    assert ([c] + y)[1..] == y;
  }

  lemma HyphenBreakHasNoText(h: string)
    requires |h| == 2 && h[0] == '-' && h[1] == '\n'
    ensures WithoutHyphensAndBreaks(h) == []
  {
    assert WithoutHyphensAndBreaks(h) == WithoutHyphensAndBreaks(h[1..]);
    assert WithoutHyphensAndBreaks(h[1..]) == WithoutHyphensAndBreaks(h[1..][1..]);
  }

  lemma WithoutHyphensAndBreaksSkip(a: string, h: string, b: string)
    requires WithoutHyphensAndBreaks(h) == []
    ensures WithoutHyphensAndBreaks(a + h + b) == WithoutHyphensAndBreaks(a) + WithoutHyphensAndBreaks(b)
  {
    WithoutHyphensAndBreaksAppend(a + h, b);
    WithoutHyphensAndBreaksAppend(a, h);
  }

  lemma DroppingHyphenBreakKeepsText(a: string, h: string, b: string, tail: string, rest: string)
    requires WithoutHyphensAndBreaks(h) == []
    requires WithoutHyphensAndBreaks(rest) == WithoutHyphensAndBreaks(tail)
    ensures WithoutHyphensAndBreaks(a + b + rest) == WithoutHyphensAndBreaks(a + h + b + tail)
  {
    WithoutHyphensAndBreaksAppend(a + h + b, tail);
    WithoutHyphensAndBreaksSkip(a, h, b);
    WithoutHyphensAndBreaksAppend(a + b, rest);
    WithoutHyphensAndBreaksAppend(a, b);
  }

  /** The number of `c` in `s`. */
  function Occurrences(s: string, c: char): nat
  {
    if s == [] then 0 else (if s[0] == c then 1 else 0) + Occurrences(s[1..], c)
  }

  lemma {:induction false} OccurrencesAppend(a: string, b: string, c: char)
    ensures Occurrences(a + b, c) == Occurrences(a, c) + Occurrences(b, c)
  {
    if a == [] {
      assert a + b == b;
    } else {
      assert (a + b)[1..] == a[1..] + b;
      OccurrencesAppend(a[1..], b, c);
    }
  }

  /** `r` is `t` with some hyphens and as many line feeds removed, and
      nothing else. */
  ghost predicate PairsDeleted(t: string, r: string) {
    && Occurrences(r, '-') <= Occurrences(t, '-')
    && Occurrences(t, '-') + Occurrences(r, '\n') == Occurrences(r, '-') + Occurrences(t, '\n')
    && |t| + 2 * Occurrences(r, '-') == |r| + 2 * Occurrences(t, '-')
  }

  /** Each repair removes one hyphen and one line feed, the adjacent `-\n`
      of a match between two word characters: as many line feeds as hyphens
      go, the text shrinks by two per hyphen removed, and the characters
      removed are exactly those at the matches' hyphen positions and the
      positions after them. */
  lemma {:induction false} FixFromDeletesPairs(isWord: char -> bool, s: string, i: nat)
    requires i <= |s|
    ensures PairsDeleted(s[i..], FixFrom(isWord, s, i))
    ensures forall q :: q in FixMatches(isWord, s, i) ==> i < q && HyphenBreakBetweenWords(isWord, s, q)
    ensures FixFrom(isWord, s, i) == DeleteAt(s, i, MatchedPairs(FixMatches(isWord, s, i)))
    decreases |s| - i
  {
    FixFromDeletesMatches(isWord, s, i);
    if i < |s| {
      FixFromDeletesPairs(isWord, s, FixResume(isWord, s, i));
      FixStepDeletesPairs(isWord, s, i);
    }
  }

  /** One step of `FixFromDeletesPairs`. */
  lemma FixStepDeletesPairs(isWord: char -> bool, s: string, i: nat)
    requires i < |s|
    requires var n := FixResume(isWord, s, i); PairsDeleted(s[n..], FixFrom(isWord, s, n))
    ensures PairsDeleted(s[i..], FixFrom(isWord, s, i))
  {
    if HyphenBreakAt(isWord, s, i).Some? {
      var m := HyphenBreakAt(isWord, s, i).value;
      FixFromBreak(isWord, s, i);
      BreakStepDeletesPair(s, i, m.0, m.1, FixFrom(isWord, s, i), FixFrom(isWord, s, m.1));
    } else {
      FixFromCopy(isWord, s, i);
      CopyStepDeletesNothing(s, i, FixFrom(isWord, s, i), FixFrom(isWord, s, i + 1));
    }
  }

  /** The step of `FixFromDeletesPairs` where a match is replaced. */
  lemma BreakStepDeletesPair(s: string, i: nat, q: nat, e: nat, r: string, rest: string)
    requires i <= q && q + 2 <= e <= |s|
    requires s[q] == '-' && s[q + 1] == '\n'
    requires r == s[i..q] + s[q + 2..e] + rest
    requires PairsDeleted(s[e..], rest)
    ensures PairsDeleted(s[i..], r)
  {
    SliceAroundBreak(s, i, q, e);
    HyphenBreakCounts(s[q..q + 2]);
    PairsDeletedAroundBreak(s[i..q], s[q..q + 2], s[q + 2..e], s[e..], rest);
  }

  /** The step of `FixFromDeletesPairs` where one character is copied. */
  lemma CopyStepDeletesNothing(s: string, i: nat, r: string, rest: string)
    requires i < |s|
    requires r == [s[i]] + rest
    requires PairsDeleted(s[i + 1..], rest)
    ensures PairsDeleted(s[i..], r)
  {
    assert s[i..] == [s[i]] + s[i + 1..];
    PairsDeletedCons(s[i], s[i + 1..], rest);
  }

  lemma PairsDeletedAroundBreak(a: string, h: string, b: string, tail: string, rest: string)
    requires |h| == 2 && Occurrences(h, '-') == 1 && Occurrences(h, '\n') == 1
    requires PairsDeleted(tail, rest)
    ensures PairsDeleted(a + h + b + tail, a + b + rest)
  {
    OccurrencesOfFour(a, h, b, tail, '-');
    OccurrencesOfFour(a, h, b, tail, '\n');
    OccurrencesOfThree(a, b, rest, '-');
    OccurrencesOfThree(a, b, rest, '\n');
  }

  lemma PairsDeletedCons(c: char, tail: string, rest: string)
    requires PairsDeleted(tail, rest)
    ensures PairsDeleted([c] + tail, [c] + rest)
  {
    OccurrencesAppend([c], rest, '-');
    OccurrencesAppend([c], rest, '\n');
    OccurrencesAppend([c], tail, '-');
    OccurrencesAppend([c], tail, '\n');
  }

  lemma OccurrencesOfFour(a: string, h: string, b: string, tail: string, c: char)
    ensures Occurrences(a + h + b + tail, c) == Occurrences(a, c) + Occurrences(h, c) + Occurrences(b, c) + Occurrences(tail, c)
  {
    OccurrencesAppend(a + h + b, tail, c);
    OccurrencesAppend(a + h, b, c);
    OccurrencesAppend(a, h, c);
  }

  lemma OccurrencesOfThree(a: string, b: string, rest: string, c: char)
    ensures Occurrences(a + b + rest, c) == Occurrences(a, c) + Occurrences(b, c) + Occurrences(rest, c)
  {
    OccurrencesAppend(a + b, rest, c);
    OccurrencesAppend(a, b, c);
  }

  lemma HyphenBreakCounts(h: string)
    requires |h| == 2 && h[0] == '-' && h[1] == '\n'
    ensures Occurrences(h, '-') == 1 && Occurrences(h, '\n') == 1
  {
    assert h[1..][1..] == [];
    assert Occurrences(h[1..], '-') == 0 + Occurrences(h[1..][1..], '-');
    assert Occurrences(h[1..], '\n') == 1 + Occurrences(h[1..][1..], '\n');
  }

  /** A word character, a hyphen, a line feed and a word character, at `q - 1`. */
  predicate HyphenBreakBetweenWords(isWord: char -> bool, s: string, q: int) {
    1 <= q && q + 2 < |s| && isWord(s[q - 1]) && s[q] == '-' && s[q + 1] == '\n' && isWord(s[q + 2])
  }

  /** Text in which no hyphen at a line break sits between word characters
      comes out unchanged. */
  lemma {:induction false} FixFromIdentity(isWord: char -> bool, s: string, i: nat)
    requires WordClass(isWord) && i <= |s|
    requires forall q :: 0 <= q < |s| ==> !HyphenBreakBetweenWords(isWord, s, q)
    ensures FixFrom(isWord, s, i) == s[i..]
    decreases |s| - i
  {
    if i < |s| {
      NoHyphenBreakAt(isWord, s, i);
      FixFromIdentity(isWord, s, i + 1);
      CopyStepIdentity(isWord, s, i);
    }
  }

  /** One step of `FixFromIdentity`. */
  lemma CopyStepIdentity(isWord: char -> bool, s: string, i: nat)
    requires i < |s| && HyphenBreakAt(isWord, s, i).None?
    requires FixFrom(isWord, s, i + 1) == s[i + 1..]
    ensures FixFrom(isWord, s, i) == s[i..]
  {
    FixFromCopy(isWord, s, i);
    assert s[i..] == [s[i]] + s[i + 1..];
  }

  lemma NoHyphenBreakAt(isWord: char -> bool, s: string, i: nat)
    requires WordClass(isWord) && i < |s|
    requires forall q :: 0 <= q < |s| ==> !HyphenBreakBetweenWords(isWord, s, q)
    ensures HyphenBreakAt(isWord, s, i).None?
  {
    assert !HyphenBreakBetweenWords(isWord, s, WordRunEnd(isWord, s, i));
  }

  lemma FixHyphenatedIdentity(isWord: char -> bool, s: string)
    requires WordClass(isWord)
    requires forall q :: 0 <= q < |s| ==> !HyphenBreakBetweenWords(isWord, s, q)
    ensures FixHyphenatedLinebreaks(isWord, s) == s
  {
    FixFromIdentity(isWord, s, 0);
  }

  /** `"금-\n융"` becomes `"금융"`. */
  lemma FixHyphenatedJoinsWord(isWord: char -> bool)
    requires WordClass(isWord) && isWord('금') && isWord('융')
    ensures FixHyphenatedLinebreaks(isWord, "금-\n융") == "금융"
  {
    var s := "금-\n융";
    assert WordRunEnd(isWord, s, 3) == 4;
    assert WordRunEnd(isWord, s, 1) == 1;
    assert WordRunEnd(isWord, s, 0) == 1;
    assert HyphenBreakAt(isWord, s, 0) == Some((1, 4));
    assert FixFrom(isWord, s, 4) == [];
    assert s[0..1] + s[3..4] == "금융";
  }

  /** One left-to-right pass with non-overlapping matches: the second word of
      a match cannot start the next one, so `"a-\nb-\nc"` keeps its second
      break, and a second run removes it: the step is not idempotent. */
  lemma FixHyphenatedNotIdempotent(isWord: char -> bool)
    requires WordClass(isWord) && isWord('a') && isWord('b') && isWord('c')
    ensures FixHyphenatedLinebreaks(isWord, "a-\nb-\nc") == "ab-\nc"
    ensures FixHyphenatedLinebreaks(isWord, "ab-\nc") == "abc"
  {
    FixFirstPassOnChain(isWord);
    FixSecondPassOnChain(isWord);
  }

  /** The first pass over `"a-\nb-\nc"` joins only `a` and `b`. */
  lemma FixFirstPassOnChain(isWord: char -> bool)
    requires WordClass(isWord) && isWord('a') && isWord('b') && isWord('c')
    ensures FixFrom(isWord, "a-\nb-\nc", 0) == "ab-\nc"
  {
    var s := "a-\nb-\nc";
    assert WordRunEnd(isWord, s, 6) == 7;
    assert WordRunEnd(isWord, s, 4) == 4;
    assert WordRunEnd(isWord, s, 3) == 4;
    assert WordRunEnd(isWord, s, 1) == 1;
    assert WordRunEnd(isWord, s, 0) == 1;
    assert HyphenBreakAt(isWord, s, 0) == Some((1, 4));
    assert HyphenBreakAt(isWord, s, 4) == None;
    assert HyphenBreakAt(isWord, s, 5) == None;
    assert HyphenBreakAt(isWord, s, 6) == None;
    assert FixFrom(isWord, s, 7) == [];
    assert FixFrom(isWord, s, 4) == "-\nc";
    assert s[0..1] + s[3..4] == "ab";
  }

  /** The second pass over `"ab-\nc"` joins the rest. */
  lemma FixSecondPassOnChain(isWord: char -> bool)
    requires WordClass(isWord) && isWord('a') && isWord('b') && isWord('c')
    ensures FixFrom(isWord, "ab-\nc", 0) == "abc"
  {
    var t := "ab-\nc";
    assert WordRunEnd(isWord, t, 4) == 5;
    assert WordRunEnd(isWord, t, 2) == 2;
    assert WordRunEnd(isWord, t, 1) == 2;
    assert WordRunEnd(isWord, t, 0) == 2;
    assert HyphenBreakAt(isWord, t, 0) == Some((2, 5));
    assert FixFrom(isWord, t, 5) == [];
    assert t[0..2] + t[4..5] == "abc";
  }

  // ---------------------------------------------------------------------
  // normalize_whitespace
  // ---------------------------------------------------------------------

  /** `re.sub(r"\s+", " ", line)`: each maximal run of whitespace becomes
      one space, so no two whitespace characters are left side by side. */
  function CollapseRuns(s: string): (r: string)
    ensures r == [] <==> s == []
    ensures s != [] ==> r[0] == (if IsSpace(s[0]) then ' ' else s[0])
    ensures s != [] ==> r[|r| - 1] == (if IsSpace(s[|s| - 1]) then ' ' else s[|s| - 1])
    ensures forall i :: 0 <= i < |r| && IsSpace(r[i]) ==> r[i] == ' '
    ensures forall i, j :: 0 <= i < j < |r| && j == i + 1 ==> !(IsSpace(r[i]) && IsSpace(r[j]))
    ensures NonWs(r) == NonWs(s)
    ensures Words(r) == Words(s)
  {
    CollapseWhitespaceCollapses(s);
    CollapseWhitespace(s)
  }

  /** The substitution itself: a leading whitespace run is replaced by one
      space, a visible character is kept, and the rest is done the same way. */
  function CollapseWhitespace(s: string): string
    decreases |s|
  {
    if s == [] then []
    else if IsSpace(s[0]) then [' '] + CollapseWhitespace(s[SpaceRun(s)..])
    else [s[0]] + CollapseWhitespace(s[1..])
  }

  lemma {:induction false} CollapseWhitespaceCollapses(s: string)
    ensures CollapsedFrom(s, CollapseWhitespace(s))
    decreases |s|
  {
    if s == [] {
    } else if IsSpace(s[0]) {
      var n := SpaceRun(s);
      CollapseWhitespaceCollapses(s[n..]);
      CollapseSpaceRun(s, n, CollapseWhitespace(s[n..]));
    } else {
      CollapseWhitespaceCollapses(s[1..]);
      CollapseVisible(s, CollapseWhitespace(s[1..]));
    }
  }

  /** `r` is `s` with its whitespace runs collapsed, as `CollapseRuns`
      states it. */
  ghost predicate CollapsedFrom(s: string, r: string) {
    && (r == [] <==> s == [])
    && (s != [] && r != [] ==> r[0] == (if IsSpace(s[0]) then ' ' else s[0]))
    && (s != [] && r != [] ==> r[|r| - 1] == (if IsSpace(s[|s| - 1]) then ' ' else s[|s| - 1]))
    && (forall i :: 0 <= i < |r| && IsSpace(r[i]) ==> r[i] == ' ')
    && (forall i, j :: 0 <= i < j < |r| && j == i + 1 ==> !(IsSpace(r[i]) && IsSpace(r[j])))
    && NonWs(r) == NonWs(s)
    && Words(r) == Words(s)
  }

  /** A leading whitespace run becomes one space in front of the collapsed
      rest. */
  lemma CollapseSpaceRun(s: string, n: nat, rest: string)
    requires 0 < n <= |s| && (forall i :: 0 <= i < n ==> IsSpace(s[i])) && (n < |s| ==> !IsSpace(s[n]))
    requires CollapsedFrom(s[n..], rest)
    ensures CollapsedFrom(s, [' '] + rest)
  {
    CollapseRunKeepsText(s, n, rest);
    var r := [' '] + rest;
    if rest != [] {
      assert r[|r| - 1] == rest[|rest| - 1] && s[n..][|s[n..]| - 1] == s[|s| - 1];
    }
    forall i, j | 0 <= i < j < |r| && j == i + 1 ensures !(IsSpace(r[i]) && IsSpace(r[j])) {
      if i > 0 { assert r[i] == rest[i - 1] && r[j] == rest[j - 1]; }
    }
  }

  lemma CollapseRunKeepsText(s: string, n: nat, rest: string)
    requires 0 < n <= |s| && forall i :: 0 <= i < n ==> IsSpace(s[i])
    requires NonWs(rest) == NonWs(s[n..]) && Words(rest) == Words(s[n..])
    ensures NonWs([' '] + rest) == NonWs(s) && Words([' '] + rest) == Words(s)
  {
    assert s == s[..n] + s[n..];
    NonWsAllSpace(s[..n]);
    NonWsAppend(s[..n], s[n..]);
    WordsAfterSpaces(s[..n], s[n..]);
    NonWsAppend([' '], rest);
    WordsAfterSpaces([' '], rest);
  }

  /** A visible first character is kept in front of the collapsed rest. */
  lemma CollapseVisible(s: string, rest: string)
    requires s != [] && !IsSpace(s[0])
    requires CollapsedFrom(s[1..], rest)
    ensures CollapsedFrom(s, [s[0]] + rest)
  {
    CollapseVisibleKeepsText(s, rest);
    var r := [s[0]] + rest;
    if rest != [] {
      assert r[|r| - 1] == rest[|rest| - 1] && s[1..][|s[1..]| - 1] == s[|s| - 1];
    }
    forall i, j | 0 <= i < j < |r| && j == i + 1 ensures !(IsSpace(r[i]) && IsSpace(r[j])) {
      if i > 0 { assert r[i] == rest[i - 1] && r[j] == rest[j - 1]; }
    }
  }

  lemma CollapseVisibleKeepsText(s: string, rest: string)
    requires s != [] && !IsSpace(s[0])
    requires NonWs(rest) == NonWs(s[1..]) && Words(rest) == Words(s[1..])
    requires rest == [] <==> s[1..] == []
    requires rest != [] && s[1..] != [] ==> (IsSpace(rest[0]) <==> IsSpace(s[1..][0]))
    ensures NonWs([s[0]] + rest) == NonWs(s) && Words([s[0]] + rest) == Words(s)
  {
    WordsConsSame(s[0], rest, s[1..]);
    assert s == [s[0]] + s[1..];
    NonWsAppend([s[0]], rest);
    NonWsAppend([s[0]], s[1..]);
  }

  /** Position `i` of a line is as `normalize_whitespace` leaves it: a
      whitespace character there is the plain space, and a space has a
      visible character on each side. */
  ghost predicate LineCharOkAt(l: string, i: int)
    requires 0 <= i < |l|
  {
    && (IsSpace(l[i]) ==> l[i] == ' ')
    && (l[i] == ' ' ==> 0 < i < |l| - 1 && !IsSpace(l[i - 1]) && !IsSpace(l[i + 1]))
  }

  /** A line as `normalize_whitespace` leaves it: its only whitespace is the
      single space between two visible characters, so it neither starts nor
      ends with a space nor holds two in a row. */
  ghost predicate IsCleanLine(l: string) {
    forall i :: 0 <= i < |l| ==> LineCharOkAt(l, i)
  }

  /** `re.sub(r"\s+", " ", line).strip()`. */
  function CleanLine(l: string): (r: string)
    ensures IsCleanLine(r)
    ensures NonWs(r) == NonWs(l)
    ensures Words(r) == Words(l)
  {
    var c := CollapseRuns(l);
    CollapsedStripIsClean(c);
    StripKeepsVisible(c);
    WordsStrip(c);
    Strip(c)
  }

  /** Stripping a collapsed line leaves every space between visible characters. */
  lemma CollapsedStripIsClean(c: string)
    requires forall i :: 0 <= i < |c| && IsSpace(c[i]) ==> c[i] == ' '
    requires forall i, j :: 0 <= i < j < |c| && j == i + 1 ==> !(IsSpace(c[i]) && IsSpace(c[j]))
    ensures IsCleanLine(Strip(c))
  {
    var r := Strip(c);
    StripSlice(c);
    var k := |c| - |LStrip(c)|;
    assert r == c[k..k + |r|];
    forall i | 0 <= i < |r|
      ensures LineCharOkAt(r, i)
    {
      assert r[i] == c[k + i];
      if r[i] == ' ' {
        assert i != 0 && i != |r| - 1;
        assert r[i - 1] == c[k + i - 1] && r[i + 1] == c[k + i + 1];
      }
    }
  }

  function CleanLines(lines: seq<string>): (r: seq<string>)
    ensures |r| == |lines|
    ensures forall i :: 0 <= i < |r| ==> r[i] == CleanLine(lines[i])
  {
    seq(|lines|, i requires 0 <= i < |lines| => CleanLine(lines[i]))
  }

  lemma {:induction false} CleanLinesKeepWords(lines: seq<string>)
    ensures WordsOfLines(CleanLines(lines)) == WordsOfLines(lines)
  {
    if lines != [] {
      CleanLinesKeepWords(lines[1..]);
      assert CleanLines(lines)[1..] == CleanLines(lines[1..]);
    }
  }

  /** What the `prev_blank` loop keeps: an empty line directly after a kept
      empty line is dropped, everything else is kept in order. */
  function SqueezeBlankLines(lines: seq<string>, prevBlank: bool): seq<string>
  {
    if lines == [] then []
    else if lines[0] == "" then
      if prevBlank then SqueezeBlankLines(lines[1..], true)
      else [""] + SqueezeBlankLines(lines[1..], true)
    else
      [lines[0]] + SqueezeBlankLines(lines[1..], false)
  }

  /** Squeezing keeps lines of the input, in order, leaves no two empty lines
      side by side (nor an empty first line after an empty one), loses no
      text, and drops exactly the repeated empty lines. */
  lemma SqueezeBlankLinesProperties(lines: seq<string>, prevBlank: bool)
    ensures var r := SqueezeBlankLines(lines, prevBlank);
      && (forall i :: 0 <= i < |r| ==> r[i] in lines)
      && NoAdjacentBlankLines(r)
      && (prevBlank && r != [] ==> r[0] != "")
      && Concat(r) == Concat(lines)
      && |r| == |lines| - RepeatedBlankLines(lines, prevBlank)
  {
    SqueezeKeepsLines(lines, prevBlank);
    SqueezeSeparatesBlanks(lines, prevBlank);
  }

  /** Squeezing keeps lines of the input and all their text, and drops
      exactly the repeated empty lines. */
  lemma {:induction false} SqueezeKeepsLines(lines: seq<string>, prevBlank: bool)
    ensures var r := SqueezeBlankLines(lines, prevBlank);
      && (forall i :: 0 <= i < |r| ==> r[i] in lines)
      && Concat(r) == Concat(lines)
      && |r| == |lines| - RepeatedBlankLines(lines, prevBlank)
  {
    if lines != [] {
      SqueezeKeepsLines(lines[1..], lines[0] == "");
      assert lines == [lines[0]] + lines[1..];
    }
  }

  /** Only empty lines are dropped, so no word is lost. */
  lemma {:induction false} SqueezeKeepsWords(lines: seq<string>, prevBlank: bool)
    ensures WordsOfLines(SqueezeBlankLines(lines, prevBlank)) == WordsOfLines(lines)
  {
    if lines != [] {
      var rest := SqueezeBlankLines(lines[1..], lines[0] == "");
      SqueezeKeepsWords(lines[1..], lines[0] == "");
      assert ([lines[0]] + rest)[1..] == rest;
    }
  }

  /** No two empty lines side by side. */
  ghost predicate NoAdjacentBlankLines(r: seq<string>) {
    forall i, j :: 0 <= i < j < |r| && j == i + 1 ==> !(r[i] == "" && r[j] == "")
  }

  /** No two empty lines are left side by side. */
  lemma {:induction false} SqueezeSeparatesBlanks(lines: seq<string>, prevBlank: bool)
    ensures NoAdjacentBlankLines(SqueezeBlankLines(lines, prevBlank))
    ensures prevBlank && SqueezeBlankLines(lines, prevBlank) != [] ==> SqueezeBlankLines(lines, prevBlank)[0] != ""
  {
    if lines != [] {
      SqueezeSeparatesBlanks(lines[1..], lines[0] == "");
      var r := SqueezeBlankLines(lines, prevBlank);
      var t := SqueezeBlankLines(lines[1..], lines[0] == "");
      if !(lines[0] == "" && prevBlank) {
        assert r == [lines[0]] + t;
        forall i, j | 0 <= i < j < |r| && j == i + 1
          ensures !(r[i] == "" && r[j] == "")
        {
          assert r[j] == t[j - 1];
          if i > 0 {
            assert r[i] == t[i - 1];
          }
        }
      }
    }
  }

  /** The number of empty lines that directly follow another empty line
      (the first line counts when `prevBlank` holds). */
  function RepeatedBlankLines(lines: seq<string>, prevBlank: bool): nat
  {
    if lines == [] then 0
    else (if lines[0] == "" && prevBlank then 1 else 0) + RepeatedBlankLines(lines[1..], lines[0] == "")
  }

  /** Position `i` of a text is as `normalize_whitespace` leaves it:
      whitespace there is a space or a line feed, a space has a visible
      character on each side, and no three line feeds start there (no two
      empty lines in a row). */
  ghost predicate TextCharOkAt(t: string, i: int)
    requires 0 <= i < |t|
  {
    && (IsSpace(t[i]) ==> t[i] == ' ' || t[i] == '\n')
    && (t[i] == ' ' ==> 0 < i < |t| - 1 && !IsSpace(t[i - 1]) && !IsSpace(t[i + 1]))
    && (i + 2 < |t| ==> !(t[i] == '\n' && t[i + 1] == '\n' && t[i + 2] == '\n'))
  }

  ghost predicate IsWhitespaceNormal(t: string) {
    forall i :: 0 <= i < |t| ==> TextCharOkAt(t, i)
  }

  /** A join of clean lines starts with a line feed only when its first line
      is empty and another line follows. */
  lemma JoinStartsWithBreak(lines: seq<string>)
    requires forall k :: 0 <= k < |lines| ==> IsCleanLine(lines[k])
    requires |Join("\n", lines)| > 0 && Join("\n", lines)[0] == '\n'
    ensures |lines| >= 2 && lines[0] == ""
    ensures Join("\n", lines)[1..] == Join("\n", lines[1..])
  {
    JoinFirst(lines);
    CleanLineHasNoBreak(lines[0]);
    assert lines[0] == "" && |lines| >= 2;
    assert Join("\n", lines) == "\n" + Join("\n", lines[1..]);
  }

  lemma JoinFirst(lines: seq<string>)
    requires |lines| >= 1
    ensures Join("\n", lines) == lines[0] + (if |lines| == 1 then "" else "\n" + Join("\n", lines[1..]))
  {
  }

  lemma CleanLineHasNoBreak(l: string)
    requires IsCleanLine(l)
    ensures forall i :: 0 <= i < |l| ==> l[i] != '\n'
  {
    forall i | 0 <= i < |l|
      ensures l[i] != '\n'
    {
      assert LineCharOkAt(l, i);
    }
  }

  /** Joining clean lines, no two empty ones adjacent, with `\n` gives text of
      the normal shape. */
  lemma {:induction false} JoinCleanLines(lines: seq<string>)
    requires forall k :: 0 <= k < |lines| ==> IsCleanLine(lines[k])
    requires forall i, j :: 0 <= i < j < |lines| && j == i + 1 ==> !(lines[i] == "" && lines[j] == "")
    ensures IsWhitespaceNormal(Join("\n", lines))
  {
    if |lines| >= 2 {
      var a := lines[0];
      var rest := Join("\n", lines[1..]);
      var t := Join("\n", lines);
      JoinCleanLines(lines[1..]);
      assert t == a + "\n" + rest;
      assert IsCleanLine(a);
      var p := |a|;
      forall i | 0 <= i < |t|
        ensures TextCharOkAt(t, i)
      {
        if i < p {
          assert LineCharOkAt(a, i);
          assert t[i] == a[i];
          if a[i] == ' ' {
            assert t[i - 1] == a[i - 1] && t[i + 1] == a[i + 1];
          }
        } else if i == p {
          if i + 2 < |t| && t[i + 1] == '\n' && t[i + 2] == '\n' {
            assert rest[0] == '\n';
            JoinStartsWithBreak(lines[1..]);
            assert Join("\n", lines[2..]) == rest[1..];
            assert lines[1..][1..] == lines[2..];
            JoinStartsWithBreak(lines[2..]);
            assert false;
          }
        } else {
          var j := i - p - 1;
          assert TextCharOkAt(rest, j);
          assert t[i] == rest[j];
          if rest[j] == ' ' {
            assert t[i - 1] == rest[j - 1] && t[i + 1] == rest[j + 1];
          }
          if i + 2 < |t| {
            assert t[i + 1] == rest[j + 1] && t[i + 2] == rest[j + 2];
          }
        }
      }
    } else if |lines| == 1 {
      var l := lines[0];
      assert Join("\n", lines) == l;
      assert IsCleanLine(l);
      forall i | 0 <= i < |l|
        ensures TextCharOkAt(l, i)
      {
        assert LineCharOkAt(l, i);
      }
    }
  }

  /** A slice whose ends are not whitespace keeps the normal shape. */
  lemma WhitespaceNormalSlice(t: string, lo: nat, hi: nat, r: string)
    requires IsWhitespaceNormal(t)
    requires lo <= hi <= |t| && r == t[lo..hi]
    requires r == [] || (!IsSpace(r[0]) && !IsSpace(r[|r| - 1]))
    ensures IsWhitespaceNormal(r)
  {
    forall i | 0 <= i < |r|
      ensures TextCharOkAt(r, i)
    {
      assert TextCharOkAt(t, lo + i);
      assert r[i] == t[lo + i];
      if r[i] == ' ' {
        assert i != 0 && i != |r| - 1;
        assert r[i - 1] == t[lo + i - 1] && r[i + 1] == t[lo + i + 1];
      }
      if i + 2 < |r| {
        assert r[i + 1] == t[lo + i + 1] && r[i + 2] == t[lo + i + 2];
      }
    }
  }

  /** Stripping keeps the normal shape. */
  lemma StripKeepsWhitespaceNormal(t: string)
    requires IsWhitespaceNormal(t)
    ensures IsWhitespaceNormal(Strip(t))
  {
    StripTrimsEnds(t);
    StripSlice(t);
    var lo := |t| - |LStrip(t)|;
    WhitespaceNormalSlice(t, lo, lo + |Strip(t)|, Strip(t));
  }

  /** `normalize_whitespace`, as the composition its loop implements. */
  function WhitespaceNormalized(text: string): string
  {
    Strip(Join("\n", SqueezeBlankLines(CleanLines(SplitLines(ReplaceChar(text, '\t', ' '))), false)))
  }

  /** The result has the normal shape: no tab, only single spaces between
      visible characters, at most one empty line in a row, nothing to strip;
      and it has the words of the input, in order, none fused with the next. */
  lemma WhitespaceNormalizedShape(text: string)
    ensures var r := WhitespaceNormalized(text);
      && IsWhitespaceNormal(r)
      && (r == [] || (!IsSpace(r[0]) && !IsSpace(r[|r| - 1])))
      && (forall i :: 0 <= i < |r| ==> r[i] != '\t')
      && Words(r) == Words(text)
  {
    WhitespaceNormalizedKeepsWords(text);
    var lines := CleanLines(SplitLines(ReplaceChar(text, '\t', ' ')));
    SqueezedCleanLinesJoinNormal(lines);
    var joined := Join("\n", SqueezeBlankLines(lines, false));
    StripKeepsWhitespaceNormal(joined);
    StripTrimsEnds(joined);
    WhitespaceNormalHasNoTab(Strip(joined));
  }

  /** Squeezing clean lines and joining them gives text of the normal shape. */
  lemma SqueezedCleanLinesJoinNormal(lines: seq<string>)
    requires forall k :: 0 <= k < |lines| ==> IsCleanLine(lines[k])
    ensures IsWhitespaceNormal(Join("\n", SqueezeBlankLines(lines, false)))
  {
    var squeezed := SqueezeBlankLines(lines, false);
    SqueezeBlankLinesProperties(lines, false);
    forall j | 0 <= j < |squeezed| ensures IsCleanLine(squeezed[j]) {
      assert squeezed[j] in lines;
    }
    JoinCleanLines(squeezed);
  }

  /** Text of the normal shape holds no tab. */
  lemma WhitespaceNormalHasNoTab(r: string)
    requires IsWhitespaceNormal(r)
    ensures forall i :: 0 <= i < |r| ==> r[i] != '\t'
  {
    forall i | 0 <= i < |r| ensures r[i] != '\t' {
      assert TextCharOkAt(r, i);
    }
  }

  /** No word is split, fused or lost: each line keeps its words, the
      dropped lines are empty and the line feeds keep lines apart. */
  lemma WhitespaceNormalizedKeepsWords(text: string)
    ensures Words(WhitespaceNormalized(text)) == Words(text)
  {
    var detabbed := ReplaceChar(text, '\t', ' ');
    var raw := SplitLines(detabbed);
    var lines := CleanLines(raw);
    var squeezed := SqueezeBlankLines(lines, false);
    WordsStrip(Join("\n", squeezed));
    WordsJoinLines(squeezed);
    SqueezeKeepsWords(lines, false);
    CleanLinesKeepWords(raw);
    WordsJoinLines(raw);
    WordsSplitLines(detabbed);
    WordsPointwise(detabbed, text);
  }

  /** Only whitespace is touched: the visible characters stay, in order. */
  lemma WhitespaceNormalizedKeepsVisible(text: string)
    ensures NonWs(WhitespaceNormalized(text)) == NonWs(text)
  {
    var detabbed := ReplaceChar(text, '\t', ' ');
    var raw := SplitLines(detabbed);
    var lines := CleanLines(raw);
    var squeezed := SqueezeBlankLines(lines, false);
    var joined := Join("\n", squeezed);
    SqueezeBlankLinesProperties(lines, false);
    StripKeepsVisible(joined);
    NonWsJoin("\n", squeezed);
    NonWsConcatPointwise(lines, raw);
    NonWsJoin("\n", raw);
    SplitLinesNonWs(detabbed);
    NonWsPointwise(detabbed, text);
  }

  /** One step of the `prev_blank` loop, reading `lines[k]`: the line is
      kept unless it is an empty line after an empty one. */
  lemma SqueezeStep(normalized: seq<string>, lines: seq<string>, k: nat, prevBlank: bool)
    requires k < |lines|
    ensures lines[k] == "" && prevBlank ==>
      normalized + SqueezeBlankLines(lines[k..], prevBlank) == normalized + SqueezeBlankLines(lines[k + 1..], true)
    ensures !(lines[k] == "" && prevBlank) ==>
      normalized + SqueezeBlankLines(lines[k..], prevBlank)
        == (normalized + [lines[k]]) + SqueezeBlankLines(lines[k + 1..], lines[k] == "")
  {
    assert lines[k..][0] == lines[k] && lines[k..][1..] == lines[k + 1..];
    var kept := if lines[k] == "" && prevBlank then [] else [lines[k]];
    AppendAssoc(normalized, kept, SqueezeBlankLines(lines[k + 1..], lines[k] == ""));
  }

  /** The `prev_blank` loop of `normalize_whitespace`. */
  method DropRepeatedBlankLines(lines: seq<string>) returns (normalized: seq<string>)
    ensures normalized == SqueezeBlankLines(lines, false)
  {
    normalized := [];
    var prevBlank := false;
    var k := 0;
    while k < |lines|
      invariant 0 <= k <= |lines|
      invariant normalized + SqueezeBlankLines(lines[k..], prevBlank) == SqueezeBlankLines(lines, false)
    {
      var line := lines[k];
      SqueezeStep(normalized, lines, k, prevBlank);
      if line == "" {
        if prevBlank {
          k := k + 1;
          continue;
        }
        prevBlank := true;
      } else {
        prevBlank := false;
      }
      normalized := normalized + [line];
      k := k + 1;
    }
    assert lines[k..] == [];
  }

  /** `normalize_whitespace`: tabs to spaces, each line collapsed and
      stripped, runs of empty lines cut to one, lines joined and the whole
      stripped. */
  method NormalizeWhitespace(text: string) returns (r: string)
    ensures r == WhitespaceNormalized(text)
  {
    var lines := CleanLines(SplitLines(ReplaceChar(text, '\t', ' ')));
    var normalized := DropRepeatedBlankLines(lines);
    r := Strip(Join("\n", normalized));
  }

  // ---------------------------------------------------------------------
  // merge_broken_lines
  // ---------------------------------------------------------------------

  /** `re.compile(r"[.!?…]$|[다요죠]\s*$").search(buffer)`; `$` also matches
      just before a final line feed. */
  predicate EndsSentence(buffer: string) {
    var n := |buffer|;
    || (n >= 1 && buffer[n - 1] in ".!?…")
    || (n >= 2 && buffer[n - 1] == '\n' && buffer[n - 2] in ".!?…")
    || (var t := RStrip(buffer); |t| >= 1 && t[|t| - 1] in "다요죠")
  }

  predicate IsRStripped(l: string) {
    l == [] || !IsSpace(l[|l| - 1])
  }

  function RStripLines(lines: seq<string>): (r: seq<string>)
    ensures |r| == |lines|
    ensures forall i :: 0 <= i < |r| ==> r[i] == RStrip(lines[i]) && IsRStripped(r[i])
  {
    seq(|lines|, i requires 0 <= i < |lines| => RStrip(lines[i]))
  }

  /** A pending buffer is flushed as one stripped line; an empty one emits
      nothing. */
  function Flush(buffer: string): (r: seq<string>)
    ensures |r| <= 1
  {
    if buffer != "" then [Strip(buffer)] else []
  }

  /** The lines `merge_broken_lines` emits, given the current `buffer` and the
      (right-stripped) lines still to read. An empty line flushes the buffer
      and is emitted itself; a non-empty line starts the buffer, is appended
      to it after one space, or flushes it, by whether the buffer ends a
      sentence. */
  function MergeFrom(buffer: string, lines: seq<string>): seq<string>
    decreases |lines|
  {
    if lines == [] then Flush(buffer)
    else if lines[0] == "" then Flush(buffer) + [""] + MergeFrom("", lines[1..])
    else if buffer == "" then MergeFrom(lines[0], lines[1..])
    else if !EndsSentence(buffer) then MergeFrom(buffer + " " + LStrip(lines[0]), lines[1..])
    else [Strip(buffer)] + MergeFrom(lines[0], lines[1..])
  }

  /** Merging never crosses an empty line: what lies before it and what lies
      after it are merged separately. */
  lemma {:induction false} MergeSplitsAtBlankLine(buffer: string, before: seq<string>, after: seq<string>)
    ensures MergeFrom(buffer, before + [""] + after) == MergeFrom(buffer, before) + [""] + MergeFrom("", after)
    decreases |before|
  {
    var lines := before + [""] + after;
    if before == [] {
      assert lines == [""] + after;
      assert lines[1..] == after;
    } else {
      assert lines[0] == before[0];
      assert lines[1..] == before[1..] + [""] + after;
      var l := before[0];
      var rest := before[1..];
      if l == "" {
        MergeSplitsAtBlankLine("", rest, after);
        assert MergeFrom(buffer, lines) == Flush(buffer) + [""] + MergeFrom("", lines[1..]);
        assert MergeFrom(buffer, before) == Flush(buffer) + [""] + MergeFrom("", rest);
      } else {
        // The buffer the next line is read with, and what is emitted first.
        var next := if buffer == "" || EndsSentence(buffer) then l else buffer + " " + LStrip(l);
        var emitted := if buffer != "" && EndsSentence(buffer) then [Strip(buffer)] else [];
        assert MergeFrom(buffer, lines) == emitted + MergeFrom(next, lines[1..]);
        assert MergeFrom(buffer, before) == emitted + MergeFrom(next, rest);
        MergeSplitsAtBlankLine(next, rest, after);
      }
    }
  }

  /** The buffer is either empty or ends in a visible character: it starts as
      a non-empty right-stripped line and only ever grows by one. */
  predicate PendingBuffer(buffer: string) {
    buffer == "" || EndsVisible(buffer)
  }

  ghost predicate AllRStripped(lines: seq<string>) {
    forall i :: 0 <= i < |lines| ==> IsRStripped(lines[i])
  }

  lemma AllRStrippedTail(lines: seq<string>)
    requires lines != [] && AllRStripped(lines)
    ensures IsRStripped(lines[0]) && AllRStripped(lines[1..])
  {
    forall i | 0 <= i < |lines| - 1
      ensures IsRStripped(lines[1..][i])
    {
      assert lines[1..][i] == lines[i + 1];
    }
  }

  lemma AppendKeepsPending(buffer: string, l: string)
    requires l != "" && IsRStripped(l)
    ensures EndsVisible(buffer + " " + LStrip(l))
  {
    LStripKeepsLast(l);
    var t := buffer + " " + LStrip(l);
    assert t[|t| - 1] == LStrip(l)[|LStrip(l)| - 1];
  }

  /** On a buffer that ends visibly, the sentence pattern only looks at the
      last character. */
  lemma EndsSentenceVisible(s: string)
    requires EndsVisible(s)
    ensures EndsSentence(s) <==> s[|s| - 1] in ".!?…다요죠"
  {
    assert RStrip(s) == s;
  }

  /** Flushing a pending buffer emits a non-empty line that ends a sentence
      exactly when the buffer did. */
  lemma FlushPending(buffer: string)
    requires EndsVisible(buffer)
    ensures Strip(buffer) != "" && (EndsSentence(Strip(buffer)) <==> EndsSentence(buffer))
  {
    StripEndsVisible(buffer);
    EndsSentenceVisible(buffer);
    EndsSentenceVisible(Strip(buffer));
  }

  /** Number of empty lines. */
  function Blanks(lines: seq<string>): nat {
    if lines == [] then 0 else (if lines[0] == "" then 1 else 0) + Blanks(lines[1..])
  }

  lemma {:induction false} BlanksAppend(a: seq<string>, b: seq<string>)
    ensures Blanks(a + b) == Blanks(a) + Blanks(b)
  {
    if a == [] {
      assert a + b == b;
    } else {
      assert (a + b)[0] == a[0];
      assert (a + b)[1..] == a[1..] + b;
      BlanksAppend(a[1..], b);
    }
  }

  /** Every empty input line gives exactly one empty output line and no other
      output line is empty; merging never yields more lines than it reads
      (plus one for a pending buffer). */
  lemma {:induction false} MergeCountsLines(buffer: string, lines: seq<string>)
    requires AllRStripped(lines) && PendingBuffer(buffer)
    ensures Blanks(MergeFrom(buffer, lines)) == Blanks(lines)
    ensures |MergeFrom(buffer, lines)| <= |lines| + |Flush(buffer)|
    decreases |lines|
  {
    if buffer != "" {
      FlushPending(buffer);
    }
    assert Blanks(Flush(buffer)) == 0;
    if lines != [] {
      AllRStrippedTail(lines);
      var l := lines[0];
      var rest := lines[1..];
      if l == "" {
        MergeCountsLines("", rest);
        BlanksAppend(Flush(buffer) + [""], MergeFrom("", rest));
        BlanksAppend(Flush(buffer), [""]);
      } else if buffer == "" {
        MergeCountsLines(l, rest);
      } else if !EndsSentence(buffer) {
        AppendKeepsPending(buffer, l);
        MergeCountsLines(buffer + " " + LStrip(l), rest);
      } else {
        MergeCountsLines(l, rest);
        BlanksAppend([Strip(buffer)], MergeFrom(l, rest));
      }
    }
  }

  /** Two non-empty lines stay apart in the output only when the first one
      ends a sentence. */
  ghost predicate BreaksAfterSentences(r: seq<string>) {
    forall i, j :: 0 <= i < j < |r| && j == i + 1 && r[i] != "" && r[j] != "" ==> EndsSentence(r[i])
  }

  lemma BreaksCons(x: string, r: seq<string>)
    requires BreaksAfterSentences(r)
    requires x == "" || r == [] || r[0] == "" || EndsSentence(x)
    ensures BreaksAfterSentences([x] + r)
  {
    var t := [x] + r;
    forall i, j | 0 <= i < j < |t| && j == i + 1 && t[i] != "" && t[j] != ""
      ensures EndsSentence(t[i])
    {
      if i > 0 {
        assert t[i] == r[i - 1] && t[j] == r[j - 1];
      }
    }
  }

  lemma {:induction false} MergeBreaksAfterSentences(buffer: string, lines: seq<string>)
    requires AllRStripped(lines) && PendingBuffer(buffer)
    ensures BreaksAfterSentences(MergeFrom(buffer, lines))
    decreases |lines|
  {
    if lines != [] {
      AllRStrippedTail(lines);
      var l := lines[0];
      var rest := lines[1..];
      if l == "" {
        var m := MergeFrom("", rest);
        MergeBreaksAfterSentences("", rest);
        BreaksCons("", m);
        if buffer != "" {
          BreaksCons(Strip(buffer), [""] + m);
          assert Flush(buffer) + [""] + m == [Strip(buffer)] + ([""] + m);
        } else {
          assert Flush(buffer) + [""] + m == [""] + m;
        }
      } else if buffer == "" {
        MergeBreaksAfterSentences(l, rest);
      } else if !EndsSentence(buffer) {
        AppendKeepsPending(buffer, l);
        MergeBreaksAfterSentences(buffer + " " + LStrip(l), rest);
      } else {
        MergeBreaksAfterSentences(l, rest);
        FlushPending(buffer);
        BreaksCons(Strip(buffer), MergeFrom(l, rest));
      }
    }
  }

  /** A line with no whitespace at either end. */
  predicate IsTrimmed(l: string) {
    l == [] || (!IsSpace(l[0]) && !IsSpace(l[|l| - 1]))
  }

  ghost predicate AllTrimmed(lines: seq<string>) {
    forall i :: 0 <= i < |lines| ==> IsTrimmed(lines[i])
  }

  lemma AllTrimmedAppend(a: seq<string>, b: seq<string>)
    requires AllTrimmed(a) && AllTrimmed(b)
    ensures AllTrimmed(a + b)
  {
    forall i | 0 <= i < |a + b|
      ensures IsTrimmed((a + b)[i])
    {
      if i >= |a| {
        assert (a + b)[i] == b[i - |a|];
      }
    }
  }

  /** Every output line is stripped. */
  lemma {:induction false} MergedLinesTrimmed(buffer: string, lines: seq<string>)
    ensures AllTrimmed(MergeFrom(buffer, lines))
    decreases |lines|
  {
    if lines == [] {
      StripTrimsEnds(buffer);
      assert AllTrimmed(Flush(buffer));
    } else {
      var (out, next) := MergeRead(buffer, lines[0]);
      MergedLinesTrimmed(next, lines[1..]);
      MergeUnfold(buffer, lines);
      MergeReadTrimmed(buffer, lines[0]);
      AllTrimmedAppend(out, MergeFrom(next, lines[1..]));
    }
  }

  /** Reading a line emits only stripped lines. */
  lemma MergeReadTrimmed(buffer: string, line: string)
    ensures AllTrimmed(MergeRead(buffer, line).0)
  {
    StripTrimsEnds(buffer);
    assert AllTrimmed(Flush(buffer));
    if line == "" {
      AllTrimmedAppend(Flush(buffer), [""]);
    }
  }

  lemma FlushKeepsVisible(buffer: string)
    ensures NonWs(Concat(Flush(buffer))) == NonWs(buffer)
  {
    if buffer != "" {
      assert Concat(Flush(buffer)) == Strip(buffer) + Concat([]);
      assert Concat(Flush(buffer)) == Strip(buffer);
      StripKeepsVisible(buffer);
    } else {
      assert Concat(Flush(buffer)) == [];
    }
  }

  lemma BlankLineKeepsVisible(buffer: string, m: seq<string>)
    ensures NonWs(Concat(Flush(buffer) + [""] + m)) == NonWs(buffer) + NonWs(Concat(m))
  {
    var f := Flush(buffer);
    FlushKeepsVisible(buffer);
    ConcatBlankBetween(f, m);
    NonWsAppend(Concat(f), Concat(m));
  }

  /** An empty part adds nothing to the concatenation. */
  lemma ConcatBlankBetween(f: seq<string>, m: seq<string>)
    ensures Concat(f + [""] + m) == Concat(f) + Concat(m)
  {
    assert Concat([""] + m) == "" + Concat(([""] + m)[1..]);
    assert ([""] + m)[1..] == m;
    assert f + [""] + m == f + ([""] + m);
    ConcatAppend(f, [""] + m);
  }

  lemma AppendedLineKeepsVisible(buffer: string, l: string)
    ensures NonWs(buffer + " " + LStrip(l)) == NonWs(buffer) + NonWs(l)
  {
    NonWsSpaced(buffer, LStrip(l));
    LStripKeepsVisible(l);
  }

  lemma FlushedLineKeepsVisible(buffer: string, m: seq<string>)
    ensures NonWs(Concat([Strip(buffer)] + m)) == NonWs(buffer) + NonWs(Concat(m))
  {
    assert Concat([Strip(buffer)] + m) == Strip(buffer) + Concat(m);
    StripKeepsVisible(buffer);
    NonWsAppend(Strip(buffer), Concat(m));
  }

  /** Merging only adds or removes whitespace. */
  lemma {:induction false} MergeKeepsVisible(buffer: string, lines: seq<string>)
    ensures NonWs(Concat(MergeFrom(buffer, lines))) == NonWs(buffer) + NonWs(Concat(lines))
    decreases |lines|
  {
    if lines == [] {
      FlushKeepsVisible(buffer);
      assert NonWs(Concat(lines)) == [];
    } else {
      var l := lines[0];
      var rest := lines[1..];
      assert Concat(lines) == l + Concat(rest);
      NonWsAppend(l, Concat(rest));
      if l == "" {
        MergeKeepsVisible("", rest);
        BlankLineKeepsVisible(buffer, MergeFrom("", rest));
      } else if buffer == "" {
        MergeKeepsVisible(l, rest);
      } else if !EndsSentence(buffer) {
        MergeKeepsVisible(buffer + " " + LStrip(l), rest);
        AppendedLineKeepsVisible(buffer, l);
      } else {
        MergeKeepsVisible(l, rest);
        FlushedLineKeepsVisible(buffer, MergeFrom(l, rest));
      }
    }
  }

  /** The text `merge_broken_lines` returns. */
  function MergedText(text: string): string
  {
    Join("\n", MergeFrom("", RStripLines(SplitLines(text))))
  }

  /** Merging lines keeps every visible character, in order. */
  lemma MergedTextKeepsVisible(text: string)
    ensures NonWs(MergedText(text)) == NonWs(text)
  {
    var raw := SplitLines(text);
    var lines := RStripLines(raw);
    MergeKeepsVisible("", lines);
    NonWsJoin("\n", MergeFrom("", lines));
    forall i | 0 <= i < |lines|
      ensures NonWs(lines[i]) == NonWs(raw[i])
    {
      RStripKeepsVisible(raw[i]);
    }
    NonWsConcatPointwise(lines, raw);
    NonWsJoin("\n", raw);
    SplitLinesNonWs(text);
  }

  /** Reading one more line: the lines it emits and the buffer it leaves. */
  function MergeRead(buffer: string, line: string): (seq<string>, string)
  {
    if line == "" then (Flush(buffer) + [""], "")
    else if buffer == "" then ([], line)
    else if !EndsSentence(buffer) then ([], buffer + " " + LStrip(line))
    else ([Strip(buffer)], line)
  }

  /** `MergeFrom` reads its first line as `MergeRead` says. */
  lemma MergeUnfold(buffer: string, lines: seq<string>)
    requires lines != []
    ensures var (out, next) := MergeRead(buffer, lines[0]);
      MergeFrom(buffer, lines) == out + MergeFrom(next, lines[1..])
  {
    if lines[0] != "" && (buffer == "" || !EndsSentence(buffer)) {
      assert MergeRead(buffer, lines[0]).0 == [];
    }
  }

  /** One step of the buffer loop, reading `lines[k]`. */
  lemma MergeStep(merged: seq<string>, buffer: string, lines: seq<string>, k: nat)
    requires k < |lines|
    ensures var (out, next) := MergeRead(buffer, lines[k]);
      merged + MergeFrom(buffer, lines[k..]) == (merged + out) + MergeFrom(next, lines[k + 1..])
  {
    assert lines[k..][0] == lines[k] && lines[k..][1..] == lines[k + 1..];
    MergeUnfold(buffer, lines[k..]);
    var (out, next) := MergeRead(buffer, lines[k]);
    AppendAssoc(merged, out, MergeFrom(next, lines[k + 1..]));
  }

  /** The `buffer` loop of `merge_broken_lines`. */
  method MergeLines(lines: seq<string>) returns (merged: seq<string>)
    ensures merged == MergeFrom("", lines)
  {
    merged := [];
    var buffer := "";
    var k := 0;
    while k < |lines|
      invariant 0 <= k <= |lines|
      invariant merged + MergeFrom(buffer, lines[k..]) == MergeFrom("", lines)
    {
      var line := lines[k];
      MergeStep(merged, buffer, lines, k);
      ghost var after := MergeRead(buffer, line);
      ghost var emitted := merged + after.0;
      if line == "" {
        if buffer != "" {
          merged := merged + [Strip(buffer)];
          buffer := "";
        }
        merged := merged + [""];
        k := k + 1;
        assert merged == emitted && buffer == after.1;
        continue;
      }
      if buffer == "" {
        buffer := line;
      } else if !EndsSentence(buffer) {
        buffer := buffer + " " + LStrip(line);
      } else {
        merged := merged + [Strip(buffer)];
        buffer := line;
      }
      k := k + 1;
      assert merged == emitted && buffer == after.1;
    }
    if buffer != "" {
      merged := merged + [Strip(buffer)];
    }
    assert lines[k..] == [];
  }

  /** `merge_broken_lines`: lines right-stripped, the buffer loop, then the
      lines joined by `\n`. */
  method MergeBrokenLines(text: string) returns (r: string)
    ensures r == MergedText(text)
  {
    var merged := MergeLines(RStripLines(SplitLines(text)));
    r := Join("\n", merged);
  }

  // ---------------------------------------------------------------------
  // preprocess_text
  // ---------------------------------------------------------------------

  /** `preprocess_text`: unicode normalisation (the `nfkc` input), then
      punctuation, hyphen repair, whitespace and line merging, in that
      order. */
  method PreprocessText(nfkc: string -> string, isWord: char -> bool, text: string) returns (r: string)
    requires WordClass(isWord)
    ensures r == MergedText(WhitespaceNormalized(FixHyphenatedLinebreaks(isWord, NormalizePunctuation(nfkc(text)))))
  {
    var t := nfkc(text);
    t := NormalizePunctuation(t);
    t := FixHyphenatedLinebreaks(isWord, t);
    t := NormalizeWhitespace(t);
    r := MergeBrokenLines(t);
  }

  /** After hyphen repair, the whitespace and line-merging steps keep every
      visible character in order. */
  lemma PreprocessKeepsVisible(nfkc: string -> string, isWord: char -> bool, text: string)
    requires WordClass(isWord)
    ensures var repaired := FixHyphenatedLinebreaks(isWord, NormalizePunctuation(nfkc(text)));
      NonWs(MergedText(WhitespaceNormalized(repaired))) == NonWs(repaired)
  {
    var repaired := FixHyphenatedLinebreaks(isWord, NormalizePunctuation(nfkc(text)));
    WhitespaceNormalizedKeepsVisible(repaired);
    MergedTextKeepsVisible(WhitespaceNormalized(repaired));
  }
}

=== FILE: VectorFilter.dfy ===
/** `VectorFilter` (app/infrastructure/vector_store/vector_filter.py): a
    metadata filter for the vector store, built by the `match` and `range`
    constructors and serialised by `to_vector_filter` into the dictionary
    the store's query API takes. */
module VectorFilter {
  import opened Wrappers
  import opened Docs

  /** The dataclass. `filter_type` is annotated as `"match"` or `"range"`,
      but a dataclass does not check it, so any string can be stored. */
  datatype VectorFilter = VectorFilter(
    key: string,
    filterType: string,
    value: Value,
    gte: Option<int>,
    lte: Option<int>,
    gt: Option<int>,
    lt: Option<int>)

  /** The dictionaries `to_vector_filter` returns. */
  datatype Json = JStr(s: string) | JInt(n: int) | JValue(v: Value) | JObj(fields: map<string, Json>)

  /** `VectorFilter.match(key, value)`. */
  function Match(key: string, value: Value): (f: VectorFilter)
    ensures f.key == key && f.filterType == "match" && f.value == value
    ensures f.gte.None? && f.lte.None? && f.gt.None? && f.lt.None?
  {
    VectorFilter(key, "match", value, None, None, None, None)
  }

  /** `VectorFilter.range(key, gte=…, lte=…, gt=…, lt=…)`; the value keeps
      its default `None`. */
  function Range(key: string, gte: Option<int>, lte: Option<int>, gt: Option<int>, lt: Option<int>): (f: VectorFilter)
    ensures f.key == key && f.filterType == "range" && f.value == Null
    ensures f.gte == gte && f.lte == lte && f.gt == gt && f.lt == lt
  {
    VectorFilter(key, "range", Null, gte, lte, gt, lt)
  }

  /** The four bound names, in the order of the source's dictionary. */
  const BoundNames: seq<string> := ["gte", "lte", "gt", "lt"]

  /** The bound stored under a bound name. */
  function Bound(f: VectorFilter, name: string): Option<int> {
    if name == "gte" then f.gte
    else if name == "lte" then f.lte
    else if name == "gt" then f.gt
    else if name == "lt" then f.lt
    else None
  }

  /** Adds `name: v` when the bound is present. */
  function PutBound(m: map<string, Json>, name: string, b: Option<int>): map<string, Json> {
    match b
    case Some(v) => m[name := JInt(v)]
    case None => m
  }

  /** The comprehension over the bounds that keeps those that are not `None`. */
  function RangeBody(f: VectorFilter): (body: map<string, Json>)
    ensures forall name :: name in body <==> name in BoundNames && Bound(f, name).Some?
    ensures forall name :: name in body ==> body[name] == JInt(Bound(f, name).value)
  {
    PutBound(PutBound(PutBound(PutBound(map[], "gte", f.gte), "lte", f.lte), "gt", f.gt), "lt", f.lt)
  }

  /** `to_vector_filter`: `None` (the implicit return) for a filter type
      other than the two known ones. */
  function ToVectorFilter(f: VectorFilter): (r: Option<Json>)
    ensures r.Some? <==> f.filterType == "match" || f.filterType == "range"
    ensures r.Some? ==> r.value.JObj? && "key" in r.value.fields && r.value.fields["key"] == JStr(f.key)
  {
    if f.filterType == "match" then
      Some(JObj(map["key" := JStr(f.key), "match_text" := JObj(map["text" := JValue(f.value)])]))
    else if f.filterType == "range" then
      Some(JObj(map["key" := JStr(f.key), "range" := JObj(RangeBody(f))]))
    else None
  }

  /** Reads a bound back out of a serialised range body. */
  function ReadBound(body: map<string, Json>, name: string): Option<int> {
    if name in body && body[name].JInt? then Some(body[name].n) else None
  }

  /** The inverse of `to_vector_filter` on what it produces: recognises the
      match and range dictionaries and rebuilds the filter. */
  function FromVectorFilter(j: Json): Option<VectorFilter> {
    if !j.JObj? || "key" !in j.fields || !j.fields["key"].JStr? then None
    else
      var key := j.fields["key"].s;
      if j.fields.Keys == {"key", "match_text"} then
        var m := j.fields["match_text"];
        if m.JObj? && m.fields.Keys == {"text"} && m.fields["text"].JValue? then Some(Match(key, m.fields["text"].v)) else None
      else if j.fields.Keys == {"key", "range"} && j.fields["range"].JObj? then
        var body := j.fields["range"].fields;
        Some(Range(key, ReadBound(body, "gte"), ReadBound(body, "lte"), ReadBound(body, "gt"), ReadBound(body, "lt")))
      else None
  }

  /** A match filter serialises to `{"key": k, "match_text": {"text": v}}`,
      and reading that back gives the filter again. */
  lemma MatchRoundTrip(key: string, value: Value)
    ensures ToVectorFilter(Match(key, value))
      == Some(JObj(map["key" := JStr(key), "match_text" := JObj(map["text" := JValue(value)])]))
    ensures FromVectorFilter(ToVectorFilter(Match(key, value)).value) == Some(Match(key, value))
  {
    var j := ToVectorFilter(Match(key, value)).value;
    assert j.fields.Keys == {"key", "match_text"};
    assert j.fields["match_text"].fields.Keys == {"text"};
  }

  /** A range filter serialises to its key and exactly its present bounds
      (an empty body when none is given), and reading that back gives the
      filter again. */
  lemma RangeRoundTrip(key: string, gte: Option<int>, lte: Option<int>, gt: Option<int>, lt: Option<int>)
    ensures var j := ToVectorFilter(Range(key, gte, lte, gt, lt));
      && j.Some? && j.value.JObj? && "range" in j.value.fields && j.value.fields["range"].JObj?
      && (gte.None? && lte.None? && gt.None? && lt.None? ==> j.value.fields["range"].fields == map[])
    ensures FromVectorFilter(ToVectorFilter(Range(key, gte, lte, gt, lt)).value) == Some(Range(key, gte, lte, gt, lt))
  {
    var f := Range(key, gte, lte, gt, lt);
    var j := ToVectorFilter(f).value;
    var body := RangeBody(f);
    assert j.fields.Keys == {"key", "range"};
    assert j.fields.Keys != {"key", "match_text"} by {
      assert "range" in j.fields.Keys;
    }
    forall name | name in BoundNames ensures ReadBound(body, name) == Bound(f, name) {
    }
    assert ReadBound(body, "gte") == gte;
    assert ReadBound(body, "lte") == lte;
    assert ReadBound(body, "gt") == gt;
    assert ReadBound(body, "lt") == lt;
    if gte.None? && lte.None? && gt.None? && lt.None? {
      assert forall name :: name !in body;
    }
  }
}

=== FILE: Wrappers.dfy ===
/** Option and Result, the two failure-carrying values the model uses for
    Python's `None` and for the exceptions the source raises. */
module Wrappers {

  datatype Option<+T> = None | Some(value: T) {
    function GetOr(default: T): T {
      match this
      case Some(v) => v
      case None => default
    }
  }

  /** A raised exception, by the Python exception class the source would raise. */
  datatype Error =
    | TypeError(detail: string)
    | ValueError(detail: string)
    | KeyError(key: string)
    | UnboundLocalError(name: string)
    | AttributeError(name: string)
    | NameError(name: string)
    | DecodeError

  datatype Result<+T> = Ok(value: T) | Err(error: Error)
}
